=== FILE: README.md ===
# Design-document automator, modelled in Dafny

The system generates Markdown design documents for software projects. It fills a template with a project's name, description and features through an LLM (Gemini). It can also adapt an example document to a new project. It has five parts, and this model covers the logic in each:

- **Command-line tool** (`src/`). Argument parsing and command checks (`Cli`). Slugging and output-file naming, prompt defaults, and the generate and adapt pipelines (`Generator`). The Gemini client's configuration, prompts and model switch (`Gemini`). The model catalogue with its cached listing (`Models`). Placeholder substitution (`Placeholders`). Template file names (`TemplateFiles`).
- **Express back end** (`backend/`). The in-memory registry of generated documents (`DocsController`). The in-memory template registry and template preview (`TemplatesController`). The file-backed template store, modelled as a map from name to content (`TemplatesService`).
- **React front end** (`frontend/src/`). The preview service with its cache (`PreviewService`). The page logic of the generation form (`GeneratePage`), the history list (`HistoryPage`), the template editor (`TemplateEditor`), the settings (`SettingsPage`) and the template list (`TemplatesPage`).
- **Python agent** (`pocketflow_agent/`). The `Flow.run` loop with its status and progress bar (`Flow`). The DM-log nodes: task extraction, context defaults, entry formatting and insertion (`DmLog`).
- **Documentation scripts** (`scripts/`). The review rules and report (`DocReview`). The README badges (`Badges`). The dashboard's classifiers and activity list (`Dashboard`). The DM-log update script (`DmLog`).

Shared modules:
- `Text` holds the JavaScript and Python string primitives the code relies on: lower-casing, the `\s+` slug, `indexOf`, `split`/`join`, `trim` and regex match counts.
- `Common` holds `Option`, `Result` and file paths.

External effects are parameters or oracles:
- The LLM's answer is a function from prompt to `Result<string>`.
- Ids, dates and timestamps are arguments.
- The files a script reads are `Option<string>` arguments (absent when the file does not exist).
- Directories are maps from name to content.

Code that updates state step by step is written as methods with loop invariants. This covers `parseArgs`, `Flow.run`, the review functions and the report builder, the metrics, the registries (classes whose fields are the module-level arrays) and the caches. Each method is proved against a specification function, and the lemmas are stated about those functions.

Two behaviours of the code are kept as they are:
- Placeholder substitution is not idempotent, even when no value contains `{{…}}`: a value can complete a token around it, which a second pass then replaces (`Placeholders.SubstitutionNotIdempotent`, with `{{{{K}}}}` and `K ↦ K`).
- Both DM-log writers insert at `indexOf(marker) + marker.length`. When the marker is missing, that is offset 22, inside the existing text, and the model keeps this (`DmLog.MarkerAbsentQuirk`).

## Model

| member | source | states |
|---|---|---|
| Text.Slug | src/generator.js:63 | `toLowerCase().replace(/\s+/g, '-')`: the result is no longer than the input, holds no white space, is lower case, and is empty exactly when the input is |
| Text.SlugJoinsWords | src/generator.js:63 | a word, a run of white space and the rest slug to the lower-cased word, one '-' and the slug of the rest |
| Text.SlugIgnoresGapWidth | src/generator.js:63 | the width of a white-space run does not change the slug |
| Text.SlugNotInjective | src/generator.js:63-67 | "My Project" and "my project" differ but both slug to "my-project" |
| Text.SlugIdempotent | src/generator.js:63 | slugging a slug changes nothing |
| Text.IndexOf | scripts/update-dm-log.js:34 | `indexOf`: -1 exactly when the pattern occurs nowhere, otherwise an occurrence with none before it |
| Text.JoinSplit | src/cli.js:109 | joining the pieces of `split(',')` with ',' gives the text back |
| Text.SplitJoin | src/cli.js:109 | splitting the join of comma-free pieces gives the pieces back |
| Text.TrimEmptyIffBlank | frontend/src/pages/GeneratePage.js:229 | `trim()` gives '' exactly when every character is white space |
| Text.Capitalize | backend/services/templatesService.js:34 | same length; the first character upper-cased, the rest unchanged |
| Text.DecimalRoundTrip | scripts/update-badges.js:24-40 | the decimal digits written for a number read back as that number |
| Text.Lower | src/generator.js:63 | `toLowerCase` on ASCII letters: same length, each character lowered, the result lower-case |
| Text.IndexFrom | scripts/update-badges.js:48 | `indexOf(p, from)`: -1 exactly when no occurrence starts at or after `from`, else the first such occurrence |
| Text.Count | scripts/update-badges.js:123-125 | the number of non-overlapping matches of a fixed pattern fits in the text |
| Text.CountZeroIff | scripts/update-badges.js:123-125 | no match is counted exactly when the pattern does not occur |
| Text.Split | src/cli.js:109 | `split(',')`: at least one piece, none holding the separator |
| Text.Trim | frontend/src/pages/GeneratePage.js:229 | `trim()` on ASCII white space: the result is a slice of the input with only white space before and after it, and it neither starts nor ends with white space |
| Text.Prefix | frontend/src/services/previewService.js:17-18 | `substring(0, n)`: the first n characters, or all when fewer |
| Text.ReplaceFirstShape | frontend/src/pages/TemplateEditorPage.js:159 | `ReplaceFirst`, a string-pattern `replace`, by a text starting with the pattern keeps the text before and after the first occurrence, puts the text there, and leaves no occurrence before it |
| Placeholders.Placeholder | src/utils.js:75 | `{{KEY}}` is the key wrapped in two braces on each side |
| Placeholders.PiecesJoin | src/utils.js:76 | the pieces between the left-to-right, non-overlapping occurrences, glued back with the pattern, give the text |
| Placeholders.PiecesClean | src/utils.js:76 | no piece between two replaced occurrences still holds the pattern: every occurrence is replaced |
| Placeholders.ReplaceAllIsPiecesJoin | src/utils.js:76 | a global replace (`ReplaceAll`) is the pieces joined with the value |
| Placeholders.ReplaceAllSkipsValue | src/utils.js:76 | text produced by the value is not scanned again within the same `ReplaceAll` pass |
| Placeholders.ReplaceAllAbsent | src/utils.js:76 | a `ReplaceAll` pass over a text without the pattern changes nothing |
| Placeholders.ReplaceAllLength | src/utils.js:75-76 | a `ReplaceAll` pass changes the length by k·(\|value\| − \|pattern\|), k the number of occurrences |
| Placeholders.ReplaceTemplateValues | src/utils.js:71-80 | for keys without regular-expression metacharacters, the loop result is `ApplyEntries`: the entries applied one after another, in order, each as one global pass on the current text |
| Placeholders.ApplyEntriesAppend | src/utils.js:74-77 | `ApplyEntries` of a mapping in two parts is `ApplyEntries` of it whole: later keys see the earlier keys' output |
| Placeholders.ApplyEntriesUntouched | src/utils.js:72-79 | with no `{{KEY}}` of any key in the text (or no entry at all) `ApplyEntries` gives the input |
| Placeholders.SingleKeyLength | src/utils.js:75-76 | with one key `ApplyEntries` moves the length by k·(\|value\| − \|`{{KEY}}`\|) |
| Placeholders.SubstitutionNotIdempotent | src/utils.js:74-77 | a value can complete a placeholder: `ApplyEntries` on "{{{{K}}}}" with K→"K" gives "{{K}}" once and "K" twice |
| Placeholders.PreviewEntries | backend/controllers/templatesController.js:219-224 | five substitutions, PROJECT_NAME first and the caller's date last |
| Placeholders.PreviewUntouched | backend/controllers/templatesController.js:219-224 | a template with none of the five placeholders previews (`Preview`) as itself |
| Placeholders.PreviewOfTitle | backend/controllers/templatesController.js:220 | in `Preview`, the project-name placeholder becomes the sample project name |
| TemplateFiles.TemplateFileName | src/utils.js:36-37 | the file of template n starts with n and ends with "-template.md" |
| TemplateFiles.NameOfFile | backend/services/templatesService.js:24-28 | a listed file's name is the file less the 12 characters of the suffix |
| TemplateFiles.NameRoundTrip | backend/services/templatesService.js:24-28 | a name without the suffix inside survives file name and back |
| TemplateFiles.NameRoundTripFails | backend/services/templatesService.js:28 | a name holding the suffix does not: the first occurrence is removed |
| TemplateFiles.DisplayName | backend/services/templatesService.js:34 | same length; the first character upper-cased, the rest unchanged |
| Generator.Disk.constructor | src/generator.js:67 | the file system the pipeline writes to starts as the given map from path to content |
| Generator.TemplatePath | src/utils.js:34-37 | template n is read from `n-template.md`, in `templatesDir` when given, else in the project's `templates` directory |
| Generator.LoadTemplate | src/utils.js:39-46 | the stored content when the file exists; otherwise "Failed to load template n: " and the read error |
| Generator.DesignFileName | src/generator.js:63 | the output file is slug(projectName) + "-design.md", and the part before the suffix holds no white space |
| Generator.SameSlugSameFile | src/generator.js:63-64 | two project names with the same slug are written to the same path |
| Generator.OutputCollision | src/generator.js:63-67 | "My Project" and "my project" are written to the same path, so the later write replaces the earlier |
| Generator.PromptDataFor | src/generator.js:44-51 | the model gets the project name, the template text, the context, a non-empty description, some feature list and non-empty instructions |
| Generator.PromptDataDefaults | src/generator.js:47-49 | an empty description becomes "Projet " + name; absent features become the two defaults, an empty list stays empty; an unconfigured template gets the default instructions |
| Generator.GenerateDesignDoc | src/generator.js:24-73 | template read first (its error leaves the disk untouched); with the template, no key fails with "Gemini API key is required", a model error fails with "Failed to generate design document: " and the error, and a model answer succeeds; on success the answer with every `{{PROJECT_NAME}}` replaced is written to output/slug-design.md, that path and that content are returned, and only that file changes |
| Generator.GenerateFromExample | src/generator.js:82-107 | a missing example fails and writes nothing; with the example, no key fails with "Gemini API key is required", a model error fails with "Failed to adapt design document: " and the error, and a model answer succeeds; on success the answer is written unchanged to output/slug-design.md (description defaulting to "Projet " + name) and only that file changes |
| Generator.GenerateTwice | src/generator.js:63-67 | two generations whose names share a slug and output directory return the same path, and the file holds the second content |
| Gemini.GetClient | src/gemini-client.js:15-23 | no configuration or no key fails with 'Gemini API key is required'; otherwise the model defaults to 'gemini-2.5-pro' and the output limit to 8192 |
| Gemini.ClientDefaults | src/gemini-client.js:21-23 | a client built from a key always has a model name and a positive output limit |
| Gemini.UseModel | src/gemini-client.js:201-222 | an empty name fails with 'Model name is required'; otherwise a client on the same configuration with only `model` replaced |
| Gemini.UseSameModel | src/gemini-client.js:219-222 | switching to the configured model gives the same client |
| Gemini.Bullets | src/gemini-client.js:61 | one "- f" per feature, in order |
| Gemini.FeaturesTextLines | src/gemini-client.js:61 | no features give ''; otherwise the lines of the text are exactly the bullets |
| Gemini.DesignPromptParts | src/gemini-client.js:53-92 | the design prompt interpolates name, description, features, instructions, template and context, with description, features and context defaulting to empty |
| Gemini.DesignPromptCarries | src/gemini-client.js:63-92 | the prompt contains the project name, description, feature text, instructions and template verbatim |
| Gemini.GenerateDesignDoc | src/gemini-client.js:94-101 | the answer of the model, or its error prefixed with 'Failed to generate design document: ' |
| Gemini.AdaptPromptParts | src/gemini-client.js:113-136 | the adapt prompt interpolates name, description (default '') and example |
| Gemini.AdaptPromptCarries | src/gemini-client.js:116-136 | the prompt contains the project name, the example and the description verbatim |
| Gemini.AdaptExampleDoc | src/gemini-client.js:138-145 | the answer of the model, or its error prefixed with 'Failed to adapt design document: ' |
| Gemini.FallbackModels | src/gemini-client.js:163-191 | the fixed fallback list has four models |
| Gemini.Listing | src/gemini-client.js:155-159 | the listed models, one for one, in order |
| Gemini.ModelInfoFrom | src/gemini-client.js:153-192 | the current model is always the client's; a failed listing gives the fixed list, a successful one the listed models |
| Gemini.GetModelInfo | src/gemini-client.js:153-159 | with the manager the client builds, the listing succeeds with the default models, so the fallback list is never answered |
| Gemini.ClientRecommendedModel | src/gemini-client.js:231-233 | through the client, 'quickDraft' gets 'gemini-2.5-flash' and every other task 'gemini-2.5-pro' |
| Models.DefaultModels | src/models-manager.js:44-55 | the default list has two models, 'gemini-2.5-pro' then 'gemini-2.5-flash' |
| Models.ConfiguredModels | src/models-manager.js:44-55 | `config.models.available` when present, the default list otherwise |
| Models.FindById | src/models-manager.js:74 | `find`: none exactly when no model has the id; otherwise the first with it |
| Models.ModelCapabilities | src/models-manager.js:114-168 | an unknown id gets the default record; a known one is multimodal, generates code and has an input limit |
| Models.CapabilitiesTable | src/models-manager.js:116-167 | every record streams; long context exactly when the input limit is 1048576; known ids exactly have an output limit |
| Models.RecommendedModel | src/models-manager.js:98-106 | never empty; with a configured table, the table's non-empty entry for the task type or the default model; without one, "gemini-2.5-flash" for 'quickDraft' and the default model for every other task |
| Models.RecommendedDefaults | src/models-manager.js:99-105 | without a configured table, 'quickDraft' gets 'gemini-2.5-flash' and everything else 'gemini-2.5-pro' |
| Models.RecommendedNotMerged | src/models-manager.js:99-105 | a configured table replaces the default one entirely: a task absent from it falls to 'gemini-2.5-pro' even when the default table names another |
| Models.ModelsManager.constructor | src/models-manager.js:18-27 | key and configuration are kept and the cache starts empty |
| Models.ModelsManager.Listed | src/models-manager.js:36-55 | what a listing returns: the cache when set, the configured list otherwise |
| Models.ModelsManager.ListModels | src/models-manager.js:34-58 | returns the configured list and caches it |
| Models.ListTwice | src/models-manager.js:36-38 | a second listing returns the first one's list unchanged |
| Models.ModelsManager.GetModelInfo | src/models-manager.js:71-90 | lists (filling the cache) and answers from that list |
| Models.InfoFrom | src/models-manager.js:73-89 | an absent id fails with 'Failed to get model info: Model id not found'; otherwise the listed model and its capabilities |
| Models.New | src/models-manager.js:18-21 | an empty key fails with 'Gemini API key is required'; otherwise a fresh manager with an empty cache |
| Models.CreateModelsManager | src/models-manager.js:177-183 | fails with 'Gemini API key is required in config' unless `config.gemini.apiKey` is set |
| Cli.TrimEach | src/cli.js:109 | `map(f => f.trim())`: same length, each piece trimmed |
| Cli.ParseArgs | src/cli.js:63-130 | the index-walking loop computes `ParseSpec`, the recursive parse specification (`ParseFrom` over the remaining arguments): command from the first argument, each value flag consuming the next argument |
| Cli.NoArguments | src/cli.js:64-74 | `ParseSpec` of no arguments gives the defaults: 'generate', template 'pocketflow', output './output', empty description and features, no project, example or model, detail off |
| Cli.CommandFromFirst | src/cli.js:77-80 | in `ParseSpec`, the command is 'help', or the first argument exactly when it is present and does not start with '-', or 'generate' |
| Cli.LaterValueWins | src/cli.js:87-118 | in `ParseFrom`, a later occurrence of a value flag overwrites an earlier one |
| Cli.UnknownIgnored | src/cli.js:86-126 | in `ParseFrom`, an argument matching no case is skipped |
| Cli.FeaturesValue | src/cli.js:107-110 | in `ParseFrom`, --features consumes its value, split on ',' and trimmed; with no value left the `split` on undefined throws |
| Cli.DescriptionFlag | src/cli.js:99-106 | in `ParseFrom`, under 'models' -d sets detail and consumes nothing; otherwise it consumes the description |
| Cli.HelpAnywhere | src/cli.js:122-125 | in `ParseFrom`, -h makes the command 'help' wherever it stands |
| Cli.HelpSticks | src/cli.js:122-125 | in `ParseFrom`, once the command is 'help' no later argument changes it |
| Cli.CommandOnlyBecomesHelp | src/cli.js:83-127 | the option loop (`ParseFrom`) leaves the command as it was or makes it 'help' |
| Cli.OverrideModel | src/cli.js:193-195 | --model replaces `config.gemini.model`; without a gemini section the assignment throws |
| Cli.Decide | src/cli.js:180-253 | 'help' shows help; a configuration error exits 1 with "Erreur: "; with a configuration, models always runs, generate runs exactly when there is a project, adapt exactly when there are a project and an example; a missing project or example exits 1 with its message, another command with "Commande inconnue: "; the run gets the parsed options and the configuration with the model override, whose failure exits 1 with "Erreur: " |
| Cli.Run | src/cli.js:179-253 | the command-line entry point decides as `Decide` on `ParseSpec` of the arguments |
| Cli.UnknownCommandExits | src/cli.js:244-247 | an unknown command parsed by `ParseSpec` exits with code 1 |
| Cli.MissingRequiredExits | src/cli.js:199-228 | generate without a project, or adapt without a project or an example, exits with code 1 |
| DocsController.DescriptionOr | backend/controllers/docsController.js:65 | `description \|\| "Projet " + name` is never empty |
| DocsController.FeatureLines | backend/controllers/docsController.js:56 | given features give one "- f" line each (none for an empty list) |
| DocsController.FeatureLinesDefaults | backend/controllers/docsController.js:56 | absent features give the two default lines; an empty list gives no line |
| DocsController.GeneratedContent | backend/controllers/docsController.js:56 | the simulated document starts "# X Design" and ends with the features heading and the feature lines |
| DocsController.LineEnd | backend/controllers/docsController.js:111 | where `.*` stops: the first line terminator from the start, or the end of the text |
| DocsController.RetitleFirstHeading | backend/controllers/docsController.js:111 | `replace(/# .*/, …)`: the first "# " through the end of its line becomes the title; without "# " the text is unchanged |
| DocsController.RetitleHitsSubheading | backend/controllers/docsController.js:111 | on a "## …" heading the match starts at its second '#', leaving "#" + title |
| DocsController.ReplaceObjectives | backend/controllers/docsController.js:112 | from the first "### Objectifs Principaux" up to the next "###" the block is replaced; with no such heading, or no "###" after it, the text is unchanged |
| DocsController.FindIndex | backend/controllers/docsController.js:217 | `findIndex`: -1 exactly when no record has the id; otherwise the first record with it |
| DocsController.FindAppended | backend/controllers/docsController.js:72 | a record appended under a fresh id is found at the end |
| DocsController.InsertByDate | backend/controllers/docsController.js:152-154 | inserting into a newest-first list keeps it newest first and adds exactly that record, in front of the records of the same date |
| DocsController.SortNewestFirst | backend/controllers/docsController.js:152-154 | the listing is sorted by creation date, newest first, is a permutation of the registry, and keeps the records of one date in their registry order, as the stable `Array.prototype.sort` does |
| DocsController.GeneratedRecord | backend/controllers/docsController.js:51-70 | the stored record: description 'Projet X', template 'pocketflow' and model 'gemini-2.5-pro' by default, file output/slug(X)-design.md |
| DocsController.AdaptedRecord | backend/controllers/docsController.js:105-126 | the adapted record is marked adapted, has no template, and the same defaults and file name |
| DocsController.Unavailable | backend/controllers/docsController.js:190 | the content answered for an unreadable file starts "# X Design" |
| DocsController.DocsRegistry.constructor | backend/controllers/docsController.js:12-31 | the registry starts from the given documents |
| DocsController.DocsRegistry.GenerateDoc | backend/controllers/docsController.js:39-85 | no name answers 400; a write error answers 500; both leave the registry unchanged; otherwise exactly one record is appended and 201 is answered with the record and its content |
| DocsController.DocsRegistry.AdaptDoc | backend/controllers/docsController.js:93-141 | no name or no example answers 400; a write error answers 500; otherwise the adapted record is appended and answered with the retitled, re-objectived example |
| DocsController.DocsRegistry.GetAllDocs | backend/controllers/docsController.js:149-165 | the count is the registry's length and the list is a newest-first permutation of it in which records of one date keep their registry order (`SameDate`); the registry is not changed |
| DocsController.DocsRegistry.GetDocById | backend/controllers/docsController.js:173-204 | an unknown id answers 404; otherwise 200 with the first matching record and the file content, or "# X Design\n\n(Contenu non disponible)" when the file is missing |
| DocsController.DocsRegistry.DeleteDoc | backend/controllers/docsController.js:212-244 | an unknown id answers 404 and changes nothing; otherwise exactly that record is spliced out, whatever happens to the file |
| DocsController.RemoveAtExact | backend/controllers/docsController.js:234 | the splice removes one copy of that record and keeps the others in order |
| DocsController.DeletedNotFound | backend/controllers/docsController.js:217-234 | with unique ids, a deleted id is no longer found |
| TemplatesController.SeedTemplates | backend/controllers/templatesController.js:11-30 | the registry starts with three templates |
| TemplatesController.IndexOfName | backend/controllers/templatesController.js:144 | `findIndex` by name: -1 exactly when no template has the name; otherwise the first with it |
| TemplatesController.SampleContent | backend/controllers/templatesController.js:73 | the content answered for a found template contains `{{PROJECT_NAME}}` |
| TemplatesController.PreviewTemplate | backend/controllers/templatesController.js:209-234 | no content answers 400; otherwise all occurrences of the five placeholders are replaced by the sample values, the date being a parameter |
| TemplatesController.TemplatesRegistry.constructor | backend/controllers/templatesController.js:11-30 | the registry starts with the three seed templates, names unique |
| TemplatesController.TemplatesRegistry.GetAllTemplates | backend/controllers/templatesController.js:38-52 | the count and the list as they are |
| TemplatesController.TemplatesRegistry.GetTemplateByName | backend/controllers/templatesController.js:60-86 | 404 exactly for an unknown name; otherwise the first template with that name and content containing `{{PROJECT_NAME}}` |
| TemplatesController.TemplatesRegistry.CreateTemplate | backend/controllers/templatesController.js:94-130 | no display name or no content answers 400; an existing slug answers 400 and the list is unchanged; otherwise one template named slug(displayName), description defaulting to '', is appended, names staying unique |
| TemplatesController.TemplatesRegistry.UpdateTemplate | backend/controllers/templatesController.js:138-170 | an unknown name answers 404; otherwise only that index changes: the name stays, an empty display name keeps the old one, a given description (even '') replaces the old one |
| TemplatesController.TemplatesRegistry.DeleteTemplate | backend/controllers/templatesController.js:178-201 | an unknown name answers 404; otherwise exactly that entry is spliced out |
| TemplatesController.DeletedTemplateGone | backend/controllers/templatesController.js:183-191 | with unique names, a deleted name is no longer found |
| TemplatesController.CreatedTemplateFound | backend/controllers/templatesController.js:106-120 | a template created under a fresh name is found at the end, and names stay unique |
| TemplatesController.SecondCreateRefused | backend/controllers/templatesController.js:103-108 | after creating one display name, any display name with the same slug is found taken |
| TemplatesService.Lookup | backend/services/templatesService.js:53-79 | found exactly when `n-template.md` exists: then its content, name n and the capitalised display name; otherwise 'Failed to get template: Template "n" not found' |
| TemplatesService.ListTemplates | backend/services/templatesService.js:18-41 | only files ending in "-template.md" are listed, each from the directory, named by its file |
| TemplatesService.ListTemplatesComplete | backend/services/templatesService.js:24 | every template file of the directory is listed |
| TemplatesService.CreatedIsListed | backend/services/templatesService.js:24-28 | a template stored under a name without the suffix inside is listed under that name |
| TemplatesService.TemplateStore.constructor | backend/services/templatesService.js:8 | the store starts on the given templates directory: its path and its files |
| TemplatesService.TemplateStore.GetTemplateByName | backend/services/templatesService.js:53-79 | reading a template is the lookup on the current directory |
| TemplatesService.AccessErrorCarriesName | backend/services/templatesService.js:95-102 | the "file missing" error of `fs.access` carries the file name, so for a name containing "already exists" that error passes the `includes('already exists')` test and is rethrown |
| TemplatesService.TemplateStore.CreateTemplate | backend/services/templatesService.js:89-122 | an existing name fails with 'Failed to create template: Template "n" already exists' and leaves the directory unchanged; an absent name whose access error contains "already exists" fails with 'Failed to create template: ' and that error, unchanged; otherwise exactly that file is written and returned |
| TemplatesService.TemplateStore.UpdateTemplate | backend/services/templatesService.js:132-163 | an absent name fails with 'Failed to update template: …'; empty or absent content leaves the file and returns it; other content replaces exactly that file |
| TemplatesService.TemplateStore.DeleteTemplate | backend/services/templatesService.js:171-188 | an absent name fails with 'Failed to delete template: …'; otherwise exactly that file is removed |
| TemplatesService.CreateThenGet | backend/services/templatesService.js:106 | after a create, a read returns the written content and other templates read as before |
| TemplatesService.DeleteThenGet | backend/services/templatesService.js:183 | after a delete, a read fails with not found |
| TemplatesService.FileNamesDistinct | backend/services/templatesService.js:55 | distinct names live in distinct files |
| Flow.RunShape | pocketflow_agent/flow.py:60-92 | in the recursive run `RunFrom`, nodes run in list order; every report but possibly the last is a success; the run failed exactly when the last report is an error; without failure every node ran |
| Flow.RunStep | pocketflow_agent/flow.py:72-92 | one step of `RunFrom`: a node that returns stores `result_<name>` and the run goes on with the next node; a node that raises ends the run, storing no result |
| Flow.PocketFlow.constructor | pocketflow_agent/flow.py:17-31 | the flow keeps its node list, its name ("PocketFlow Update Flow" when none is given) and its API key, and holds an LLM client exactly when the key is non-empty |
| Flow.PocketFlow.Run | pocketflow_agent/flow.py:33-108 | the loop's context is that of the recursive run `RunFrom`: values (a missing initial context being empty), reports, status 'error' or 'completed', node count, and the 1-based index and name of the last executed node |
| Flow.CompletedIffNoError | pocketflow_agent/flow.py:90-96 | after `RunFrom`, the status is 'completed' exactly when every report is a success, and then every node ran |
| Flow.FilledWidth | pocketflow_agent/flow.py:127 | `int(40·(current−1)/total)` lies in [0, 40) while 1 ≤ current ≤ total, and is 0 when total is 0 |
| Flow.ProgressBar | pocketflow_agent/flow.py:126-135 | while current ≤ total the bar is 42 characters: '[', the filled '=', one '>', spaces, ']'; past the total it has no '>' |
| Flow.FilledMonotone | pocketflow_agent/flow.py:127 | the filled width never shrinks as the run advances |
| Flow.CountsAddUp | pocketflow_agent/flow.py:235-236 | success_count + error_count == len(completed_nodes) |
| Flow.RunErrorCount | pocketflow_agent/flow.py:84-92 | a `RunFrom` run has exactly one error report when it failed and none otherwise |
| DmLog.InsertPosition | pocketflow_agent/nodes/dm_log_nodes.py:194-195 | `find(marker) + len(marker)`: just after the first marker when present; `len(marker) − 1` = 22 when absent |
| DmLog.InsertEntry | pocketflow_agent/nodes/dm_log_nodes.py:197 | `content[:p] + sep + entry + content[p:]`, the slice bound clipped to the text as Python and JavaScript slices do |
| DmLog.InsertPreserves | pocketflow_agent/nodes/dm_log_nodes.py:197 | the old text is kept around the insertion and the length grows by exactly the separator and the entry |
| DmLog.InsertAfterMarker | pocketflow_agent/nodes/dm_log_nodes.py:193-197 | with the marker present, the text before the insertion ends with the marker and the separator and entry follow it |
| DmLog.MarkerAbsentQuirk | pocketflow_agent/nodes/dm_log_nodes.py:194-195 | with the marker absent the entry lands at offset 22, inside the existing text |
| DmLog.ToLineEnd | pocketflow_agent/nodes/dm_log_nodes.py:40 | Python's `.*` runs up to the first line feed |
| DmLog.TaskName | pocketflow_agent/nodes/dm_log_nodes.py:40-41 | the text after the first "Task:" and the white space after it, up to the end of the line; "Tâche inconnue" without "Task:" |
| DmLog.TaskNameExample | pocketflow_agent/nodes/dm_log_nodes.py:40-41 | "Task: Test task" gives "Test task" |
| DmLog.TaskNameMissing | pocketflow_agent/nodes/dm_log_nodes.py:41 | a message without "Task:" gives "Tâche inconnue" |
| DmLog.GitCommit | pocketflow_agent/nodes/dm_log_nodes.py:25-56 | the task name of the stripped commit message and today's date are set; results and next steps get defaults only when absent; a failing git call raises under the node's prefix |
| DmLog.DmLogParse | pocketflow_agent/nodes/dm_log_nodes.py:74-91 | the file content becomes `dm_content`; an unreadable file raises under the node's prefix |
| DmLog.FormatListsLines | pocketflow_agent/nodes/dm_log_nodes.py:144-146 | the lines of the done block are "- r", of the results block "- Résultat obtenu: r", of the next block "- n", one per item, in order |
| DmLog.EntryPromptParts | pocketflow_agent/nodes/dm_log_nodes.py:99-154 | the prompt interpolates date, task and the three blocks in their places |
| DmLog.EntryPromptCarries | pocketflow_agent/nodes/dm_log_nodes.py:148-154 | the prompt contains the date, the task name and the three blocks verbatim |
| DmLog.DmLogLlm | pocketflow_agent/nodes/dm_log_nodes.py:131-161 | a missing key raises a KeyError under the node's prefix; otherwise `dm_entry` is the model's answer to that prompt and nothing else changes |
| DmLog.DmLogUpdate | pocketflow_agent/nodes/dm_log_nodes.py:179-204 | a missing `dm_content` or `dm_entry` raises under the node's prefix; otherwise the content written is the entry inserted after the marker with "\n\n" |
| DmLog.ParseThenUpdate | pocketflow_agent/nodes/dm_log_nodes.py:84-197 | parsing then updating grows the log by the entry plus 2 and puts "\n\n" + entry right after the marker |
| DmLog.GitPushPlan | pocketflow_agent/nodes/dm_log_nodes.py:235-237 | files default to ['docs/dm-log.md'] and the message to "Auto-update docs: " + the context's date (today's when absent) |
| DmLog.ResultsBlock | scripts/update-dm-log.js:26 | empty results give "- Tâche exécutée avec succès"; otherwise one "- " bullet per line of the results |
| DmLog.ResultsBlockLines | scripts/update-dm-log.js:26 | the lines of the results block are the result lines, each prefixed with "- " |
| DmLog.ScriptEntryParts | scripts/update-dm-log.js:19-30 | the entry: "\n### date - task", the task name under the done heading, the results block, one "- step" line per next step |
| DmLog.ScriptEntryShape | scripts/update-dm-log.js:19-30 | the entry starts "\n### " followed by the date and contains the task name, the results block and the steps |
| DmLog.UpdateDmLog | scripts/update-dm-log.js:33-36 | the entry is inserted, without a separator, at indexOf(marker) + marker length, so the log grows by exactly the entry |
| DmLog.ScriptMain | scripts/update-dm-log.js:47-58 | without a task name it exits with 'Veuillez fournir un nom de tâche' and writes nothing; otherwise the log is updated with the results ('' by default) and the remaining arguments as steps |
| DocReview.Findings | scripts/doc-review.js:42-232 | each rule pushes at most one result |
| DocReview.NotFound | scripts/doc-review.js:42-232 | a result no rule carries is never pushed |
| DocReview.FindingsMember | scripts/doc-review.js:42-232 | a rule's result is pushed exactly when the rule fails |
| DocReview.RequirementsChecks | scripts/doc-review.js:57-91 | four requirements rules with distinct results |
| DocReview.ReviewRequirements | scripts/doc-review.js:42-94 | the pushes computed step by step are the findings: the one 'missing' error for an absent document, else the failed rules in order |
| DocReview.RequirementsRules | scripts/doc-review.js:57-91 | an error exactly when neither "## Requirements" nor "## Exigences" occurs; a warning exactly when "## Introduction", "User Story", or both acceptance-criteria phrases are missing; no 'missing' error for a present document |
| DocReview.DesignChecks | scripts/doc-review.js:114-139 | three design rules with distinct results |
| DocReview.ReviewDesign | scripts/doc-review.js:99-142 | the pushes are the design findings: the 'missing' error alone, else the failed rules in order |
| DocReview.DesignRules | scripts/doc-review.js:114-139 | a warning exactly for a missing "## Architecture", for missing both "## Composants" and "## Components", and for a missing "```mermaid" |
| DocReview.TasksChecks | scripts/doc-review.js:162-182 | two task rules with distinct results |
| DocReview.ReviewTasks | scripts/doc-review.js:147-185 | the pushes are the findings on tasks: the 'missing' error alone, else the failed rules in order |
| DocReview.TasksRules | scripts/doc-review.js:162-182 | an error exactly when no checkbox of any kind occurs; a warning exactly when none is done but some are in progress or to do; never both |
| DocReview.DmLogChecks | scripts/doc-review.js:205-214 | one rule on the journal |
| DocReview.ReviewDmLog | scripts/doc-review.js:190-214 | the pushes are the journal findings: the 'missing' error alone, else a warning when no "### dddd-dd-dd" heading occurs |
| DocReview.ScriptEntryIsDated | scripts/update-dm-log.js:19-36 | a journal the update script has written an entry into (dated yyyy-mm-dd) is never reported as empty |
| DocReview.Errors | scripts/doc-review.js:239 | the filtered results are all errors |
| DocReview.Warnings | scripts/doc-review.js:240 | the filtered results are all warnings |
| DocReview.TotalIsSum | scripts/doc-review.js:245-247 | errors + warnings = total |
| DocReview.ErrorsComplete | scripts/doc-review.js:239 | every error result is among the errors listed |
| DocReview.WarningsComplete | scripts/doc-review.js:240 | every warning result is among the warnings listed |
| DocReview.ItemLines | scripts/doc-review.js:251-253 | one "- **document**: message" line per result, in order |
| DocReview.GenerateReviewReport | scripts/doc-review.js:237-280 | the report appended to piece by piece is `Report`, the report specification: header, summary counts, the two sections, the recommendations |
| DocReview.AppendSection | scripts/doc-review.js:249-263 | the `forEach` appends the heading, one line per result and a blank line |
| DocReview.AppendRecommendations | scripts/doc-review.js:265-277 | the recommendation lines appended are those the counts call for |
| DocReview.ReportShape | scripts/doc-review.js:249-277 | the "Erreurs" section appears exactly when there is an error, "Avertissements" exactly when there is a warning, and the "bon état" line exactly when there are neither |
| DocReview.ReportListsErrors | scripts/doc-review.js:249-255 | every error appears in `Report` as its line |
| DocReview.AllMissing | scripts/doc-review.js:17-20 | with no document at all, the four 'missing' errors in the order requirements, design, tasks, dm-log |
| DocReview.ReviewDocumentation | scripts/doc-review.js:9-37 | results are concatenated in the order requirements, design, tasks, dm-log, and `Report` is generated from them and saved; then, through `LogReview`, a present journal gets the review entry with its counts (`ReviewSummary`), while a missing journal makes `updateDMLog`'s read fail with ENOENT on docs/dm-log.md after the report was written |
| DocReview.LogReview | scripts/doc-review.js:33-34 | a present journal is read back with the review entry (`ReviewSummary` counts, the fixed task and next steps) added by `updateDMLog`; a missing journal gives exactly the ENOENT error of reading docs/dm-log.md |
| DocReview.ReviewContributions | scripts/doc-review.js:17-20 | a missing requirements document comes first; design only ever warns; at most 4 + 3 + 2 + 1 results |
| Badges.BadgeColor | scripts/update-badges.js:160-166 | each colour is chosen exactly on its band: brightgreen from 90, green 75-89, yellowgreen 50-74, yellow 25-49, red below 25 |
| Badges.BadgeColorMonotone | scripts/update-badges.js:160-166 | a higher percentage never gets a worse colour |
| Badges.RoundDivNearest | scripts/update-badges.js:129 | `Math.round(a / b)` for non-negative values is the nearest integer, halves rounded up |
| Badges.RoundDivAtMost | scripts/update-badges.js:98 | a rounded average of values at most m is at most m |
| Badges.CalculateTaskCompletionMetrics | scripts/update-badges.js:109-137 | the counts are the occurrences of "- [x]", "- [.]" and "- [ ]"; the total is their sum; the percentage is the rounded completed share, 0 for no tasks or no file, never above 100 |
| Badges.TaskTotalMatchesReview | scripts/update-badges.js:123-126 | the badge script finds no task exactly when the review script reports the tasks document as holding none |
| Badges.SizeScore | scripts/update-badges.js:79 | a size score is at most 100, and exactly 100 once the document reaches the expected size |
| Badges.SizeScoreFull | scripts/update-badges.js:79 | the rounded percentage reaches 100 once the length reaches the size |
| Badges.DateHeadingShift | scripts/update-badges.js:94 | a dated heading past the first character is one of the tail |
| Badges.DateHeadingCountZero | scripts/update-badges.js:94 | the journal counts no entry exactly when the review script finds no dated heading in it |
| Badges.CalculateDocCompletionMetrics | scripts/update-badges.js:61-104 | requirements and tasks are scored against 5000 characters, design against 10000, 0 when absent; the journal score is its count of dated headings; the percentage is the rounded mean of the three scores; every score is at most 100 |
| Badges.StatusHead | scripts/update-badges.js:21-27 | the generated section opens with a line break and the "## Statut du Projet" heading, followed by more text |
| Badges.SectionShape | scripts/update-badges.js:21-40 | the generated section opens with the line break and heading, and its "### Métriques de Documentation" sub-heading starts right after the heading and badge lines, followed by the metric lines |
| Badges.NextHashes | scripts/update-badges.js:45 | the end of the lazy match `[\s\S]*?(?=##\|$)`: the first position at or after the start where "##" occurs (a "###" included), or the end; no earlier position holds "##" |
| Badges.ReplaceStatusAsWritten | scripts/update-badges.js:43-45 | as written: the text from the first "## Statut du Projet" up to the first following "##" (or the end) is replaced by the new section; the text before and from that "##" on is kept |
| Badges.NextSection | scripts/update-badges.js:45 | corrected definition (see Findings): the first position at or after the start where a level-2 heading mark starts, or the end; no earlier position holds one |
| Badges.ReplaceStatus | scripts/update-badges.js:43-45 | corrected definition (see Findings): the status section is replaced up to the next level-2 heading or the end, its "###" sub-sections included; the text before and after is kept |
| Badges.InsertStatus | scripts/update-badges.js:46-50 | without a status section, a line break and the section are inserted at one single point of the README and both parts of it are kept in order |
| Badges.InsertStatusAfterTitle | scripts/update-badges.js:48-49 | with a "# ", the section goes right after the first line break from the first "# " on, that is after the title's line |
| Badges.InsertStatusNoTitle | scripts/update-badges.js:48-49 | without a "# " (`indexOf` is -1 and the line search starts at 0), the section goes after the first line |
| Badges.InsertStatusAtStart | scripts/update-badges.js:48-49 | with no line break after the search start (`indexOf` gives -1, plus one is 0), the section goes in front of the whole README |
| Badges.UpdateReadme | scripts/update-badges.js:43-50 | the script's update as written: replacement up to the next "##" when the marker is present, insertion after the title line otherwise |
| Badges.UpdateReadmeIntended | scripts/update-badges.js:43-50 | corrected definition (see Findings): the same update with the replacement up to the next level-2 heading; without the marker it is the script's insertion |
| Badges.AsWrittenKeepsFrom | scripts/update-badges.js:45 | as written, any "##" after the status heading stops the replacement, so everything from it on is kept at the end of the result |
| Badges.AsWrittenAgreesAtLevel2 | scripts/update-badges.js:45 | the script and the corrected update give the same README when the first "##" after the heading is a level-2 heading or there is none |
| Badges.MarkerOfWrittenSection | scripts/update-badges.js:21-22 | in a README holding a section the script wrote, after text without the marker, the marker found is that section's heading |
| Badges.KeepsFromSubheading | scripts/update-badges.js:43-45 | rerun on a README holding its own section, as written every "##" in that section after the heading line survives with all that follows |
| Badges.RerunKeepsOldMetrics | scripts/update-badges.js:21-45 | rerunning the script on its own output keeps the previous "### Métriques de Documentation" sub-section and everything after it behind the new section |
| Badges.StaleSubsectionSurvives | scripts/update-badges.js:45 | on a README whose status section has a "###" subsection, the script as written keeps that subsection after the new section, while the corrected replacement removes it |
| Badges.WriteSection | scripts/update-badges.js:43-53 | the README written is the as-written update with the given section |
| Badges.UpdateBadges | scripts/update-badges.js:8-56 | the README written is the README updated, as written, with the section built from the document and task metrics and the date |
| Dashboard.ProgressLevel | scripts/generate-dashboard.js:8-12 | success from 75, warning from 50 below 75, danger below 50, for a value given as a fraction num/den |
| Dashboard.ProgressClass | scripts/generate-dashboard.js:8-12 | the class is "progress-" followed by the level's name, one of the three classes |
| Dashboard.BadgeLevel | scripts/generate-dashboard.js:17-21 | success from 7.5, warning from 5 below 7.5, danger below 5 |
| Dashboard.BadgeMatchesProgress | scripts/generate-dashboard.js:213-216 | a score's badge has the same level as the progress bar drawn at ten times the score |
| Dashboard.ProgressMonotone | scripts/generate-dashboard.js:8-12 | a higher value never gets a worse progress class |
| Dashboard.CollectTaskProgress | scripts/generate-dashboard.js:352-370 | the three checkbox counts of the tasks file, or the example counts 15, 8 and 22 when there is none |
| Dashboard.TaskProgressMatchesBadges | scripts/generate-dashboard.js:358-362 | the dashboard's counts are the badge script's counts, and they add up to its total |
| Dashboard.LineEnd | scripts/generate-dashboard.js:394 | the first line terminator from a position, or the end: the `.` of a regular expression stops there |
| Dashboard.MatchEnd | scripts/generate-dashboard.js:394 | a match of the entry pattern at a position ends right before a blank line, past its 17-character head |
| Dashboard.FallbackActivities | scripts/generate-dashboard.js:407-416 | the example activities are five |
| Dashboard.FirstEntries | scripts/generate-dashboard.js:396 | `slice(0, 5)`: the first five matches, or all when fewer |
| Dashboard.CollectRecentActivity | scripts/generate-dashboard.js:388-419 | the activities pushed one by one are `RecentActivity`, the recent-activity specification |
| Dashboard.MatchParses | scripts/generate-dashboard.js:394-404 | every text the first pattern matches is parsed by the second (`ParseEntry`), into its date and the rest of its line, both read from the journal |
| Dashboard.MatchesParse | scripts/generate-dashboard.js:394-398 | every match of the journal parses (`ParseEntry`) into an activity read from the journal |
| Dashboard.ParsedAllParses | scripts/generate-dashboard.js:396-404 | parsing matches that all parse keeps one activity per match, in order, each the `ParseEntry` of its match |
| Dashboard.RecentActivityShape | scripts/generate-dashboard.js:388-419 | `RecentActivity` has between one and five activities; the examples exactly when there is no journal or no entry matches; otherwise the first matches, parsed in order (`ParseEntry`), each read from the journal |
| PreviewService.PreviewParts | frontend/src/services/previewService.js:80-133 | a preview has eight pieces |
| PreviewService.PreviewCarries | frontend/src/services/previewService.js:80-92 | a preview starts with the project's title line and holds the objectives, the feature list and the line naming the template |
| PreviewService.OrElse | frontend/src/services/previewService.js:80-92 | `x \|\| fallback`: the value when present and non-empty, the fallback otherwise |
| PreviewService.ServiceFeatureList | frontend/src/services/previewService.js:76-78 | one bullet per feature, or the two default bullets for a missing or empty list |
| PreviewService.TruncatedFeatures | frontend/src/services/previewService.js:18 | each feature cut to its first 50 characters, one per feature |
| PreviewService.KeyIff | frontend/src/services/previewService.js:14-21 | two requests share a cache key (`KeyOf`) exactly when their names and templates are equal, the first 100 characters of their descriptions and the first 50 of each feature are equal, and the same fields are present |
| PreviewService.DescriptionTailIgnored | frontend/src/services/previewService.js:17 | two descriptions that agree on their first 100 characters give the same `KeyOf` key |
| PreviewService.StepSpec | frontend/src/services/previewService.js:58-138 | one cache step (`Step`) adds the request's key and changes no cached entry; a hit returns the cached content, a miss generates the document (`ServiceContent`) and stores it; a cache that holds each key's content keeps doing so |
| PreviewService.SameKeySameContent | frontend/src/services/previewService.js:59-64 | after one `Step`, a second request with the same `KeyOf` key gets the first one's content and leaves the cache as it was |
| PreviewService.PreviewCache.constructor | frontend/src/services/previewService.js:6 | the cache starts empty |
| PreviewService.PreviewCache.GeneratePreview | frontend/src/services/previewService.js:58-143 | the content and the new cache are those of one cache `Step`; the key is then cached with that content and no key is lost |
| GeneratePage.InitialMode | frontend/src/pages/GeneratePage.js:39 | mode 1 exactly when the query parameter is "adapt", mode 0 otherwise, including when it is absent |
| GeneratePage.FilledIffTrimmed | frontend/src/pages/GeneratePage.js:229 | a field counts exactly when its trimmed text is not empty |
| GeneratePage.FilledFeatures | frontend/src/pages/GeneratePage.js:229 | the fields kept are filled, in their order, a subsequence of the list given, never more fields than given |
| GeneratePage.FilledFeaturesSpec | frontend/src/pages/GeneratePage.js:229 | the fields kept are filled and come from the list; every filled field is kept; a list of filled fields is kept whole |
| GeneratePage.FeatureForm.constructor | frontend/src/pages/GeneratePage.js:45 | the form starts with one empty field |
| GeneratePage.FeatureForm.AddFeature | frontend/src/pages/GeneratePage.js:100-102 | one empty field is appended, the others unchanged |
| GeneratePage.FeatureForm.RemoveFeature | frontend/src/pages/GeneratePage.js:105-109 | the field at the index is spliced out, the others keep their order, and at least one field remains since the button is disabled on the last one |
| GeneratePage.FeatureForm.ChangeFeature | frontend/src/pages/GeneratePage.js:112-116 | only the field at the index takes the new value |
| GeneratePage.PagePreview | frontend/src/pages/GeneratePage.js:131-133 | no preview exactly when the project name is empty |
| GeneratePage.PagePreviewCarries | frontend/src/pages/GeneratePage.js:142-159 | the preview starts with the project's title line and holds the page's feature list (`PageFeatureList`) and the template's line |
| GeneratePage.PagePreviewMatchesService | frontend/src/pages/GeneratePage.js:142-159 | with a name, a template and only filled fields, the page's preview (`PageFeatureList` equal to the service's list) is the preview service's document `ServiceContent` |
| GeneratePage.Submit | frontend/src/pages/GeneratePage.js:220-287 | refused with "Veuillez fournir un document exemple" exactly in adapt mode without an example; a new document sends the filled features; adapting sends no generation request |
| GeneratePage.SubmittedFeaturesFilled | frontend/src/pages/GeneratePage.js:229-250 | every feature sent has non-blank text, and no filled field is dropped |
| HistoryPage.FilterDocs | frontend/src/pages/HistoryPage.js:190-238 | the documents kept are, in order, exactly those that `Keeps` accepts: whose name contains the search term ignoring case and that pass the date, template and model filters |
| HistoryPage.EmptySearchMatches | frontend/src/pages/HistoryPage.js:206 | an empty search term matches every name |
| HistoryPage.NoFilterKeepsAll | frontend/src/pages/HistoryPage.js:50-53 | with the initial filters every document is shown |
| HistoryPage.PageOf | frontend/src/pages/HistoryPage.js:241-244 | the page holds at most `rows` rows, each the row at its offset from `page * rows`; a full page when the list reaches that far, a non-empty one when the page starts inside it |
| HistoryPage.RowOnItsPage | frontend/src/pages/HistoryPage.js:241-244 | every row of the filtered list is on page i / rows, at i % rows |
| HistoryPage.RowOnOnePage | frontend/src/pages/HistoryPage.js:241-244 | no other page covers that row |
| HistoryPage.Without | frontend/src/pages/HistoryPage.js:119 | the ids kept are, in order, exactly those different from the one removed |
| HistoryPage.WithoutAbsent | frontend/src/pages/HistoryPage.js:119 | removing an absent id changes nothing |
| HistoryPage.WithoutAppended | frontend/src/pages/HistoryPage.js:117-119 | removing an id just appended gives the list back |
| HistoryPage.Toggle | frontend/src/pages/HistoryPage.js:112-123 | an unselected id is appended; a selected one is removed with all its copies, the others kept |
| HistoryPage.ToggleTwice | frontend/src/pages/HistoryPage.js:112-123 | toggling twice restores the selected set, and the very list when the id was not selected |
| HistoryPage.SelectAll | frontend/src/pages/HistoryPage.js:126-133 | checked: the ids of the filtered documents in order; unchecked: none |
| HistoryPage.WithoutId | frontend/src/pages/HistoryPage.js:158 | the documents kept are, in order, exactly those with another id |
| HistoryPage.WithoutIds | frontend/src/pages/HistoryPage.js:161 | the documents kept are, in order, exactly those whose id is not selected |
| HistoryPage.DownloadName | frontend/src/pages/HistoryPage.js:182 | the file name line 182 computes for a record: the generator's slug of the project name followed by "-design.md" |
| HistoryPage.HistoryView.constructor | frontend/src/pages/HistoryPage.js:45-56 | page 0, ten rows per page, nothing selected, no dialog |
| HistoryPage.HistoryView.ChangePage | frontend/src/pages/HistoryPage.js:101-103 | only the page changes |
| HistoryPage.HistoryView.ChangeRowsPerPage | frontend/src/pages/HistoryPage.js:106-109 | the page size changes and the page goes back to 0 |
| HistoryPage.HistoryView.SelectDocument | frontend/src/pages/HistoryPage.js:112-123 | the selection is toggled, nothing else changes |
| HistoryPage.HistoryView.SelectAllDocuments | frontend/src/pages/HistoryPage.js:126-133 | the selection becomes that of the select-all box, nothing else changes |
| HistoryPage.HistoryView.OpenDeleteDialog | frontend/src/pages/HistoryPage.js:136-139 | the document is chosen and the dialog opens |
| HistoryPage.HistoryView.DeleteDocument | frontend/src/pages/HistoryPage.js:148-170 | a chosen document is removed by id from the list and the selection; otherwise the selected documents are removed and the selection emptied; the dialog closes |
| TemplateEditor.Before | frontend/src/pages/TemplateEditorPage.js:166 | `split(p)[0]`: a prefix of the text, the whole text without the separator, else the text up to its first occurrence |
| TemplateEditor.BeforeHasNoSeparator | frontend/src/pages/TemplateEditorPage.js:166 | the 'minimal' content holds no occurrence of the heading it is cut before |
| TemplateEditor.FixtureTemplate | frontend/src/pages/TemplateEditorPage.js:147-175 | only 'pocketflow', 'technique' and 'minimal' are found, each under its own name; 'pocketflow' is the example, 'technique' replaces its first project-name token, 'minimal' cuts it before the nodes heading; any other name fails with its message |
| TemplateEditor.TechniqueReplacesFirstOnly | frontend/src/pages/TemplateEditorPage.js:159 | only the first `{{PROJECT_NAME}}` is replaced: the text around it is the example's and no earlier token exists |
| TemplateEditor.LoadEditor | frontend/src/pages/TemplateEditorPage.js:126-192 | "new" gives the empty form with the example text; a known name its fixture; any other name the page's loading error |
| TemplateEditor.InsertPlaceholder | frontend/src/pages/TemplateEditorPage.js:261-279 | the cursor goes to start + length + 4, and the text's length changes by the token's length minus the selection's |
| TemplateEditor.InsertionShape | frontend/src/pages/TemplateEditorPage.js:265-276 | the text before and after the selection is kept, the token sits between them, and the cursor lands right after it |
| TemplateEditor.InsertAtCursorUndo | frontend/src/pages/TemplateEditorPage.js:265-276 | with an empty selection, removing the token gives the text back |
| TemplateEditor.EditorPreview | frontend/src/pages/TemplateEditorPage.js:289-308 | no preview exactly for empty content; otherwise the page's own chain of five global replacements |
| TemplateEditor.EditorPreviewMatchesBackend | frontend/src/pages/TemplateEditorPage.js:299-304 | the page's chain of replacements gives `Preview`, the back end's substitution, so the editor shows the back end's preview of the same content |
| TemplateEditor.Save | frontend/src/pages/TemplateEditorPage.js:200-258 | refused with its message exactly without a display name or content; a new template is named by the slug of its display name, an existing one keeps its name |
| SettingsPage.InitialSettings | frontend/src/pages/SettingsPage.js:44-57 | the page starts with no API key and the two default servers |
| SettingsPage.ResetSettings | frontend/src/pages/SettingsPage.js:126-162 | the reset clears the key and sets the default model and token limit |
| SettingsPage.ResetRestoresInitial | frontend/src/pages/SettingsPage.js:140-153 | whatever was changed, a reset gives back the initial settings |
| SettingsPage.AddMcpServer | frontend/src/pages/SettingsPage.js:165-181 | without a name or a URL nothing changes; otherwise an enabled server with the slug of its name as id is appended and the dialog closes, cleared |
| SettingsPage.RemoveMcpServer | frontend/src/pages/SettingsPage.js:184-186 | the servers kept are, in order, exactly those with another id |
| SettingsPage.ToggleMcpServer | frontend/src/pages/SettingsPage.js:189-193 | the servers with the id are switched, all else stays |
| SettingsPage.ToggleTwiceRestores | frontend/src/pages/SettingsPage.js:189-193 | switching twice restores the list |
| SettingsPage.RemoveUndoesAdd | frontend/src/pages/SettingsPage.js:177-185 | removing a server just added under a fresh id gives the list back |
| SettingsPage.DuplicateIdsPossible | frontend/src/pages/SettingsPage.js:170-177 | ids are not checked for uniqueness: a new server can take an existing id |
| TemplatesPage.StripSuffix | frontend/src/pages/TemplatesPage.js:137 | the suffix is removed only at the end of the name |
| TemplatesPage.SuggestedNameOfTemplateFile | frontend/src/pages/TemplatesPage.js:137 | the file of a template suggests (`SuggestedName`) that template's name |
| TemplatesPage.SuggestedNamePlain | frontend/src/pages/TemplatesPage.js:137 | `SuggestedName` of a name without either suffix is the name itself |
| TemplatesPage.UploadFile | frontend/src/pages/TemplatesPage.js:131-142 | the file is kept; its `SuggestedName` fills the name only when it is empty |
| TemplatesPage.CloseImportDialog | frontend/src/pages/TemplatesPage.js:124-128 | the dialog closes with its name and file cleared, so the import button (enabled only with both) is disabled |
| TemplatesPage.ImportTemplate | frontend/src/pages/TemplatesPage.js:145-195 | one template is appended, named by the slug of the import name, the others kept, and the dialog closes |
| TemplatesPage.DeleteTemplate | frontend/src/pages/TemplatesPage.js:100-116 | without a chosen template the handler fails with its message; otherwise the templates kept are, in order, exactly those with another name |
| TemplatesPage.WithoutName | frontend/src/pages/TemplatesPage.js:109 | the templates kept are, in order, exactly those with another name |
| TemplatesPage.DeleteUndoesImport | frontend/src/pages/TemplatesPage.js:109-188 | deleting a template just imported under a fresh name gives the list back |

## Left out

- Network and LLM calls (`generateContent`, the Python LLM wrapper, the front end's `fetch` client): the LLM is an oracle parameter, and its text is not interpreted.
- The simulated MCP client (`src/mcp-client.js`) and the MCP-server test button on the settings page: they are network simulations.
- Filesystem, git and process I/O: file contents are arguments and directories are maps. `loadConfig`, `ensureDirectoryExists`, the git hooks installer and the Python update scripts are not part of this model. Neither are the temp-file pass-through in `backend/services/generatorService.js` or `pocketflow_agent/flow_definition.py`.
- The document-update nodes (`pocketflow_agent/nodes/doc_update_nodes.py`) and the LLM-driven dashboard branch of `Flow`: they are read, LLM, then write, with nothing to state beyond the oracle.
- Timers, `async`, debouncing (`generatePreviewDebounced`) and React effects: each handler is one atomic state change.
- Clocks, uuids and randomness: ids, dates and `createdAt` are integer or string parameters. The DM-log age check of the review script (`scripts/doc-review.js:217-229`) is not modelled. Neither is the history page's mock-data generation.
- HistoryPage.FilterDocs: the date filter ('today', 'week', 'month') depends on the current time and is an oracle parameter, `DateFilter`.
- Floating point. The settings temperature is kept in tenths. `success_rate` in the flow's footer and elapsed times are not modelled. `Math.round` of a non-negative ratio is exact integer rounding, halves up.
- Unicode: `toLowerCase`, `\s`, `trim` and Python's `strip` act on ASCII (`' '`, tab, line feed, vertical tab, form feed, carriage return). Strings are sequences of characters, with no encoding.
- `$&`, `$1` and the like in replacement strings: values are taken literally, as if they held no `$` pattern.
- Placeholders.ReplaceTemplateValues: each key is read as plain text, while the code builds `new RegExp('{{' + key + '}}', 'g')`. The model assumes keys without regular-expression metacharacters, so a key such as "1" (whose pattern `{{1}}` matches "{}"), "a.b" or "(" (a SyntaxError) is not modelled. The entries are taken in the order given, so the `Object.entries` rule that puts integer-like keys first is not modelled either. `Placeholders.ApplyEntries` and `Placeholders.Placeholder` share this reading.
- Models.RecommendedModel: the table lookup is an own-key lookup. `obj[key]` in the code also finds inherited `Object.prototype` members, so a task type such as "constructor" yields a function there and is not modelled.
- Models.ModelCapabilities: the capability lookup is an own-key lookup; inherited property names such as "toString" are not modelled.
- TemplateEditor.FixtureTemplate: the fixture lookup is an own-key lookup; an inherited property name such as "constructor" is not modelled.
- TemplateEditor.LoadEditor: it reaches the fixtures through `FixtureTemplate`, with the same own-key lookup.
- HistoryPage.DownloadName: the download handler's parameter is named `document` and hides the DOM global, so `document.createElement('a')` at frontend/src/pages/HistoryPage.js:180 throws a TypeError on the record and no file is saved. The model covers only the file name that line 182 would compute.
- Presentation: the HTML of the dashboard, the theme, layout and routing, the Express routes, the static fixture tables of the models controller, the prompt constants of the Python agent, and the `Chip`/`Card` logging in the pages.
- The settings page's simulated settings load: it is fixture data, and the page's initial state is modelled from its `useState` defaults.
- Flow.RunShape: the console footer after the loop, other than its counts, is presentation and is not modelled.
- PreviewService.KeyIff: the cache key is the datatype of the fields `generateCacheKey` serialises, not the JSON text. Two keys are equal exactly when their fields are.
- GeneratePage.PagePreview: the page's API calls and its navigation after a submission are not modelled. `Submit` records the request and the target page instead.
- GeneratePage.FeatureForm.RemoveFeature: requires an index of a rendered field. The page only calls it from a field's own button, and that button is disabled on the last field.
- GeneratePage.FeatureForm.ChangeFeature: requires an index of a rendered field, for the same reason.
- TemplateEditor.InsertPlaceholder: requires `start <= end <= |content|`, which a text area's selection always satisfies. The missing-text-area early return is not modelled.
- TemplateEditor.FixtureTemplate: the example template text is a parameter, because it is a constant of the page.
- Gemini.GetModelInfo: requires a manager without a `models` section, as the client always builds it. The fallback list after a throwing manager is therefore unreachable and appears only as `FallbackModels`.
- Cli.Run: `--features` as the last argument reads `undefined.split`. The model has this throw escape as `Crash`, because it happens outside the `try`.
- DocReview.ReviewDocumentation: the date of the DM-log entry it writes and the date of the report are one parameter, not two clock reads.
- DocReview.ReviewDocumentation: when the journal is missing, the exception `updateDMLog` throws is returned as `logUpdate`'s error; the uncaught exception ending the process is not modelled, and the message names docs/dm-log.md rather than the absolute path `path.join(__dirname, …)` builds.
- TemplatesService.AccessError: the message of `fs.access` for a missing file is written as Node's "ENOENT: no such file or directory, access '<dir>/<name>-template.md'"; the normalisation `path.join` applies to the directory is not modelled.
- Badges.UpdateBadges: the date of the "last update" badge is a parameter. The code-quality score is the code's constant 7.

## Findings

| source | as written | input that shows it | evidently intended | confidence | as-written member | corrected member |
|---|---|---|---|---|---|---|
| scripts/update-badges.js:43-50 | the status section is replaced up to the first "##", and "###" also matches, so the replacement stops at the section's own first sub-heading | a README "# T\n## Statut du Projet\n### M\nold\n## Next\n": the old "### M\nold\n" survives after the new section, and repeated runs pile up old sub-sections | replace the section up to the next level-2 heading (a "##" with no other '#' right before or after it) or the end | not executed | Badges.StaleSubsectionSurvives | Badges.ReplaceStatus |

=== FILE: badges.dfy ===
/**
 * The README badges script: completion metrics of the documents and of the
 * task list, the colour of a badge for a percentage, and the "Statut du
 * Projet" section of the README that shows them. File contents are
 * parameters (`None` for a missing file) and the date is a parameter.
 *
 * `Math.round` of a non-negative ratio a/b is floor(a/b + 1/2), computed
 * here exactly on integers; the floating-point quotient is not modelled.
 */
module Badges {
  import opened Common
  import opened Text
  import DocReview

  // ---------------------------------------------------------------------
  // Colours

  datatype Color = Red | Yellow | YellowGreen | Green | BrightGreen {
    function Name(): string {
      match this
      case Red => "red"
      case Yellow => "yellow"
      case YellowGreen => "yellowgreen"
      case Green => "green"
      case BrightGreen => "brightgreen"
    }

    /** The colours from worst to best. */
    function Rank(): nat {
      match this
      case Red => 0
      case Yellow => 1
      case YellowGreen => 2
      case Green => 3
      case BrightGreen => 4
    }
  }

  /** `getBadgeColor`: the threshold chain 90, 75, 50, 25. */
  function BadgeColor(percentage: int): (c: Color)
    ensures c == BrightGreen <==> percentage >= 90
    ensures c == Green <==> 75 <= percentage < 90
    ensures c == YellowGreen <==> 50 <= percentage < 75
    ensures c == Yellow <==> 25 <= percentage < 50
    ensures c == Red <==> percentage < 25
  {
    if percentage >= 90 then BrightGreen
    else if percentage >= 75 then Green
    else if percentage >= 50 then YellowGreen
    else if percentage >= 25 then Yellow
    else Red
  }

  /** A higher percentage never gets a worse colour. */
  lemma BadgeColorMonotone(p1: int, p2: int)
    requires p1 <= p2
    ensures BadgeColor(p1).Rank() <= BadgeColor(p2).Rank()
  {
  }

  // ---------------------------------------------------------------------
  // Rounding

  /** `Math.round(a / b)` for a >= 0 and b > 0. */
  function RoundDiv(a: nat, b: nat): (r: nat)
    requires b > 0
  {
    (2 * a + b) / (2 * b)
  }

  /** The rounded value is the integer nearest to a/b, halves going up:
      r - 1/2 <= a/b < r + 1/2. */
  lemma RoundDivNearest(a: nat, b: nat)
    requires b > 0
    ensures 2 * b * RoundDiv(a, b) <= 2 * a + b < 2 * b * RoundDiv(a, b) + 2 * b
  {
    var n, d := 2 * a + b, 2 * b;
    var q := n / d;
    assert n == d * q + n % d;
  }

  /** A rounded ratio of at most one hundred percent stays at most 100. */
  lemma RoundDivAtMost(a: nat, b: nat, m: nat)
    requires b > 0 && a <= m * b
    ensures RoundDiv(a, b) <= m
  {
    RoundDivNearest(a, b);
    var r := RoundDiv(a, b);
    assert 2 * b * r <= 2 * a + b;
    assert 2 * a + b <= 2 * (m * b) + b;
    assert 2 * b * (m + 1) == 2 * (m * b) + 2 * b;
    LessFromMul(2 * b, r, m + 1);
  }

  lemma LessFromMul(k: nat, x: nat, y: nat)
    requires k > 0 && k * x < k * y
    ensures x < y
  {
    assert k * y - k * x == k * (y - x);
  }

  lemma MulMonotone(k: nat, x: nat, y: nat)
    requires x <= y
    ensures k * x <= k * y
  {
    assert k * y == k * x + k * (y - x);
  }

  // ---------------------------------------------------------------------
  // Task metrics

  datatype TaskMetrics = TaskMetrics(completed: nat, inProgress: nat, todo: nat, total: nat, percentage: nat)

  function TaskMetricsOf(tasks: Option<string>): TaskMetrics {
    if tasks.None? then TaskMetrics(0, 0, 0, 0, 0)
    else
      var c := DocReview.CountTasks(tasks.value);
      var total := c.completed + c.inProgress + c.todo;
      TaskMetrics(c.completed, c.inProgress, c.todo, total, if total > 0 then RoundDiv(100 * c.completed, total) else 0)
  }

  /** `calculateTaskCompletionMetrics`: the three checkbox counts, their
      total, and the rounded share of completed tasks (0 without tasks or
      without the file). */
  method CalculateTaskCompletionMetrics(tasks: Option<string>) returns (m: TaskMetrics)
    ensures m == TaskMetricsOf(tasks)
    ensures tasks.None? ==> m == TaskMetrics(0, 0, 0, 0, 0)
    ensures tasks.Some? ==>
      m.completed == Count(tasks.value, "- [x]") && m.inProgress == Count(tasks.value, "- [.]") &&
      m.todo == Count(tasks.value, "- [ ]")
    ensures m.total == m.completed + m.inProgress + m.todo
    ensures m.total == 0 ==> m.percentage == 0
    ensures m.total > 0 ==> m.percentage == RoundDiv(100 * m.completed, m.total)
    ensures m.percentage <= 100
  {
    m := TaskMetrics(0, 0, 0, 0, 0);
    if tasks.Some? {
      var content := tasks.value;
      m := m.(completed := Count(content, "- [x]"));
      m := m.(inProgress := Count(content, "- [.]"));
      m := m.(todo := Count(content, "- [ ]"));
      m := m.(total := m.completed + m.inProgress + m.todo);
      if m.total > 0 {
        RoundDivAtMost(100 * m.completed, m.total, 100);
        m := m.(percentage := RoundDiv(100 * m.completed, m.total));
      }
    }
  }

  /** The badge's counts agree with the review of the same task list: the
      review reports "no task" exactly when the badge's total is 0. */
  lemma TaskTotalMatchesReview(content: string)
    ensures DocReview.CountTasks(content).completed + DocReview.CountTasks(content).inProgress +
            DocReview.CountTasks(content).todo == 0
            <==> DocReview.NoTasks in DocReview.TasksFindings(Some(content))
  {
    DocReview.TasksRules(content);
    CountZeroIff(content, "- [x]");
    CountZeroIff(content, "- [.]");
    CountZeroIff(content, "- [ ]");
  }

  // ---------------------------------------------------------------------
  // Document metrics

  datatype DocMetrics = DocMetrics(requirements: nat, design: nat, tasks: nat, dmLog: nat, percentage: nat)

  /** `Math.min(100, Math.round(length / size * 100))`. */
  function SizeScore(length: nat, size: nat): (s: nat)
    requires size > 0
    ensures s <= 100
    ensures length >= size ==> s == 100
  {
    var r := RoundDiv(100 * length, size);
    SizeScoreFull(length, size);
    if r < 100 then r else 100
  }

  lemma SizeScoreFull(length: nat, size: nat)
    requires size > 0
    ensures length >= size ==> RoundDiv(100 * length, size) >= 100
  {
    if length >= size {
      var r := RoundDiv(100 * length, size);
      RoundDivNearest(100 * length, size);
      assert 2 * size * 100 + size <= 2 * (100 * length) + size;
      assert 2 * size * 100 < 2 * size * r + 2 * size;
      assert 2 * size * 100 < 2 * size * (r + 1);
      LessFromMul(2 * size, 100, r + 1);
    }
  }

  /** `(content.match(/### \d{4}-\d{2}-\d{2}/g) || []).length`. */
  function DateHeadingCount(s: string): nat
    decreases |s|
  {
    if |s| < 14 then 0
    else if DocReview.DateHeadingAt(s, 0) then 1 + DateHeadingCount(s[14..])
    else DateHeadingCount(s[1..])
  }

  lemma DateHeadingShift(s: string, k: int)
    requires k >= 1 && |s| >= 1
    ensures DocReview.DateHeadingAt(s, k) <==> DocReview.DateHeadingAt(s[1..], k - 1)
  {
    AtTail(s, "### ", k);
  }

  /** The badge counts no dated entry exactly when the review warns that
      the decision log has none. */
  lemma {:induction false} DateHeadingCountZero(s: string)
    ensures DateHeadingCount(s) == 0 <==> !DocReview.HasDateHeading(s)
    decreases |s|
  {
    if |s| < 14 {
      forall k | 0 <= k <= |s| ensures !DocReview.DateHeadingAt(s, k) {
      }
    } else if DocReview.DateHeadingAt(s, 0) {
    } else {
      DateHeadingCountZero(s[1..]);
      if DocReview.HasDateHeading(s) {
        var k :| 0 <= k <= |s| && DocReview.DateHeadingAt(s, k);
        DateHeadingShift(s, k);
      }
      if DocReview.HasDateHeading(s[1..]) {
        var k :| 0 <= k <= |s[1..]| && DocReview.DateHeadingAt(s[1..], k);
        DateHeadingShift(s, k + 1);
      }
    }
  }

  function DocMetricsOf(requirements: Option<string>, design: Option<string>, tasks: Option<string>,
                        dmLog: Option<string>): DocMetrics {
    var r := if requirements.Some? then SizeScore(|requirements.value|, 5000) else 0;
    var d := if design.Some? then SizeScore(|design.value|, 10000) else 0;
    var t := if tasks.Some? then SizeScore(|tasks.value|, 5000) else 0;
    DocMetrics(r, d, t, if dmLog.Some? then DateHeadingCount(dmLog.value) else 0, RoundDiv(r + d + t, 3))
  }

  /** `calculateDocCompletionMetrics`: a score per document by its length
      (5000 characters for the requirements and the tasks, 10000 for the
      design), the number of dated log entries, and the rounded mean of the
      three scores. A missing file scores 0. */
  method CalculateDocCompletionMetrics(requirements: Option<string>, design: Option<string>, tasks: Option<string>,
                                       dmLog: Option<string>) returns (m: DocMetrics)
    ensures m == DocMetricsOf(requirements, design, tasks, dmLog)
    ensures m.requirements == (if requirements.Some? then SizeScore(|requirements.value|, 5000) else 0)
    ensures m.design == (if design.Some? then SizeScore(|design.value|, 10000) else 0)
    ensures m.tasks == (if tasks.Some? then SizeScore(|tasks.value|, 5000) else 0)
    ensures m.dmLog == (if dmLog.Some? then DateHeadingCount(dmLog.value) else 0)
    ensures m.percentage == RoundDiv(m.requirements + m.design + m.tasks, 3)
    ensures m.requirements <= 100 && m.design <= 100 && m.tasks <= 100 && m.percentage <= 100
  {
    var req, des, tsk, log := 0, 0, 0, 0;
    if requirements.Some? {
      req := SizeScore(|requirements.value|, 5000);
    }
    if design.Some? {
      des := SizeScore(|design.value|, 10000);
    }
    if tasks.Some? {
      tsk := SizeScore(|tasks.value|, 5000);
    }
    if dmLog.Some? {
      log := DateHeadingCount(dmLog.value);
    }
    RoundDivAtMost(req + des + tsk, 3, 100);
    m := DocMetrics(req, des, tsk, log, RoundDiv(req + des + tsk, 3));
  }

  /** `calculateCodeQualityMetrics`: a fixed score out of ten. */
  const CodeQualityScore := 7

  // ---------------------------------------------------------------------
  // The README section

  const StatusMarker := "## Statut du Projet"

  /** The four badge lines of the section. */
  function BadgeLines(doc: DocMetrics, task: TaskMetrics, date: string): string {
    "![Documentation](https://img.shields.io/badge/Documentation-" + Decimal(doc.percentage) + "%25-" + BadgeColor(doc.percentage).Name() + ")\n" +
    "![Tâches](https://img.shields.io/badge/Tâches-" + Decimal(task.percentage) + "%25-" + BadgeColor(task.percentage).Name() + ")\n" +
    "![Qualité du Code](https://img.shields.io/badge/Qualité-" + Decimal(CodeQualityScore) + "%2F10-" + BadgeColor(CodeQualityScore * 10).Name() + ")\n" +
    "![Dernière Mise à Jour](https://img.shields.io/badge/Dernière%20Mise%20à%20Jour-" + date + "-blue)\n"
  }

  /** The line break and heading the section starts with. */
  const StatusLine := "\n" + StatusMarker

  /** The section's heading line, a blank line, the badges and a blank line. */
  function StatusHead(doc: DocMetrics, task: TaskMetrics, date: string): (r: string)
    ensures StartsWith(r, StatusLine) && |r| > |StatusLine|
  {
    var rest := "\n\n" + BadgeLines(doc, task, date) + "\n";
    Ends(StatusLine, rest);
    StatusLine + rest
  }

  const MetricsHeading := "### Métriques de Documentation\n"

  /** The metric lines and the task progress sub-section. */
  function MetricsBody(doc: DocMetrics, task: TaskMetrics): string {
    "- **Exigences**: " + Decimal(doc.requirements) + "% complet\n" +
    "- **Conception**: " + Decimal(doc.design) + "% complet\n" +
    "- **Tâches**: " + Decimal(doc.tasks) + "% complet\n" +
    "- **Journal DM**: " + Decimal(doc.dmLog) + " entrées\n\n" +
    "### Progression des Tâches\n" +
    "- **Terminées**: " + Decimal(task.completed) + " tâches\n" +
    "- **En cours**: " + Decimal(task.inProgress) + " tâches\n" +
    "- **À faire**: " + Decimal(task.todo) + " tâches\n" +
    "- **Total**: " + Decimal(task.total) + " tâches\n"
  }

  /** The section the script writes, with the metrics filled in: it opens
      with the status heading and holds "###" sub-headings of its own. */
  function BadgesSection(doc: DocMetrics, task: TaskMetrics, date: string): string {
    StatusHead(doc, task, date) + MetricsHeading + MetricsBody(doc, task)
  }

  /** The section opens with the status heading, and its metrics
      sub-heading follows the badges. */
  lemma SectionShape(doc: DocMetrics, task: TaskMetrics, date: string)
    ensures var r := BadgesSection(doc, task, date);
      StartsWith(r, StatusLine) && At(r, MetricsHeading, |StatusHead(doc, task, date)|) &&
      r[|StatusHead(doc, task, date)|..] == MetricsHeading + MetricsBody(doc, task)
  {
    Layout(StatusHead(doc, task, date), MetricsHeading, MetricsBody(doc, task), StatusLine);
  }

  lemma Layout(a: string, c: string, d: string, p: string)
    requires StartsWith(a, p)
    ensures StartsWith(a + c + d, p)
    ensures At(a + c + d, c, |a|)
    ensures (a + c + d)[|a|..] == c + d
  {
    var s := a + c + d;
    assert s[..|p|] == a[..|p|];
    assert s[|a|..] == c + d;
    assert s[|a|..|a| + |c|] == c;
  }

  /** First index at or after `from` where the text ends or "##" starts:
      the end of the lazy match `[\s\S]*?(?=##|$)`. */
  function NextHashes(s: string, from: nat): (j: nat)
    requires from <= |s|
    ensures from <= j <= |s| && (j == |s| || At(s, "##", j))
    ensures forall k :: from <= k < j ==> !At(s, "##", k)
    decreases |s| - from
  {
    if from == |s| || At(s, "##", from) then from else NextHashes(s, from + 1)
  }

  /** A level-2 heading mark: exactly two '#', not part of a longer run. */
  predicate Level2At(s: string, j: int) {
    At(s, "##", j) && (j + 2 == |s| || s[j + 2] != '#') && (j == 0 || s[j - 1] != '#')
  }

  /** First index at or after `from` where the text ends or a level-2
      heading mark starts. */
  function NextSection(s: string, from: nat): (j: nat)
    requires from <= |s|
    ensures from <= j <= |s| && (j == |s| || Level2At(s, j))
    ensures forall k :: from <= k < j ==> !Level2At(s, k)
    decreases |s| - from
  {
    if from == |s| || Level2At(s, from) then from else NextSection(s, from + 1)
  }

  /** The README update with the section replaced as written: from the
      marker up to the next "##" — which a "###" sub-heading also is. */
  function ReplaceStatusAsWritten(s: string, section: string): (r: string)
    requires Contains(s, StatusMarker)
    ensures var h := IndexOf(s, StatusMarker);
      var j := NextHashes(s, h + |StatusMarker|);
      r == s[..h] + section + s[j..] &&
      (j == |s| || At(s, "##", j)) &&
      (forall k :: h + |StatusMarker| <= k < j ==> !At(s, "##", k))
  {
    var h := IndexOf(s, StatusMarker);
    s[..h] + section + s[NextHashes(s, h + |StatusMarker|)..]
  }

  /** The evidently intended replacement: from the marker up to the next
      level-2 heading, sub-sections included. */
  function ReplaceStatus(s: string, section: string): (r: string)
    requires Contains(s, StatusMarker)
    ensures var h := IndexOf(s, StatusMarker);
      var j := NextSection(s, h + |StatusMarker|);
      r == s[..h] + section + s[j..] &&
      (j == |s| || Level2At(s, j)) &&
      (forall k :: h + |StatusMarker| <= k < j ==> !Level2At(s, k))
  {
    var h := IndexOf(s, StatusMarker);
    s[..h] + section + s[NextSection(s, h + |StatusMarker|)..]
  }

  /** Without the section, it goes after the line holding the first "# "
      (`indexOf('\n', indexOf('# ')) + 1`, a search from -1 starting at 0). */
  function InsertStatus(s: string, section: string): (r: string)
    ensures var k := IndexOf(s, "# ");
      var p := IndexFrom(s, "\n", if k < 0 then 0 else k) + 1;
      0 <= p <= |s| && r == s[..p] + "\n" + section + s[p..]
  {
    var k := IndexOf(s, "# ");
    var p := IndexFrom(s, "\n", if k < 0 then 0 else k) + 1;
    s[..p] + "\n" + section + s[p..]
  }

  /** Where the line search of `InsertStatus` starts. */
  function TitleSearchStart(s: string): nat {
    var k := IndexOf(s, "# ");
    if k < 0 then 0 else k
  }

  lemma NewlineAt(s: string, k: int)
    ensures At(s, "\n", k) <==> 0 <= k < |s| && s[k] == '\n'
  {
    if 0 <= k < |s| {
      assert s[k..k + 1] == [s[k]];
    }
  }

  /** The section goes right after the first line break from the search
      start on: after the line holding the first "# ", or after the first
      line when there is no "# ". */
  lemma InsertStatusAfterLine(s: string, section: string, e: nat)
    requires TitleSearchStart(s) <= e < |s| && s[e] == '\n'
    requires forall i :: TitleSearchStart(s) <= i < e ==> s[i] != '\n'
    ensures InsertStatus(s, section) == s[..e + 1] + "\n" + section + s[e + 1..]
  {
    var from := TitleSearchStart(s);
    NewlineAt(s, e);
    var r := IndexFrom(s, "\n", from);
    NewlineAt(s, r);
    assert r == e;
  }

  /** The section goes after the line of the title "# ". */
  lemma InsertStatusAfterTitle(s: string, section: string, e: nat)
    requires Contains(s, "# ")
    requires IndexOf(s, "# ") <= e < |s| && s[e] == '\n'
    requires forall i :: IndexOf(s, "# ") <= i < e ==> s[i] != '\n'
    ensures InsertStatus(s, section) == s[..e + 1] + "\n" + section + s[e + 1..]
  {
    InsertStatusAfterLine(s, section, e);
  }

  /** Without a "# ", the section goes after the first line. */
  lemma InsertStatusNoTitle(s: string, section: string, e: nat)
    requires !Contains(s, "# ")
    requires e < |s| && s[e] == '\n' && forall i :: 0 <= i < e ==> s[i] != '\n'
    ensures InsertStatus(s, section) == s[..e + 1] + "\n" + section + s[e + 1..]
  {
    InsertStatusAfterLine(s, section, e);
  }

  /** With no line break after the search start, the section goes first. */
  lemma InsertStatusAtStart(s: string, section: string)
    requires forall i :: TitleSearchStart(s) <= i < |s| ==> s[i] != '\n'
    ensures InsertStatus(s, section) == "\n" + section + s
  {
    NoLineBreakFrom(s, TitleSearchStart(s));
    assert s[..0] + "\n" + section + s[0..] == "\n" + section + s;
  }

  lemma NoLineBreakFrom(s: string, from: nat)
    requires forall i :: from <= i < |s| ==> s[i] != '\n'
    ensures IndexFrom(s, "\n", from) == -1
  {
    var r := IndexFrom(s, "\n", from);
    NewlineAt(s, r);
  }

  /** The script's update as written: the status section replaced up to
      the next "##", or inserted after the title line. */
  function UpdateReadme(s: string, section: string): (r: string)
    ensures Contains(s, StatusMarker) ==> r == ReplaceStatusAsWritten(s, section)
    ensures !Contains(s, StatusMarker) ==> r == InsertStatus(s, section)
  {
    if Contains(s, StatusMarker) then ReplaceStatusAsWritten(s, section) else InsertStatus(s, section)
  }

  /** The intended update: the status section replaced up to the next
      level-2 heading. */
  function UpdateReadmeIntended(s: string, section: string): (r: string)
    ensures Contains(s, StatusMarker) ==> r == ReplaceStatus(s, section)
    ensures !Contains(s, StatusMarker) ==> r == UpdateReadme(s, section)
  {
    if Contains(s, StatusMarker) then ReplaceStatus(s, section) else InsertStatus(s, section)
  }

  /** As written, a "##" anywhere after the status heading stops the
      replacement: everything from there on is kept. */
  lemma AsWrittenKeepsFrom(s: string, section: string, q: nat)
    requires Contains(s, StatusMarker)
    requires IndexOf(s, StatusMarker) + |StatusMarker| <= q && At(s, "##", q)
    ensures EndsWith(UpdateReadme(s, section), s[q..])
  {
    var h := IndexOf(s, StatusMarker);
    var j := NextHashes(s, h + |StatusMarker|);
    assert j <= q;
    var r := s[..h] + section + s[j..];
    assert s[j..] == s[j..q] + s[q..];
    assert r == (s[..h] + section + s[j..q]) + s[q..];
    Ends(s[..h] + section + s[j..q], s[q..]);
  }

  /** The two replacements agree when the first "##" after the status
      heading is a level-2 heading or there is none. */
  lemma AsWrittenAgreesAtLevel2(s: string, section: string)
    requires Contains(s, StatusMarker)
    requires var j := NextHashes(s, IndexOf(s, StatusMarker) + |StatusMarker|);
      j == |s| || Level2At(s, j)
    ensures UpdateReadme(s, section) == UpdateReadmeIntended(s, section)
  {
    var from := IndexOf(s, StatusMarker) + |StatusMarker|;
    var j := NextHashes(s, from);
    var n := NextSection(s, from);
    assert forall k :: from <= k < j ==> !Level2At(s, k);
    assert n == j;
  }

  /** The status marker holds no line break and follows one. */
  lemma MarkerFacts()
    ensures forall j :: 0 <= j < |StatusMarker| ==> StatusMarker[j] != '\n'
    ensures |StatusLine| == 1 + |StatusMarker| && StatusLine[1..] == StatusMarker
  {
  }

  lemma MetricsHeadingHashes()
    ensures |MetricsHeading| >= 2 && MetricsHeading[..2] == "##"
  {
  }

  /** A README that holds a section written by an earlier run, after text
      without the marker: the marker found is that section's. */
  lemma MarkerOfWrittenSection(pre: string, sec: string, post: string)
    requires !Contains(pre, StatusMarker) && StartsWith(sec, StatusLine)
    ensures Contains(pre + sec + post, StatusMarker)
    ensures IndexOf(pre + sec + post, StatusMarker) == |pre| + 1
  {
    MarkerFacts();
    FirstAfterBreak(pre, sec, post, StatusMarker);
  }

  /** A one-line pattern absent from `pre` and placed right after a line
      break that opens `sec` first occurs there. */
  lemma FirstAfterBreak(pre: string, sec: string, post: string, m: string)
    requires forall j :: 0 <= j < |m| ==> m[j] != '\n'
    requires !Contains(pre, m) && |sec| >= 1 + |m| && sec[0] == '\n' && sec[1..1 + |m|] == m
    ensures Contains(pre + sec + post, m) && IndexOf(pre + sec + post, m) == |pre| + 1
  {
    var s := pre + sec + post;
    assert s[|pre| + 1..|pre| + 1 + |m|] == sec[1..1 + |m|];
    ContainsAt(s, m, |pre| + 1);
    forall k | 0 <= k < |pre| + 1 ensures !At(s, m, k) {
      if k + |m| <= |pre| {
        assert s[k..k + |m|] == pre[k..k + |m|];
        assert !At(pre, m, k);
      } else if k + |m| <= |s| {
        assert s[|pre|] == '\n';
        assert s[k..k + |m|][|pre| - k] == s[|pre|];
        assert m[|pre| - k] != '\n';
      }
    }
  }

  lemma AtShorter(s: string, t: string, k: int, n: nat)
    requires At(s, t, k) && n <= |t|
    ensures At(s, t[..n], k)
  {
    assert s[k..k + n] == s[k..k + |t|][..n];
  }

  /** A README holding a section written by an earlier run: as written,
      every "##" inside that section after its heading line, "###"
      included, survives the update with all that follows it. */
  lemma KeepsFromSubheading(pre: string, sec: string, post: string, section: string, p: nat)
    requires !Contains(pre, StatusMarker) && StartsWith(sec, StatusLine)
    requires |StatusLine| <= p && At(sec, "##", p)
    ensures EndsWith(UpdateReadme(pre + sec + post, section), sec[p..] + post)
  {
    var s := pre + sec + post;
    MarkerOfWrittenSection(pre, sec, post);
    MarkerFacts();
    var q := |pre| + p;
    assert s[q..q + 2] == sec[p..p + 2];
    assert s[q..] == sec[p..] + post;
    AsWrittenKeepsFrom(s, section, q);
  }

  /** A section of the form heading, sub-sections: as written, the
      sub-sections of the earlier run and all that follows survive. */
  lemma KeepsSubsections(pre: string, head: string, sub: string, rest: string, post: string, section: string)
    requires !Contains(pre, StatusMarker) && StartsWith(head, StatusLine)
    requires |sub| >= 2 && sub[..2] == "##"
    ensures EndsWith(UpdateReadme(pre + (head + sub + rest) + post, section), sub + rest + post)
  {
    Layout(head, sub, rest, StatusLine);
    AtShorter(head + sub + rest, sub, |head|, 2);
    KeepsFromSubheading(pre, head + sub + rest, post, section, |head|);
  }

  /** Rerunning the script on its own output keeps the previous run's
      "### Métriques de Documentation" sub-section and everything after
      it: the new section is written in front of the old sub-sections. */
  lemma RerunKeepsOldMetrics(pre: string, doc: DocMetrics, task: TaskMetrics, date: string, post: string,
                             section: string)
    requires !Contains(pre, StatusMarker)
    ensures EndsWith(UpdateReadme(pre + BadgesSection(doc, task, date) + post, section),
                     MetricsHeading + MetricsBody(doc, task) + post)
  {
    MetricsHeadingHashes();
    KeepsSubsections(pre, StatusHead(doc, task, date), MetricsHeading, MetricsBody(doc, task), post, section);
  }

  /** A README whose status section starts with a sub-section. */
  function StaleReadme(): string {
    "# T\n" + StatusMarker + "\n" + "### M\nold\n" + "## Next\n"
  }

  /** On `StaleReadme`, as written the replacement stops at "###" and the
      old sub-section survives after the new section; the intended
      replacement removes it. */
  lemma StaleSubsectionSurvives(section: string)
    ensures Contains(StaleReadme(), StatusMarker)
    ensures ReplaceStatusAsWritten(StaleReadme(), section) == "# T\n" + section + "### M\nold\n" + "## Next\n"
    ensures ReplaceStatus(StaleReadme(), section) == "# T\n" + section + "## Next\n"
  {
    var s := StaleReadme();
    MarkerAtFour(s);
    StaleTail(s);
    assert NextHashes(s, 23) == 24;
    NoLevel2(s);
    assert NextSection(s, 23) == 34;
  }

  lemma MarkerAtFour(s: string)
    requires s == StaleReadme()
    ensures IndexOf(s, StatusMarker) == 4 && s[..4] == "# T\n"
  {
    assert s[4..23] == StatusMarker;
    assert At(s, StatusMarker, 4);
    forall k | 0 <= k < 4 ensures !At(s, StatusMarker, k) {
      assert s[k] != StatusMarker[0] || s[k + 1] != StatusMarker[1];
    }
  }

  lemma StaleTail(s: string)
    requires s == StaleReadme()
    ensures |s| == 42 && s[23] == '\n' && !At(s, "##", 23) && At(s, "##", 24)
    ensures s[24..] == "### M\nold\n" + "## Next\n" && s[34..] == "## Next\n"
    ensures Level2At(s, 34)
  {
    assert s[24..26] == "##";
    assert s[34..36] == "##";
  }

  lemma NoLevel2(s: string)
    requires s == StaleReadme()
    ensures forall k :: 23 <= k < 34 ==> !Level2At(s, k)
  {
    var c := "### M\nold\n";
    assert forall i :: 0 <= i < 10 ==> s[24 + i] == c[i];
    forall k | 23 <= k < 34 ensures !Level2At(s, k) {
      if k == 24 {
        assert s[26] == '#';
      } else if k == 25 {
        assert s[24] == '#';
      } else {
        assert s[k] != '#' || s[k + 1] != '#';
      }
    }
  }

  /** `updateBadges` on the README's content and the documents. */
  method UpdateBadges(readme: string, requirements: Option<string>, design: Option<string>, tasks: Option<string>,
                      dmLog: Option<string>, date: string) returns (r: string)
    ensures r == UpdateReadme(readme, BadgesSection(DocMetricsOf(requirements, design, tasks, dmLog),
                                                    TaskMetricsOf(tasks), date))
  {
    var doc := CalculateDocCompletionMetrics(requirements, design, tasks, dmLog);
    var task := CalculateTaskCompletionMetrics(tasks);
    r := WriteSection(readme, BadgesSection(doc, task, date));
  }

  /** The README's status section replaced, or inserted after the title. */
  method WriteSection(readme: string, section: string) returns (r: string)
    ensures r == UpdateReadme(readme, section)
  {
    if Contains(readme, StatusMarker) {
      r := ReplaceStatusAsWritten(readme, section);
    } else {
      r := InsertStatus(readme, section);
    }
  }
}

=== FILE: cli.dfy ===
/**
 * The command line: `parseArgs` walks the arguments with an index that a
 * value flag advances past its value, and `cli` checks the options a
 * command needs before running it.
 */
module Cli {
  import opened Common
  import opened Text
  import opened Gemini

  /** The parsed options. A value flag given as the last argument reads
      past the end and stores `undefined`, modelled as `None`; `null`
      defaults are `None` too. */
  datatype CliOptions = CliOptions(
    command: string,
    project: Option<string>,
    template: Option<string>,
    output: Option<string>,
    description: Option<string>,
    features: seq<string>,
    example: Option<string>,
    model: Option<string>,
    detail: bool)

  function Defaults(): CliOptions {
    CliOptions("generate", None, Some("pocketflow"), Some("./output"), Some(""), [], None, None, false)
  }

  /** The message of the `TypeError` thrown by `--features` without a value. */
  const FeaturesCrash := "Cannot read properties of undefined (reading 'split')"

  /** Whether the first argument is taken as the command: present,
      non-empty (an empty string is falsy) and not starting with '-'. */
  predicate FirstIsCommand(args: seq<string>) {
    |args| > 0 && args[0] != "" && !StartsWith(args[0], "-")
  }

  /** `.map(f => f.trim())`. */
  function TrimEach(xs: seq<string>): (ys: seq<string>)
    ensures |ys| == |xs|
    ensures forall k :: 0 <= k < |xs| ==> ys[k] == Trim(xs[k])
  {
    seq(|xs|, k requires 0 <= k < |xs| => Trim(xs[k]))
  }

  /** The arguments from index `i` on; empty once `i` is past the end. */
  function Drop(s: seq<string>, i: nat): (r: seq<string>)
    ensures i <= |s| ==> r == s[i..]
    ensures i >= |s| ==> r == []
  {
    if i >= |s| then [] else s[i..]
  }

  predicate IsValueFlag(a: string) {
    a == "--project" || a == "-p" || a == "--template" || a == "-t" ||
    a == "--output" || a == "-o" || a == "--example" || a == "-e" ||
    a == "--model" || a == "-m"
  }

  /** Stores the value of a value flag. */
  function SetValue(o: CliOptions, flag: string, v: Option<string>): (r: CliOptions)
    requires IsValueFlag(flag)
  {
    if flag == "--project" || flag == "-p" then o.(project := v)
    else if flag == "--template" || flag == "-t" then o.(template := v)
    else if flag == "--output" || flag == "-o" then o.(output := v)
    else if flag == "--example" || flag == "-e" then o.(example := v)
    else o.(model := v)
  }

  /** The option loop, one argument (or flag and value) at a time. */
  function ParseFrom(rest: seq<string>, o: CliOptions): (r: Result<CliOptions>)
    decreases |rest|
  {
    if rest == [] then Ok(o)
    else
      var a := rest[0];
      var next := if |rest| > 1 then Some(rest[1]) else None;
      if IsValueFlag(a) then ParseFrom(Drop(rest, 2), SetValue(o, a, next))
      else if a == "--description" || a == "-d" then
        if o.command == "models" then ParseFrom(rest[1..], o.(detail := true))
        else ParseFrom(Drop(rest, 2), o.(description := next))
      else if a == "--features" || a == "-f" then
        if next.None? then Err(FeaturesCrash)
        else ParseFrom(Drop(rest, 2), o.(features := TrimEach(Split(next.value, ','))))
      else if a == "--detail" then ParseFrom(rest[1..], o.(detail := true))
      else if a == "--help" || a == "-h" then ParseFrom(rest[1..], o.(command := "help"))
      else ParseFrom(rest[1..], o)
  }

  /** What `parseArgs(args)` answers, or the error it throws. */
  function ParseSpec(args: seq<string>): Result<CliOptions> {
    if FirstIsCommand(args) then ParseFrom(args[1..], Defaults().(command := args[0]))
    else ParseFrom(args, Defaults())
  }

  lemma DropStep(s: seq<string>, i: nat, n: nat)
    requires i < |s|
    ensures Drop(s, i)[0] == s[i]
    ensures Drop(Drop(s, i), n) == Drop(s, i + n)
  {
  }

  /** One step of the option loop at index `i`. */
  lemma ParseFromAt(rest: seq<string>, i: nat, o: CliOptions)
    requires i < |rest|
    ensures var a := rest[i];
      var next := if i + 1 < |rest| then Some(rest[i + 1]) else None;
      ParseFrom(Drop(rest, i), o) ==
        if IsValueFlag(a) then ParseFrom(Drop(rest, i + 2), SetValue(o, a, next))
        else if a == "--description" || a == "-d" then
          if o.command == "models" then ParseFrom(Drop(rest, i + 1), o.(detail := true))
          else ParseFrom(Drop(rest, i + 2), o.(description := next))
        else if a == "--features" || a == "-f" then
          if next.None? then Err(FeaturesCrash)
          else ParseFrom(Drop(rest, i + 2), o.(features := TrimEach(Split(next.value, ','))))
        else if a == "--detail" then ParseFrom(Drop(rest, i + 1), o.(detail := true))
        else if a == "--help" || a == "-h" then ParseFrom(Drop(rest, i + 1), o.(command := "help"))
        else ParseFrom(Drop(rest, i + 1), o)
  {
    DropStep(rest, i, 1);
    DropStep(rest, i, 2);
    assert Drop(rest, i)[1..] == Drop(rest, i + 1);
  }

  /** `parseArgs(args)`. */
  method ParseArgs(args: seq<string>) returns (r: Result<CliOptions>)
    ensures r == ParseSpec(args)
  {
    var options := Defaults();
    var rest := args;
    if |args| > 0 && args[0] != "" && !StartsWith(args[0], "-") {
      options := options.(command := args[0]);
      rest := args[1..];
    }
    ghost var spec := ParseSpec(args);
    assert ParseFrom(Drop(rest, 0), options) == spec;
    var i := 0;
    while i < |rest|
      invariant 0 <= i <= |rest| + 1
      invariant ParseFrom(Drop(rest, i), options) == spec
      decreases |rest| + 1 - i
    {
      var a := rest[i];
      ParseFromAt(rest, i, options);
      if IsValueFlag(a) {
        i := i + 1;
        options := SetValue(options, a, if i < |rest| then Some(rest[i]) else None);
      } else if a == "--description" || a == "-d" {
        if options.command == "models" {
          options := options.(detail := true);
        } else {
          i := i + 1;
          options := options.(description := if i < |rest| then Some(rest[i]) else None);
        }
      } else if a == "--features" || a == "-f" {
        i := i + 1;
        if i >= |rest| {
          return Err(FeaturesCrash);
        }
        options := options.(features := TrimEach(Split(rest[i], ',')));
      } else if a == "--detail" {
        options := options.(detail := true);
      } else if a == "--help" || a == "-h" {
        options := options.(command := "help");
      }
      i := i + 1;
    }
    r := Ok(options);
  }

  /** With no arguments every option keeps its default. */
  lemma NoArguments()
    ensures ParseSpec([]) == Ok(Defaults())
  {
  }

  /** A later value flag overwrites an earlier one. */
  lemma LaterValueWins(flag: string, v1: string, v2: string, rest: seq<string>, o: CliOptions)
    requires IsValueFlag(flag)
    ensures ParseFrom([flag, v1, flag, v2] + rest, o) == ParseFrom([flag, v2] + rest, o)
  {
    var s := [flag, v1, flag, v2] + rest;
    assert Drop(s, 2) == [flag, v2] + rest;
    assert SetValue(SetValue(o, flag, Some(v1)), flag, Some(v2)) == SetValue(o, flag, Some(v2));
  }

  /** An argument the switch does not know is skipped. */
  lemma UnknownIgnored(a: string, rest: seq<string>, o: CliOptions)
    requires !IsValueFlag(a) && a != "--description" && a != "-d" && a != "--features" && a != "-f"
    requires a != "--detail" && a != "--help" && a != "-h"
    ensures ParseFrom([a] + rest, o) == ParseFrom(rest, o)
  {
    assert ([a] + rest)[1..] == rest;
  }

  /** `--features` splits its value on ',' and trims each piece; with no
      value it throws. */
  lemma FeaturesValue(v: string, rest: seq<string>, o: CliOptions)
    ensures ParseFrom(["--features", v] + rest, o) ==
            ParseFrom(rest, o.(features := TrimEach(Split(v, ','))))
    ensures ParseFrom(["--features"], o) == Err(FeaturesCrash)
  {
    assert Drop(["--features", v] + rest, 2) == rest;
  }

  /** Under the `models` command `-d` sets `detail` and consumes nothing;
      under any other command it consumes the next argument as the
      description. */
  lemma DescriptionFlag(v: string, rest: seq<string>, o: CliOptions)
    ensures o.command == "models" ==>
      ParseFrom(["-d", v] + rest, o) == ParseFrom([v] + rest, o.(detail := true))
    ensures o.command != "models" ==>
      ParseFrom(["-d", v] + rest, o) == ParseFrom(rest, o.(description := Some(v)))
  {
    assert (["-d", v] + rest)[1..] == [v] + rest;
    assert Drop(["-d", v] + rest, 2) == rest;
  }

  /** The loop changes the command only to "help". */
  lemma {:induction false} CommandOnlyBecomesHelp(rest: seq<string>, o: CliOptions)
    ensures ParseFrom(rest, o).Ok? ==>
      ParseFrom(rest, o).value.command == o.command || ParseFrom(rest, o).value.command == "help"
    decreases |rest|
  {
    if rest != [] {
      var a := rest[0];
      if IsValueFlag(a) {
        CommandOnlyBecomesHelp(Drop(rest, 2), SetValue(o, a, if |rest| > 1 then Some(rest[1]) else None));
      } else if a == "--description" || a == "-d" {
        if o.command == "models" {
          CommandOnlyBecomesHelp(rest[1..], o.(detail := true));
        } else {
          CommandOnlyBecomesHelp(Drop(rest, 2), o.(description := if |rest| > 1 then Some(rest[1]) else None));
        }
      } else if a == "--features" || a == "-f" {
        if |rest| > 1 {
          CommandOnlyBecomesHelp(Drop(rest, 2), o.(features := TrimEach(Split(rest[1], ','))));
        }
      } else if a == "--detail" {
        CommandOnlyBecomesHelp(rest[1..], o.(detail := true));
      } else if a == "--help" || a == "-h" {
        CommandOnlyBecomesHelp(rest[1..], o.(command := "help"));
      } else {
        CommandOnlyBecomesHelp(rest[1..], o);
      }
    }
  }

  /** Once the command is "help" it stays "help". */
  lemma {:induction false} HelpSticks(rest: seq<string>, o: CliOptions)
    requires o.command == "help"
    ensures ParseFrom(rest, o).Ok? ==> ParseFrom(rest, o).value.command == "help"
  {
    CommandOnlyBecomesHelp(rest, o);
  }

  /** The command is the first argument exactly when that argument is
      present, non-empty and not an option, unless `--help` is given. */
  lemma CommandFromFirst(args: seq<string>)
    ensures ParseSpec(args).Ok? ==>
      var c := ParseSpec(args).value.command;
      c == "help" || (FirstIsCommand(args) && c == args[0]) || (!FirstIsCommand(args) && c == "generate")
  {
    if FirstIsCommand(args) {
      CommandOnlyBecomesHelp(args[1..], Defaults().(command := args[0]));
    } else {
      CommandOnlyBecomesHelp(args, Defaults());
    }
  }

  /** `-h` anywhere a flag is read makes the command "help". */
  lemma HelpAnywhere(rest: seq<string>, o: CliOptions)
    ensures ParseFrom(["-h"] + rest, o).Ok? ==> ParseFrom(["-h"] + rest, o).value.command == "help"
  {
    assert (["-h"] + rest)[1..] == rest;
    HelpSticks(rest, o.(command := "help"));
  }

  // ---------------------------------------------------------------------
  // cli()

  /** The configuration as `cli` sees it after loading. */
  datatype CliConfig = CliConfig(gemini: Option<GeminiConfig>)

  /** What `cli` does. `Run*` hands the options and configuration on to
      the generation pipeline; `Exit(1, m)` prints `m` and exits with 1;
      `Crash` is an error thrown outside the `try`. */
  datatype CliOutcome =
    | ShowHelp
    | RunGenerate(opts: CliOptions, config: CliConfig)
    | RunAdapt(opts: CliOptions, config: CliConfig)
    | RunModels(opts: CliOptions, config: CliConfig)
    | Exit(code: int, message: string)
    | Crash(message: string)

  const ProjectRequired := "Erreur: Le nom du projet est obligatoire"
  const ExampleRequired := "Erreur: Le chemin vers le document exemple est obligatoire"

  predicate Truthy(v: Option<string>) {
    v.Some? && v.value != ""
  }

  /** `config.gemini.model = options.model` when a model was given; with
      no `gemini` section the assignment throws. */
  function OverrideModel(config: CliConfig, model: Option<string>): (r: Result<CliConfig>)
    ensures !Truthy(model) ==> r == Ok(config)
    ensures Truthy(model) && config.gemini.None? ==> r.Err?
    ensures Truthy(model) && config.gemini.Some? ==>
      r == Ok(CliConfig(Some(config.gemini.value.(model := model.value))))
  {
    if !Truthy(model) then Ok(config)
    else if config.gemini.None? then Err("Cannot set properties of undefined (setting 'model')")
    else Ok(CliConfig(Some(config.gemini.value.(model := model.value))))
  }

  /** The decision `cli` takes for parsed options and a loaded (or failed)
      configuration. */
  function Decide(parsed: Result<CliOptions>, loaded: Result<CliConfig>): (out: CliOutcome)
    ensures parsed.Err? ==> out == Crash(parsed.msg)
    ensures parsed.Ok? && parsed.value.command == "help" ==> out == ShowHelp
    ensures parsed.Ok? && parsed.value.command != "help" && loaded.Err? ==>
      out == Exit(1, "Erreur: " + loaded.msg)
    ensures out.RunGenerate? ==> parsed.Ok? && parsed.value.command == "generate" && Truthy(out.opts.project)
    ensures out.RunAdapt? ==> parsed.Ok? && parsed.value.command == "adapt" &&
                              Truthy(out.opts.project) && Truthy(out.opts.example)
    ensures out.RunModels? ==> parsed.Ok? && parsed.value.command == "models"
    ensures (out.RunGenerate? || out.RunAdapt? || out.RunModels?) ==>
      out.opts == parsed.value && loaded.Ok? &&
      Ok(out.config) == OverrideModel(loaded.value, parsed.value.model)
    ensures parsed.Ok? && parsed.value.command != "help" && loaded.Ok? ==>
      var o := parsed.value;
      var config := OverrideModel(loaded.value, o.model);
      (config.Err? ==> out == Exit(1, "Erreur: " + config.msg)) &&
      (config.Ok? ==>
        (o.command == "models" ==> out == RunModels(o, config.value)) &&
        (o.command == "generate" && Truthy(o.project) ==> out == RunGenerate(o, config.value)) &&
        (o.command == "adapt" && Truthy(o.project) && Truthy(o.example) ==> out == RunAdapt(o, config.value)) &&
        ((o.command == "generate" || o.command == "adapt") && !Truthy(o.project) ==> out == Exit(1, ProjectRequired)) &&
        (o.command == "adapt" && Truthy(o.project) && !Truthy(o.example) ==> out == Exit(1, ExampleRequired)) &&
        (o.command !in {"generate", "adapt", "models"} ==> out == Exit(1, "Commande inconnue: " + o.command)))
  {
    if parsed.Err? then Crash(parsed.msg)
    else
      var o := parsed.value;
      if o.command == "help" then ShowHelp
      else if loaded.Err? then Exit(1, "Erreur: " + loaded.msg)
      else
        var config := OverrideModel(loaded.value, o.model);
        if config.Err? then Exit(1, "Erreur: " + config.msg)
        else if o.command == "generate" then
          if !Truthy(o.project) then Exit(1, ProjectRequired)
          else RunGenerate(o, config.value)
        else if o.command == "adapt" then
          if !Truthy(o.project) then Exit(1, ProjectRequired)
          else if !Truthy(o.example) then Exit(1, ExampleRequired)
          else RunAdapt(o, config.value)
        else if o.command == "models" then RunModels(o, config.value)
        else Exit(1, "Commande inconnue: " + o.command)
  }

  /** `cli()`: parse, show help, load the configuration, apply the model
      override, check the required options and pick the command. */
  method Run(args: seq<string>, loaded: Result<CliConfig>) returns (out: CliOutcome)
    ensures out == Decide(ParseSpec(args), loaded)
  {
    var options := ParseArgs(args);
    out := Decide(options, loaded);
  }

  /** Every command other than help, generate, adapt and models exits with
      status 1 once the configuration is loaded. */
  lemma UnknownCommandExits(args: seq<string>, config: CliConfig)
    requires ParseSpec(args).Ok?
    requires ParseSpec(args).value.command !in {"help", "generate", "adapt", "models"}
    ensures Decide(ParseSpec(args), Ok(config)).Exit?
    ensures Decide(ParseSpec(args), Ok(config)).code == 1
  {
  }

  /** `generate` without a project, and `adapt` without a project or an
      example, exit with status 1. */
  lemma MissingRequiredExits(o: CliOptions, config: CliConfig)
    requires o.command == "generate" || o.command == "adapt"
    requires !Truthy(o.project) || (o.command == "adapt" && !Truthy(o.example))
    ensures Decide(Ok(o), Ok(config)).Exit? && Decide(Ok(o), Ok(config)).code == 1
  {
  }
}

=== FILE: common.dfy ===
/**
 * Values shared by the whole model: optional values, results of operations
 * that can throw, and file paths.
 */
module Common {

  datatype Option<T> = None | Some(value: T)
  {
    function GetOr(default: T): (r: T)
      ensures this.Some? ==> r == this.value
      ensures this.None? ==> r == default
    {
      match this
      case Some(v) => v
      case None => default
    }
  }

  /** The outcome of a call that returns a value or throws an `Error` with a message. */
  datatype Result<T> = Ok(value: T) | Err(msg: string)

  /** A file in a directory: `path.join(dir, file)`, without normalisation. */
  datatype Path = Path(dir: string, file: string)
  {
    function Render(): string {
      dir + "/" + file
    }
  }

  /** The message of Node's `fs` error for a file that does not exist. */
  function NoSuchFile(p: Path): (m: string)
    ensures |m| > |p.Render()|
  {
    "ENOENT: no such file or directory, open '" + p.Render() + "'"
  }

  /** `a` is `b` with some elements left out and the others in their
      order (greedy matching from the front). */
  predicate IsSubseq<T(==)>(a: seq<T>, b: seq<T>)
    decreases |b|
  {
    a == [] || (b != [] && if a[0] == b[0] then IsSubseq(a[1..], b[1..]) else IsSubseq(a, b[1..]))
  }
}

=== FILE: dashboard.dfy ===
/**
 * The dashboard generator's data side: the CSS classes chosen for
 * progress bars and quality badges, the checkbox counts read from the tasks
 * list, and the recent activities read from the DM log. Scores and
 * percentages are exact rationals `num / den`; file contents are
 * parameters (`None` when the file does not exist).
 */
module Dashboard {
  import opened Common
  import opened Text
  import DocReview
  import Badges

  /** The three levels both classifiers pick from. */
  datatype Level = Success | Warning | Danger {
    function Name(): string {
      match this
      case Success => "success"
      case Warning => "warning"
      case Danger => "danger"
    }
  }

  /** `getProgressClass` on the value `num / den`: at least 75 is a success,
      at least 50 a warning, anything lower a danger. */
  function ProgressLevel(num: int, den: nat): (l: Level)
    requires den > 0
    ensures l == Success <==> num >= 75 * den
    ensures l == Warning <==> 50 * den <= num < 75 * den
    ensures l == Danger <==> num < 50 * den
  {
    if num >= 75 * den then Success
    else if num >= 50 * den then Warning
    else Danger
  }

  function ProgressClass(num: int, den: nat): (c: string)
    requires den > 0
    ensures c == "progress-" + ProgressLevel(num, den).Name()
    ensures c == "progress-success" || c == "progress-warning" || c == "progress-danger"
  {
    "progress-" + ProgressLevel(num, den).Name()
  }

  /** `getBadgeClass` on the score `num / den` (out of 10): at least 7.5 is a
      success, at least 5 a warning, anything lower a danger. */
  function BadgeLevel(num: int, den: nat): (l: Level)
    requires den > 0
    ensures l == Success <==> 2 * num >= 15 * den
    ensures l == Warning <==> 5 * den <= num && 2 * num < 15 * den
    ensures l == Danger <==> num < 5 * den
  {
    if 2 * num >= 15 * den then Success
    else if num >= 5 * den then Warning
    else Danger
  }

  /** A score out of 10 gets the badge level of the same score read as a
      percentage: `getBadgeClass(s)` agrees with `getProgressClass(10 * s)`. */
  lemma BadgeMatchesProgress(num: int, den: nat)
    requires den > 0
    ensures BadgeLevel(num, den) == ProgressLevel(10 * num, den)
  {
  }

  function Rank(l: Level): nat {
    match l
    case Danger => 0
    case Warning => 1
    case Success => 2
  }

  /** A higher value never gets a worse progress class. */
  lemma ProgressMonotone(num1: int, num2: int, den: nat)
    requires den > 0 && num1 <= num2
    ensures Rank(ProgressLevel(num1, den)) <= Rank(ProgressLevel(num2, den))
  {
  }

  // ---------------------------------------------------------------------
  // Task progress

  /** `collectTaskProgress`: the three checkbox counts of the tasks file, or
      the fixed 15 / 8 / 22 when the file does not exist. */
  function CollectTaskProgress(tasks: Option<string>): (c: DocReview.TaskCounts)
    ensures tasks.None? ==> c == DocReview.TaskCounts(15, 8, 22)
    ensures tasks.Some? ==>
      c.completed == Count(tasks.value, "- [x]") && c.inProgress == Count(tasks.value, "- [.]") &&
      c.todo == Count(tasks.value, "- [ ]")
  {
    if tasks.None? then DocReview.TaskCounts(15, 8, 22)
    else DocReview.CountTasks(tasks.value)
  }

  /** For an existing task list the dashboard and the README badges count
      the same tasks. */
  lemma TaskProgressMatchesBadges(content: string)
    ensures var c := CollectTaskProgress(Some(content));
      var m := Badges.TaskMetricsOf(Some(content));
      c.completed == m.completed && c.inProgress == m.inProgress && c.todo == m.todo &&
      c.completed + c.inProgress + c.todo == m.total
  {
  }

  // ---------------------------------------------------------------------
  // Recent activity

  datatype Activity = Activity(date: string, description: string)

  /** The characters JavaScript's `.` does not match. */
  predicate IsLineTerminator(c: char) {
    c == '\n' || c == '\r' || c == '\U{2028}' || c == '\U{2029}'
  }

  /** The first line terminator at or after `i`, or the end of `s`. */
  function LineEnd(s: string, i: nat): (r: nat)
    requires i <= |s|
    ensures i <= r <= |s|
    ensures forall j :: i <= j < r ==> !IsLineTerminator(s[j])
    ensures r < |s| ==> IsLineTerminator(s[r])
    decreases |s| - i
  {
    if i == |s| || IsLineTerminator(s[i]) then i else LineEnd(s, i + 1)
  }

  /** "### YYYY-MM-DD - " at `k`, with ASCII digits. */
  predicate EntryHead(s: string, k: int) {
    DocReview.DateHeadingAt(s, k) && At(s, " - ", k + 14)
  }

  /** Where `/### (\d{4}-\d{2}-\d{2}) - (.*?)(?=\n\n)/` matching at `k`
      ends: the lazy `.*?` cannot cross a line terminator and the
      look-ahead needs a blank line, so the match ends at the end of the
      heading's line, and only when that line is followed by "\n\n". */
  function MatchEnd(s: string, k: nat): (r: Option<nat>)
    requires k <= |s|
    ensures r.Some? ==> k + 17 <= r.value && At(s, "\n\n", r.value)
  {
    if EntryHead(s, k) then
      var e := LineEnd(s, k + 17);
      if At(s, "\n\n", e) then Some(e) else None
    else None
  }

  /** The global match: the matched texts, left to right, each search
      resuming where the previous match ended. */
  function Matches(s: string, i: nat): (ms: seq<string>)
    requires i <= |s|
    decreases |s| - i
  {
    if i == |s| then []
    else
      match MatchEnd(s, i)
      case Some(e) => [s[i..e]] + Matches(s, e)
      case None => Matches(s, i + 1)
  }

  /** `/### (\d{4}-\d{2}-\d{2}) - (.*?)$/` on one entry, searched from `k`:
      without the `m` flag `$` is the end of the text, so the description
      runs to the end and must hold no line terminator. */
  function ParseFrom(entry: string, k: nat): (a: Option<Activity>)
    requires k <= |entry|
    decreases |entry| - k
  {
    if k + 17 > |entry| then None
    else if EntryHead(entry, k) && LineEnd(entry, k + 17) == |entry| then
      Some(Activity(entry[k + 4..k + 14], entry[k + 17..]))
    else ParseFrom(entry, k + 1)
  }

  function ParseEntry(entry: string): Option<Activity> {
    ParseFrom(entry, 0)
  }

  /** The activities pushed for a list of entries, in order; an entry the
      second expression does not match adds nothing. */
  function ParsedAll(ms: seq<string>): seq<Activity> {
    if ms == [] then []
    else
      var m := ParseEntry(ms[|ms| - 1]);
      ParsedAll(ms[..|ms| - 1]) + (if m.Some? then [m.value] else [])
  }

  const MaxActivities := 5

  function FallbackActivities(): (acts: seq<Activity>)
    ensures |acts| == MaxActivities
  {
    [Activity("2023-06-15", "Initialisation du projet avec documentation"),
     Activity("2023-06-14", "Revue Automatique de Documentation"),
     Activity("2023-06-12", "Mise à jour des exigences"),
     Activity("2023-06-10", "Implémentation de la génération de documents"),
     Activity("2023-06-08", "Configuration initiale du projet")]
  }

  function FirstEntries(ms: seq<string>): (r: seq<string>)
    ensures |r| == if |ms| < MaxActivities then |ms| else MaxActivities
    ensures r == ms[..|r|]
  {
    ms[..if |ms| < MaxActivities then |ms| else MaxActivities]
  }

  /** What `collectRecentActivity` returns for the DM log's content. */
  function RecentActivity(log: Option<string>): seq<Activity> {
    var acts := if log.Some? then ParsedAll(FirstEntries(Matches(log.value, 0))) else [];
    if acts == [] then FallbackActivities() else acts
  }

  /** `collectRecentActivity`: parses at most the first five entries, and
      falls back to the five sample activities when none was found. */
  method CollectRecentActivity(log: Option<string>) returns (activities: seq<Activity>)
    ensures activities == RecentActivity(log)
  {
    activities := [];
    if log.Some? {
      var entries := Matches(log.value, 0);
      var first := FirstEntries(entries);
      var j := 0;
      while j < |first|
        invariant 0 <= j <= |first|
        invariant activities == ParsedAll(first[..j])
      {
        var m := ParseEntry(first[j]);
        assert first[..j + 1][..j] == first[..j];
        if m.Some? {
          activities := activities + [m.value];
        }
        j := j + 1;
      }
      assert first[..j] == first;
    }
    if |activities| == 0 {
      activities := FallbackActivities();
    }
  }

  /** The heading an activity was read from, followed by the blank line. */
  function LoggedText(a: Activity): string {
    "### " + a.date + " - " + a.description + "\n\n"
  }

  /** An activity read from the log: an ISO-shaped date, a one-line
      description, and its heading line in the log. */
  predicate FromLog(log: string, a: Activity) {
    DocReview.IsoDate(a.date) && (forall j :: 0 <= j < |a.description| ==> !IsLineTerminator(a.description[j])) &&
    Contains(log, LoggedText(a))
  }

  /** Once every character of `s` from `i` on is not a terminator, the line
      runs to the end. */
  lemma {:induction false} LineEndAtEnd(s: string, i: nat)
    requires i <= |s|
    requires forall j :: i <= j < |s| ==> !IsLineTerminator(s[j])
    ensures LineEnd(s, i) == |s|
    decreases |s| - i
  {
    if i < |s| {
      LineEndAtEnd(s, i + 1);
    }
  }

  /** Every matched text is parsed by the second expression, at its start,
      into the date and the rest of its line, which the log holds followed
      by a blank line. */
  lemma MatchParses(s: string, i: nat, e: nat)
    requires i <= |s| && MatchEnd(s, i) == Some(e)
    ensures ParseEntry(s[i..e]) == Some(Activity(s[i + 4..i + 14], s[i + 17..e]))
    ensures FromLog(s, Activity(s[i + 4..i + 14], s[i + 17..e]))
  {
    var m := s[i..e];
    assert forall j :: 0 <= j < |m| ==> m[j] == s[i + j];
    assert m[0..4] == s[i..i + 4];
    assert m[14..17] == s[i + 14..i + 17];
    assert EntryHead(m, 0);
    LineEndAtEnd(m, 17);
    assert m[4..14] == s[i + 4..i + 14];
    assert m[17..] == s[i + 17..e];
    var a := Activity(s[i + 4..i + 14], s[i + 17..e]);
    assert DocReview.IsoDate(a.date);
    assert s[i..e + 2] == LoggedText(a) by {
      assert s[i..e + 2] == s[i..i + 4] + s[i + 4..i + 14] + s[i + 14..i + 17] + s[i + 17..e] + s[e..e + 2];
    }
    ContainsAt(s, LoggedText(a), i);
  }

  /** Every matched text parses, into an activity read from the log. */
  lemma {:induction false} MatchesParse(s: string, i: nat)
    requires i <= |s|
    ensures forall j :: 0 <= j < |Matches(s, i)| ==>
      ParseEntry(Matches(s, i)[j]).Some? && FromLog(s, ParseEntry(Matches(s, i)[j]).value)
    decreases |s| - i
  {
    if i < |s| {
      match MatchEnd(s, i)
      case Some(e) =>
        MatchParses(s, i, e);
        MatchesParse(s, e);
        assert Matches(s, i) == [s[i..e]] + Matches(s, e);
      case None =>
        MatchesParse(s, i + 1);
    }
  }

  /** Entries that all parse give one activity each, in order. */
  lemma ParsedAllParses(s: string, ms: seq<string>)
    requires forall j :: 0 <= j < |ms| ==> ParseEntry(ms[j]).Some? && FromLog(s, ParseEntry(ms[j]).value)
    ensures |ParsedAll(ms)| == |ms|
    ensures forall j :: 0 <= j < |ms| ==> ParsedAll(ms)[j] == ParseEntry(ms[j]).value
    ensures forall a :: a in ParsedAll(ms) ==> FromLog(s, a)
  {
    ParsedAllSome(ms);
    forall a | a in ParsedAll(ms) ensures FromLog(s, a) {
      var j :| 0 <= j < |ms| && ParsedAll(ms)[j] == a;
    }
  }

  lemma {:induction false} ParsedAllSome(ms: seq<string>)
    requires forall j :: 0 <= j < |ms| ==> ParseEntry(ms[j]).Some?
    ensures |ParsedAll(ms)| == |ms|
    ensures forall j :: 0 <= j < |ms| ==> ParsedAll(ms)[j] == ParseEntry(ms[j]).value
  {
    if ms != [] {
      var init := ms[..|ms| - 1];
      assert forall j :: 0 <= j < |init| ==> init[j] == ms[j];
      ParsedAllSome(init);
      var last := ParseEntry(ms[|ms| - 1]);
      assert last.Some?;
      var r := ParsedAll(ms);
      assert r == ParsedAll(init) + [last.value];
      forall j | 0 <= j < |ms| ensures r[j] == ParseEntry(ms[j]).value {
        if j < |init| {
          assert r[j] == ParsedAll(init)[j];
        }
      }
    }
  }

  /** `collectRecentActivity` returns one to five activities: the sample
      ones when the log is missing or holds no dated entry followed by a
      blank line, otherwise one per entry found, at most five, each read
      from the log. */
  lemma RecentActivityShape(log: Option<string>)
    ensures 1 <= |RecentActivity(log)| <= MaxActivities
    ensures log.None? || Matches(log.value, 0) == [] ==> RecentActivity(log) == FallbackActivities()
    ensures log.Some? && Matches(log.value, 0) != [] ==>
      var ms := Matches(log.value, 0);
      |RecentActivity(log)| == (if |ms| < MaxActivities then |ms| else MaxActivities) &&
      (forall j :: 0 <= j < |RecentActivity(log)| ==> ParseEntry(ms[j]).Some? && RecentActivity(log)[j] == ParseEntry(ms[j]).value) &&
      forall a :: a in RecentActivity(log) ==> FromLog(log.value, a)
  {
    if log.Some? {
      var ms := Matches(log.value, 0);
      var first := FirstEntries(ms);
      MatchesParse(log.value, 0);
      assert forall j :: 0 <= j < |first| ==> first[j] == ms[j];
      ParsedAllParses(log.value, first);
    }
  }
}

=== FILE: dm_log.dfy ===
/**
 * The decision log (DM-log): the nodes of the update flow that read the
 * task from the last commit message, format the entry's lists, insert the
 * entry after the "## Résultats des étapes" marker and choose what to
 * commit; and the command-line script that builds and inserts an entry by
 * itself. Git, the clock, the language model and the files are parameters.
 */
module DmLog {
  import opened Common
  import opened Text

  // ---------------------------------------------------------------------
  // Insertion after the marker (shared by the node and the script)

  const SectionMarker := "## Résultats des étapes"

  /** `find(marker) + len(marker)` / `indexOf(marker) + marker.length`: with
      the marker absent the search answers -1 and the position is one short
      of the marker's length. */
  function InsertPosition(content: string): (p: int)
    ensures Contains(content, SectionMarker) ==>
      p == IndexOf(content, SectionMarker) + |SectionMarker| && p <= |content|
    ensures !Contains(content, SectionMarker) ==> p == |SectionMarker| - 1
  {
    IndexOf(content, SectionMarker) + |SectionMarker|
  }

  /** `content[:p] + sep + entry + content[p:]`, slices clamped to the text. */
  function InsertEntry(content: string, sep: string, entry: string): (r: string)
    ensures var q := if InsertPosition(content) < |content| then InsertPosition(content) else |content|;
      r == content[..q] + sep + entry + content[q..]
  {
    var p := InsertPosition(content);
    var q := if p < |content| then p else |content|;
    content[..q] + sep + entry + content[q..]
  }

  /** The old content survives around the insertion: taking the inserted
      text back out restores it, and the length grows by exactly the
      inserted text. */
  lemma InsertPreserves(content: string, sep: string, entry: string)
    ensures var r := InsertEntry(content, sep, entry);
      var q := if InsertPosition(content) < |content| then InsertPosition(content) else |content|;
      |r| == |content| + |sep| + |entry| &&
      r[..q] + r[q + |sep| + |entry|..] == content &&
      r[q..q + |sep| + |entry|] == sep + entry
  {
    var r := InsertEntry(content, sep, entry);
    var q := if InsertPosition(content) < |content| then InsertPosition(content) else |content|;
    var a, b := content[..q], content[q..];
    assert r == a + (sep + entry) + b;
    SplitAround(a, sep + entry, b);
    assert a + b == content;
  }

  lemma SplitAround(a: string, m: string, b: string)
    ensures (a + m + b)[..|a|] == a
    ensures (a + m + b)[|a|..|a| + |m|] == m
    ensures (a + m + b)[|a| + |m|..] == b
  {
  }

  /** With the marker present, the inserted text follows the marker. */
  lemma InsertAfterMarker(content: string, sep: string, entry: string)
    requires Contains(content, SectionMarker)
    ensures EndsWith(InsertEntry(content, sep, entry)[..InsertPosition(content)], SectionMarker)
    ensures StartsWith(InsertEntry(content, sep, entry)[InsertPosition(content)..], sep + entry)
  {
    var p := InsertPosition(content);
    var k := IndexOf(content, SectionMarker);
    var a, b := content[..p], content[p..];
    var r := InsertEntry(content, sep, entry);
    assert r == a + (sep + entry) + b;
    SplitAround(a, sep + entry, b);
    assert r[..p] == a;
    assert a[p - |SectionMarker|..] == content[k..k + |SectionMarker|];
    assert r[p..][..|sep + entry|] == sep + entry;
  }

  /** Without the marker the entry lands at offset 22, inside whatever text
      is there (for a log starting with its title, inside the title). */
  lemma MarkerAbsentQuirk(content: string, sep: string, entry: string)
    requires !Contains(content, SectionMarker) && |content| >= 22
    ensures InsertEntry(content, sep, entry) == content[..22] + sep + entry + content[22..]
  {
  }

  // ---------------------------------------------------------------------
  // The update flow's nodes

  /** The part of the flow context these nodes use; `None` is a key the
      context does not hold. */
  datatype DmContext = DmContext(
    taskName: Option<string>,
    today: Option<string>,
    taskResults: Option<seq<string>>,
    nextSteps: Option<seq<string>>,
    dmContent: Option<string>,
    dmEntry: Option<string>)

  const UnknownTask := "Tâche inconnue"

  /** The text up to the first line feed (`.*`, which stops only there). */
  function ToLineEnd(s: string): (r: string)
    ensures |r| <= |s| && r == s[..|r|] && '\n' !in r
    ensures |r| < |s| ==> s[|r|] == '\n'
  {
    if s == [] || s[0] == '\n' then [] else [s[0]] + ToLineEnd(s[1..])
  }

  lemma {:induction false} ToLineEndWhole(s: string)
    requires '\n' !in s
    ensures ToLineEnd(s) == s
  {
    if s != [] {
      assert s[1..] == s[1..];
      assert '\n' !in s[1..] by {
        forall i | 0 <= i < |s[1..]| ensures s[1..][i] != '\n' {
          assert s[1..][i] == s[i + 1];
        }
      }
      ToLineEndWhole(s[1..]);
    }
  }

  /** What follows the first "Task:" of a message and the whitespace
      after it. */
  function AfterTask(msg: string): (rest: string)
    requires Contains(msg, "Task:")
  {
    DropSpaces(msg[IndexOf(msg, "Task:") + 5..])
  }

  /** `re.search(r"Task:\s*(.*)", msg)`: the task name is what follows the first
      "Task:" and the whitespace after it, up to the end of that line; without
      a "Task:" the task name is unknown. */
  function TaskName(msg: string): (t: string)
    ensures !Contains(msg, "Task:") ==> t == UnknownTask
    ensures Contains(msg, "Task:") ==>
      '\n' !in t && |t| <= |AfterTask(msg)| && t == AfterTask(msg)[..|t|] &&
      (|t| == |AfterTask(msg)| || AfterTask(msg)[|t|] == '\n')
  {
    if !Contains(msg, "Task:") then UnknownTask
    else ToLineEnd(AfterTask(msg))
  }

  /** The commit "Task: Test task" gives the task name "Test task". */
  lemma TaskNameExample()
    ensures TaskName("Task: Test task") == "Test task"
  {
    var msg := "Task: Test task";
    var t := "Test task";
    ExampleIndex(msg);
    assert msg[5..] == [' '] + t;
    assert forall i :: 0 <= i < |t| ==> t[i] != '\n';
    ExampleRest(t);
    assert TaskName(msg) == ToLineEnd(AfterTask(msg));
  }

  lemma ExampleIndex(msg: string)
    requires msg == "Task: Test task"
    ensures IndexOf(msg, "Task:") == 0
  {
    assert msg[..5] == "Task:";
    FirstIndex(msg, "Task:");
  }

  lemma ExampleRest(t: string)
    requires t != [] && !IsSpace(t[0]) && '\n' !in t
    ensures ToLineEnd(DropSpaces([' '] + t)) == t
  {
    var s := [' '] + t;
    assert s[1..] == t;
    assert DropSpaces(s) == DropSpaces(t) == t;
    ToLineEndWhole(t);
  }

  lemma FirstIndex(s: string, p: string)
    requires At(s, p, 0)
    ensures IndexOf(s, p) == 0
  {
  }

  /** A commit without "Task:" names the unknown task. */
  lemma TaskNameMissing(msg: string)
    requires forall k :: !At(msg, "Task:", k)
    ensures TaskName(msg) == UnknownTask
  {
  }

  const CommitError := "Erreur lors de la récupération des informations du commit: "

  /** `GitCommitNode.exec`: the task name of the last commit message (stripped)
      and today's date; default results and next steps only where the
      context has none. `gitLog` is the output of `git log`, or its failure. */
  function GitCommit(ctx: DmContext, gitLog: Result<string>, today: string): (r: Result<DmContext>)
    ensures gitLog.Err? ==> r == Err(CommitError + gitLog.msg)
    ensures gitLog.Ok? ==> (r.Ok? &&
      r.value.taskName == Some(TaskName(Trim(gitLog.value))) && r.value.today == Some(today) &&
      r.value.taskResults == Some(ctx.taskResults.GetOr(["Tâche exécutée avec succès"])) &&
      r.value.nextSteps == Some(ctx.nextSteps.GetOr(["Prochaine étape à définir"])) &&
      r.value.dmContent == ctx.dmContent && r.value.dmEntry == ctx.dmEntry)
  {
    if gitLog.Err? then Err(CommitError + gitLog.msg)
    else
      Ok(ctx.(taskName := Some(TaskName(Trim(gitLog.value))),
              today := Some(today),
              taskResults := Some(if ctx.taskResults.Some? then ctx.taskResults.value else ["Tâche exécutée avec succès"]),
              nextSteps := Some(if ctx.nextSteps.Some? then ctx.nextSteps.value else ["Prochaine étape à définir"])))
  }

  const ParseError := "Erreur lors du parsing du journal DM-Log: "

  /** `DMLogParserNode.exec`: the log file's content becomes `dm_content`;
      a file that cannot be read raises under the node's prefix. */
  function DmLogParse(ctx: DmContext, file: Result<string>): (r: Result<DmContext>)
    ensures file.Err? ==> r == Err(ParseError + file.msg)
    ensures file.Ok? ==> r == Ok(ctx.(dmContent := Some(file.value)))
  {
    if file.Err? then Err(ParseError + file.msg) else Ok(ctx.(dmContent := Some(file.value)))
  }

  /** The three lists of an entry as `DMLogLLMNode` formats them. */
  datatype EntryLists = EntryLists(done: string, results: string, next: string)

  function FormatLists(taskResults: seq<string>, nextSteps: seq<string>): EntryLists {
    EntryLists(Join(PrefixEach("- ", taskResults), "\n"),
               Join(PrefixEach("- Résultat obtenu: ", taskResults), "\n"),
               Join(PrefixEach("- ", nextSteps), "\n"))
  }

  /** One line per result in the done and results blocks, one per step in
      the next block, in order. */
  lemma FormatListsLines(taskResults: seq<string>, nextSteps: seq<string>)
    requires taskResults != [] && nextSteps != []
    requires forall i :: 0 <= i < |taskResults| ==> '\n' !in taskResults[i]
    requires forall i :: 0 <= i < |nextSteps| ==> '\n' !in nextSteps[i]
    ensures var l := FormatLists(taskResults, nextSteps);
      Split(l.done, '\n') == PrefixEach("- ", taskResults) &&
      Split(l.results, '\n') == PrefixEach("- Résultat obtenu: ", taskResults) &&
      Split(l.next, '\n') == PrefixEach("- ", nextSteps)
  {
    PrefixedLines("- ", taskResults);
    PrefixedLines("- Résultat obtenu: ", taskResults);
    PrefixedLines("- ", nextSteps);
  }

  function KeyError(key: string): string {
    "'" + key + "'"
  }

  const EntryError := "Erreur lors de la génération de l'entrée DM-Log: "

  const PromptHead := "\nVous mettez à jour un journal de décisions pour un projet de développement.\nGénérez une entrée de journal au format Markdown avec la structure suivante:\n\n### "
  const PromptDone := "\n\n**Tâches accomplies :**\n"
  const PromptResults := "\n\n**Résultats :**\n"
  const PromptNext := "\n\n**Prochaines étapes :**\n"
  const PromptTail := "\n\nAssurez-vous que l'entrée est claire, concise et informative.\n"

  /** The pieces of `DMLogLLMNode.PROMPT` with its fields filled in. */
  function EntryPromptParts(date: string, task: string, l: EntryLists): (ps: seq<string>)
    ensures |ps| == 11 && ps[1] == date && ps[3] == task
    ensures ps[5] == l.done && ps[7] == l.results && ps[9] == l.next
  {
    [PromptHead, date, " - ", task, PromptDone, l.done, PromptResults, l.results, PromptNext, l.next, PromptTail]
  }

  function EntryPrompt(date: string, task: string, l: EntryLists): string {
    Concat(EntryPromptParts(date, task, l))
  }

  /** The prompt carries the date, the task name and the three lists. */
  lemma EntryPromptCarries(date: string, task: string, l: EntryLists)
    ensures Contains(EntryPrompt(date, task, l), date) && Contains(EntryPrompt(date, task, l), task)
    ensures Contains(EntryPrompt(date, task, l), l.done) && Contains(EntryPrompt(date, task, l), l.results)
    ensures Contains(EntryPrompt(date, task, l), l.next)
  {
    var ps := EntryPromptParts(date, task, l);
    ConcatContains(ps, 1);
    ConcatContains(ps, 3);
    ConcatContains(ps, 5);
    ConcatContains(ps, 7);
    ConcatContains(ps, 9);
  }

  /** `DMLogLLMNode.exec`: a missing key raises `KeyError` (named in the
      order the node reads them); otherwise the model's answer becomes
      `dm_entry` and nothing else changes. */
  function DmLogLlm(ctx: DmContext, llm: string -> Result<string>): (r: Result<DmContext>)
    ensures ctx.today.None? ==> r == Err(EntryError + KeyError("today"))
    ensures ctx.today.Some? && ctx.taskName.None? ==> r == Err(EntryError + KeyError("task_name"))
    ensures r.Ok? ==> ctx.today.Some? && ctx.taskName.Some? && ctx.taskResults.Some? && ctx.nextSteps.Some?
    ensures r.Ok? ==> r.value.dmEntry.Some? && r.value == ctx.(dmEntry := r.value.dmEntry)
    ensures r.Ok? ==>
      llm(EntryPrompt(ctx.today.value, ctx.taskName.value,
                      FormatLists(ctx.taskResults.value, ctx.nextSteps.value))) == Ok(r.value.dmEntry.value)
  {
    if ctx.today.None? then Err(EntryError + KeyError("today"))
    else if ctx.taskName.None? then Err(EntryError + KeyError("task_name"))
    else if ctx.taskResults.None? then Err(EntryError + KeyError("task_results"))
    else if ctx.nextSteps.None? then Err(EntryError + KeyError("next_steps"))
    else
      var l := FormatLists(ctx.taskResults.value, ctx.nextSteps.value);
      var answer := llm(EntryPrompt(ctx.today.value, ctx.taskName.value, l));
      if answer.Err? then Err(EntryError + answer.msg)
      else Ok(ctx.(dmEntry := Some(answer.value)))
  }

  const UpdateError := "Erreur lors de la mise à jour du journal DM-Log: "

  /** `DMLogUpdateNode.exec`: the new log content it writes, with a blank
      line between the marker and the entry. */
  function DmLogUpdate(ctx: DmContext): (r: Result<string>)
    ensures ctx.dmContent.None? ==> r == Err(UpdateError + KeyError("dm_content"))
    ensures ctx.dmContent.Some? && ctx.dmEntry.None? ==> r == Err(UpdateError + KeyError("dm_entry"))
    ensures ctx.dmContent.Some? && ctx.dmEntry.Some? ==>
      r == Ok(InsertEntry(ctx.dmContent.value, "\n\n", ctx.dmEntry.value))
  {
    if ctx.dmContent.None? then Err(UpdateError + KeyError("dm_content"))
    else if ctx.dmEntry.None? then Err(UpdateError + KeyError("dm_entry"))
    else Ok(InsertEntry(ctx.dmContent.value, "\n\n", ctx.dmEntry.value))
  }

  /** Parsing the log and then updating it keeps the log around a blank
      line and the entry, and grows it by the entry's length plus two. */
  lemma ParseThenUpdate(ctx: DmContext, content: string, entry: string)
    requires ctx.dmEntry == Some(entry)
    ensures var c := DmLogParse(ctx, Ok(content));
      c.Ok? && DmLogUpdate(c.value).Ok? &&
      |DmLogUpdate(c.value).value| == |content| + |entry| + 2
    ensures Contains(content, SectionMarker) ==>
      var r := DmLogUpdate(DmLogParse(ctx, Ok(content)).value).value;
      EndsWith(r[..InsertPosition(content)], SectionMarker) &&
      StartsWith(r[InsertPosition(content)..], "\n\n" + entry)
  {
    InsertPreserves(content, "\n\n", entry);
    if Contains(content, SectionMarker) {
      InsertAfterMarker(content, "\n\n", entry);
    }
  }

  /** What `GitPushNode` adds and the message it commits with. */
  datatype PushPlan = PushPlan(files: seq<string>, message: string)

  /** `GitPushNode.exec`'s choices: an empty or absent file list means the
      log alone; an empty or absent message means "Auto-update docs: "
      followed by the context's date, or today's when it has none. */
  function GitPushPlan(files: seq<string>, commitMessage: string, ctx: DmContext, today: string): (p: PushPlan)
    ensures files == [] ==> p.files == ["docs/dm-log.md"]
    ensures files != [] ==> p.files == files
    ensures commitMessage != "" ==> p.message == commitMessage
    ensures commitMessage == "" ==> p.message == "Auto-update docs: " + ctx.today.GetOr(today)
  {
    PushPlan(if files == [] then ["docs/dm-log.md"] else files,
             if commitMessage == "" then "Auto-update docs: " + ctx.today.GetOr(today) else commitMessage)
  }

  // ---------------------------------------------------------------------
  // The update-dm-log script

  /** The results block: one "- " bullet per line of `results`, or the
      default line when there are none. */
  function ResultsBlock(results: string): (b: string)
    ensures results == "" ==> b == "- Tâche exécutée avec succès"
    ensures results != "" ==> b == Join(PrefixEach("- ", Split(results, '\n')), "\n")
  {
    if results == "" then "- Tâche exécutée avec succès"
    else
      JoinWithPrefix("- ", "\n", Split(results, '\n'));
      assert "\n" + "- " == "\n- ";
      "- " + Join(Split(results, '\n'), "\n- ")
  }

  /** Every line of the results becomes one bullet line. */
  lemma ResultsBlockLines(results: string)
    requires results != ""
    ensures Split(ResultsBlock(results), '\n') == PrefixEach("- ", Split(results, '\n'))
  {
    PrefixedLines("- ", Split(results, '\n'));
  }

  /** The pieces of the entry `updateDMLog` inserts. */
  function ScriptEntryParts(date: string, taskName: string, results: string, nextSteps: seq<string>): (ps: seq<string>)
    ensures |ps| == 11 && ps[0] == "\n### " && ps[1] == date && ps[2] == " - " && ps[3] == ps[5] == taskName
    ensures ps[7] == ResultsBlock(results) && ps[9] == Join(PrefixEach("- ", nextSteps), "\n")
  {
    ["\n### ", date, " - ", taskName, "\n\n**Tâches accomplies :**\n- ", taskName, "\n\n**Résultats :**\n",
     ResultsBlock(results), "\n\n**Prochaines étapes :**\n", Join(PrefixEach("- ", nextSteps), "\n"), "\n"]
  }

  function ScriptEntry(date: string, taskName: string, results: string, nextSteps: seq<string>): string {
    Concat(ScriptEntryParts(date, taskName, results, nextSteps))
  }

  /** The entry opens with the heading "### date - task" on its own line
      and carries the task name, the results block and the next-steps block. */
  lemma ScriptEntryShape(date: string, taskName: string, results: string, nextSteps: seq<string>)
    ensures var e := ScriptEntry(date, taskName, results, nextSteps);
      |e| >= 5 + |date| && e[..5] == "\n### " && e[5..5 + |date|] == date
    ensures var e := ScriptEntry(date, taskName, results, nextSteps);
      Contains(e, taskName) && Contains(e, ResultsBlock(results)) && Contains(e, Join(PrefixEach("- ", nextSteps), "\n"))
  {
    var ps := ScriptEntryParts(date, taskName, results, nextSteps);
    var e := Concat(ps);
    ConcatAround(ps, 1);
    assert ps[..1] == ["\n### "];
    assert Concat(ps[..1]) == "\n### " by {
      assert Concat(ps[..1]) == ps[0] + Concat([]);
    }
    assert e == "\n### " + date + Concat(ps[2..]);
    assert e[..5] == "\n### ";
    assert e[5..5 + |date|] == date;
    ConcatContains(ps, 3);
    ConcatContains(ps, 7);
    ConcatContains(ps, 9);
  }

  /** `updateDMLog(taskName, results, nextSteps)` on the log's content:
      the entry goes right after the marker, with nothing in between. */
  function UpdateDmLog(content: string, date: string, taskName: string, results: string, nextSteps: seq<string>): (r: string)
    ensures |r| == |content| + |ScriptEntry(date, taskName, results, nextSteps)|
  {
    InsertPreserves(content, "", ScriptEntry(date, taskName, results, nextSteps));
    InsertEntry(content, "", ScriptEntry(date, taskName, results, nextSteps))
  }

  /** The script run from the command line on `argv[2..]`: no task name
      exits with 1 and writes nothing; the results default to ''. */
  function ScriptMain(args: seq<string>, content: string, date: string): (r: Result<string>)
    ensures (args == [] || args[0] == "") <==> r == Err("Veuillez fournir un nom de tâche")
    ensures |args| >= 1 && args[0] != "" ==>
      r == Ok(UpdateDmLog(content, date, args[0], if |args| >= 2 then args[1] else "", if |args| >= 2 then args[2..] else []))
  {
    if args == [] || args[0] == "" then Err("Veuillez fournir un nom de tâche")
    else Ok(UpdateDmLog(content, date, args[0], if |args| >= 2 then args[1] else "", if |args| >= 2 then args[2..] else []))
  }
}

=== FILE: doc_review.dfy ===
/**
 * The documentation review script: one review per document (requirements,
 * design, tasks, decision log), each pushing its errors and warnings into a
 * results list, and the Markdown report built from those results. A
 * document is `None` when its file does not exist; the review date is a
 * parameter.
 */
module DocReview {
  import opened Common
  import opened Text
  import DmLog

  datatype Kind = ErrorKind | WarningKind

  datatype ReviewResult = ReviewResult(kind: Kind, document: string, message: string)

  /** One rule of a review: the result it pushes when `failed`. */
  datatype Check = Check(failed: bool, result: ReviewResult)

  /** The results of the failed rules, in rule order. */
  function Findings(cs: seq<Check>): (rs: seq<ReviewResult>)
    ensures |rs| <= |cs|
    decreases |cs|
  {
    if cs == [] then [] else (if cs[0].failed then [cs[0].result] else []) + Findings(cs[1..])
  }

  /** What one rule pushes. */
  function Pushed(c: Check): seq<ReviewResult> {
    if c.failed then [c.result] else []
  }

  lemma FindingsOne(cs: seq<Check>)
    requires |cs| == 1
    ensures Findings(cs) == Pushed(cs[0])
  {
    FindingsCons(cs);
    assert cs[1..] == [];
  }

  lemma FindingsTwo(cs: seq<Check>)
    requires |cs| == 2
    ensures Findings(cs) == Pushed(cs[0]) + Pushed(cs[1])
  {
    FindingsCons(cs);
    FindingsOne(cs[1..]);
  }

  lemma FindingsThree(cs: seq<Check>)
    requires |cs| == 3
    ensures Findings(cs) == Pushed(cs[0]) + Pushed(cs[1]) + Pushed(cs[2])
  {
    FindingsCons(cs);
    FindingsTwo(cs[1..]);
  }

  lemma FindingsFour(cs: seq<Check>)
    requires |cs| == 4
    ensures Findings(cs) == Pushed(cs[0]) + Pushed(cs[1]) + Pushed(cs[2]) + Pushed(cs[3])
  {
    FindingsCons(cs);
    FindingsThree(cs[1..]);
  }

  lemma FindingsCons(cs: seq<Check>)
    requires cs != []
    ensures Findings(cs) == Pushed(cs[0]) + Findings(cs[1..])
  {
  }

  /** When every rule pushes its own result, a rule's result is reported
      exactly when the rule failed. */
  lemma {:induction false} FindingsMember(cs: seq<Check>, i: nat)
    requires i < |cs|
    requires forall j, k :: 0 <= j < k < |cs| ==> cs[j].result != cs[k].result
    ensures cs[i].result in Findings(cs) <==> cs[i].failed
    decreases |cs|
  {
    if i == 0 {
      if !cs[0].failed {
        NotFound(cs[1..], cs[0].result);
      }
    } else {
      FindingsMember(cs[1..], i - 1);
    }
  }

  lemma {:induction false} NotFound(cs: seq<Check>, r: ReviewResult)
    requires forall j :: 0 <= j < |cs| ==> cs[j].result != r
    ensures r !in Findings(cs)
    decreases |cs|
  {
    if cs != [] {
      NotFound(cs[1..], r);
    }
  }

  predicate DistinctResults(cs: seq<Check>) {
    forall j, k :: 0 <= j < k < |cs| ==> cs[j].result != cs[k].result
  }

  // ---------------------------------------------------------------------
  // The four reviews

  const MissingRequirements := ReviewResult(ErrorKind, "requirements.md", "Le document des exigences est manquant")
  const NoIntroduction := ReviewResult(WarningKind, "requirements.md", "Le document des exigences ne contient pas de section Introduction")
  const NoRequirements := ReviewResult(ErrorKind, "requirements.md", "Le document des exigences ne contient pas de section Requirements/Exigences")
  const NoUserStories := ReviewResult(WarningKind, "requirements.md", "Le document des exigences ne contient pas de User Stories")
  const NoCriteria := ReviewResult(WarningKind, "requirements.md", "Le document des exigences ne contient pas de critères d'acceptation")

  /** The requirements rules, in the order they are checked. */
  function RequirementsChecks(c: string): (cs: seq<Check>)
    ensures |cs| == 4 && DistinctResults(cs)
  {
    [Check(!Contains(c, "## Introduction"), NoIntroduction),
     Check(!Contains(c, "## Requirements") && !Contains(c, "## Exigences"), NoRequirements),
     Check(!Contains(c, "User Story"), NoUserStories),
     Check(!Contains(c, "Acceptance Criteria") && !Contains(c, "Critères d'acceptation"), NoCriteria)]
  }

  function RequirementsFindings(doc: Option<string>): seq<ReviewResult> {
    if doc.None? then [MissingRequirements] else Findings(RequirementsChecks(doc.value))
  }

  /** `reviewRequirements`: a missing file is one error and nothing else;
      otherwise the failed rules in order. */
  method ReviewRequirements(doc: Option<string>) returns (results: seq<ReviewResult>)
    ensures results == RequirementsFindings(doc)
  {
    results := [];
    if doc.None? {
      results := results + [MissingRequirements];
      return;
    }
    var content := doc.value;
    ghost var cs := RequirementsChecks(content);
    if !Contains(content, "## Introduction") {
      results := results + [NoIntroduction];
    }
    assert results == Pushed(cs[0]);
    if !Contains(content, "## Requirements") && !Contains(content, "## Exigences") {
      results := results + [NoRequirements];
    }
    assert results == Pushed(cs[0]) + Pushed(cs[1]);
    if !Contains(content, "User Story") {
      results := results + [NoUserStories];
    }
    assert results == Pushed(cs[0]) + Pushed(cs[1]) + Pushed(cs[2]);
    if !Contains(content, "Acceptance Criteria") && !Contains(content, "Critères d'acceptation") {
      results := results + [NoCriteria];
    }
    FindingsFour(cs);
  }

  /** The requirements error is reported exactly when neither requirements
      heading is present; each warning exactly when its phrase is missing. */
  lemma RequirementsRules(c: string)
    ensures NoRequirements in RequirementsFindings(Some(c)) <==>
      !Contains(c, "## Requirements") && !Contains(c, "## Exigences")
    ensures NoIntroduction in RequirementsFindings(Some(c)) <==> !Contains(c, "## Introduction")
    ensures NoUserStories in RequirementsFindings(Some(c)) <==> !Contains(c, "User Story")
    ensures NoCriteria in RequirementsFindings(Some(c)) <==>
      !Contains(c, "Acceptance Criteria") && !Contains(c, "Critères d'acceptation")
    ensures MissingRequirements !in RequirementsFindings(Some(c))
  {
    var cs := RequirementsChecks(c);
    FindingsMember(cs, 0);
    FindingsMember(cs, 1);
    FindingsMember(cs, 2);
    FindingsMember(cs, 3);
    NotFound(cs, MissingRequirements);
  }

  const MissingDesign := ReviewResult(ErrorKind, "design.md", "Le document de conception est manquant")
  const NoArchitecture := ReviewResult(WarningKind, "design.md", "Le document de conception ne contient pas de section Architecture")
  const NoComponents := ReviewResult(WarningKind, "design.md", "Le document de conception ne contient pas de section Composants")
  const NoDiagrams := ReviewResult(WarningKind, "design.md", "Le document de conception ne contient pas de diagrammes Mermaid")

  function DesignChecks(c: string): (cs: seq<Check>)
    ensures |cs| == 3 && DistinctResults(cs)
  {
    [Check(!Contains(c, "## Architecture"), NoArchitecture),
     Check(!Contains(c, "## Composants") && !Contains(c, "## Components"), NoComponents),
     Check(!Contains(c, "```mermaid"), NoDiagrams)]
  }

  function DesignFindings(doc: Option<string>): seq<ReviewResult> {
    if doc.None? then [MissingDesign] else Findings(DesignChecks(doc.value))
  }

  /** `reviewDesign`. */
  method ReviewDesign(doc: Option<string>) returns (results: seq<ReviewResult>)
    ensures results == DesignFindings(doc)
  {
    results := [];
    if doc.None? {
      results := results + [MissingDesign];
      return;
    }
    var content := doc.value;
    ghost var cs := DesignChecks(content);
    if !Contains(content, "## Architecture") {
      results := results + [NoArchitecture];
    }
    assert results == Pushed(cs[0]);
    if !Contains(content, "## Composants") && !Contains(content, "## Components") {
      results := results + [NoComponents];
    }
    assert results == Pushed(cs[0]) + Pushed(cs[1]);
    if !Contains(content, "```mermaid") {
      results := results + [NoDiagrams];
    }
    FindingsThree(cs);
  }

  /** Design findings are warnings only, one per missing part. */
  lemma DesignRules(c: string)
    ensures NoArchitecture in DesignFindings(Some(c)) <==> !Contains(c, "## Architecture")
    ensures NoComponents in DesignFindings(Some(c)) <==> !Contains(c, "## Composants") && !Contains(c, "## Components")
    ensures NoDiagrams in DesignFindings(Some(c)) <==> !Contains(c, "```mermaid")
  {
    var cs := DesignChecks(c);
    FindingsMember(cs, 0);
    FindingsMember(cs, 1);
    FindingsMember(cs, 2);
  }

  const MissingTasks := ReviewResult(ErrorKind, "tasks.md", "Le document des tâches est manquant")
  const NoTasks := ReviewResult(ErrorKind, "tasks.md", "Le document des tâches ne contient aucune tâche")
  const NoneCompleted := ReviewResult(WarningKind, "tasks.md", "Aucune tâche n'est marquée comme terminée")

  /** The checkbox counts of a task list: done, in progress, to do. */
  datatype TaskCounts = TaskCounts(completed: nat, inProgress: nat, todo: nat)

  function CountTasks(c: string): TaskCounts {
    TaskCounts(Count(c, "- [x]"), Count(c, "- [.]"), Count(c, "- [ ]"))
  }

  function TasksChecks(c: string): (cs: seq<Check>)
    ensures |cs| == 2 && DistinctResults(cs)
  {
    var n := CountTasks(c);
    [Check(n.completed + n.inProgress + n.todo == 0, NoTasks),
     Check(n.completed == 0 && (n.inProgress > 0 || n.todo > 0), NoneCompleted)]
  }

  function TasksFindings(doc: Option<string>): seq<ReviewResult> {
    if doc.None? then [MissingTasks] else Findings(TasksChecks(doc.value))
  }

  /** `reviewTasks`. */
  method ReviewTasks(doc: Option<string>) returns (results: seq<ReviewResult>)
    ensures results == TasksFindings(doc)
  {
    results := [];
    if doc.None? {
      results := results + [MissingTasks];
      return;
    }
    var content := doc.value;
    ghost var cs := TasksChecks(content);
    var completed := Count(content, "- [x]");
    var inProgress := Count(content, "- [.]");
    var todo := Count(content, "- [ ]");
    if completed + inProgress + todo == 0 {
      results := results + [NoTasks];
    }
    assert results == Pushed(cs[0]);
    if completed == 0 && (inProgress > 0 || todo > 0) {
      results := results + [NoneCompleted];
    }
    FindingsTwo(cs);
  }

  /** A task list with no checkbox is an error; one with checkboxes but none
      ticked is a warning; never both. */
  lemma TasksRules(c: string)
    ensures NoTasks in TasksFindings(Some(c)) <==>
      !Contains(c, "- [x]") && !Contains(c, "- [.]") && !Contains(c, "- [ ]")
    ensures NoneCompleted in TasksFindings(Some(c)) <==>
      !Contains(c, "- [x]") && (Contains(c, "- [.]") || Contains(c, "- [ ]"))
    ensures |TasksFindings(Some(c))| <= 1
  {
    var cs := TasksChecks(c);
    FindingsMember(cs, 0);
    FindingsMember(cs, 1);
    CountZeroIff(c, "- [x]");
    CountZeroIff(c, "- [.]");
    CountZeroIff(c, "- [ ]");
    assert !(cs[0].failed && cs[1].failed);
    assert Findings(cs) == (if cs[0].failed then [cs[0].result] else []) + Findings(cs[1..]);
    assert Findings(cs[1..]) == (if cs[1].failed then [cs[1].result] else []) + Findings(cs[2..]);
  }

  const MissingDmLog := ReviewResult(ErrorKind, "dm-log.md", "Le journal DM est manquant")
  const NoEntries := ReviewResult(WarningKind, "dm-log.md", "Le journal DM ne contient aucune entrée")

  /** `### ` followed by a date `dddd-dd-dd` at index `k`. */
  predicate DateHeadingAt(s: string, k: int) {
    At(s, "### ", k) && k + 14 <= |s| &&
    IsDigit(s[k + 4]) && IsDigit(s[k + 5]) && IsDigit(s[k + 6]) && IsDigit(s[k + 7]) && s[k + 8] == '-' &&
    IsDigit(s[k + 9]) && IsDigit(s[k + 10]) && s[k + 11] == '-' && IsDigit(s[k + 12]) && IsDigit(s[k + 13])
  }

  predicate HasDateHeading(s: string) {
    exists k | 0 <= k <= |s| :: DateHeadingAt(s, k)
  }

  function DmLogChecks(c: string): (cs: seq<Check>)
    ensures |cs| == 1
  {
    [Check(!HasDateHeading(c), NoEntries)]
  }

  function DmLogFindings(doc: Option<string>): seq<ReviewResult> {
    if doc.None? then [MissingDmLog] else Findings(DmLogChecks(doc.value))
  }

  /** `reviewDMLog` without its age check. */
  method ReviewDmLog(doc: Option<string>) returns (results: seq<ReviewResult>)
    ensures results == DmLogFindings(doc)
  {
    results := [];
    if doc.None? {
      results := results + [MissingDmLog];
      return;
    }
    var content := doc.value;
    if !HasDateHeading(content) {
      results := results + [NoEntries];
    }
    ghost var cs := DmLogChecks(content);
    FindingsOne(cs);
  }

  /** An entry written by the update script with an ISO date counts as a
      dated entry, wherever it lands. */
  lemma ScriptEntryIsDated(content: string, date: string, task: string, results: string, steps: seq<string>)
    requires IsoDate(date)
    ensures NoEntries !in DmLogFindings(Some(DmLog.UpdateDmLog(content, date, task, results, steps)))
  {
    var e := DmLog.ScriptEntry(date, task, results, steps);
    var r := DmLog.UpdateDmLog(content, date, task, results, steps);
    DmLog.InsertPreserves(content, "", e);
    DmLog.ScriptEntryShape(date, task, results, steps);
    var q := if DmLog.InsertPosition(content) < |content| then DmLog.InsertPosition(content) else |content|;
    assert r[q..q + |e|] == e;
    DatedAt(r, q, e, date);
    assert HasDateHeading(r);
  }

  predicate IsoDate(date: string) {
    |date| == 10 && IsDigit(date[0]) && IsDigit(date[1]) && IsDigit(date[2]) && IsDigit(date[3]) &&
    date[4] == '-' && IsDigit(date[5]) && IsDigit(date[6]) && date[7] == '-' && IsDigit(date[8]) && IsDigit(date[9])
  }

  lemma DatedAt(r: string, q: int, e: string, date: string)
    requires IsoDate(date) && 0 <= q && q + |e| <= |r| && r[q..q + |e|] == e
    requires |e| >= 15 && e[..5] == "\n### " && e[5..15] == date
    ensures DateHeadingAt(r, q + 1)
  {
    forall j | 0 <= j < 15 ensures r[q + j] == e[j] {
      assert r[q..q + |e|][j] == r[q + j];
    }
    assert e[1..5] == "### " by {
      assert e[..5][1..] == e[1..5];
    }
    assert r[q + 1..q + 5] == e[1..5];
    forall j | 0 <= j < 10 ensures r[q + 5 + j] == date[j] {
      assert e[5..15][j] == e[5 + j];
    }
  }

  /** The results of all four reviews, in the script's order. */
  function AllFindings(requirements: Option<string>, design: Option<string>, tasks: Option<string>, dmLog: Option<string>): seq<ReviewResult> {
    RequirementsFindings(requirements) + DesignFindings(design) + TasksFindings(tasks) + DmLogFindings(dmLog)
  }

  // ---------------------------------------------------------------------
  // The report

  function Errors(rs: seq<ReviewResult>): (es: seq<ReviewResult>)
    ensures forall i :: 0 <= i < |es| ==> es[i].kind == ErrorKind
    decreases |rs|
  {
    if rs == [] then [] else (if rs[0].kind == ErrorKind then [rs[0]] else []) + Errors(rs[1..])
  }

  function Warnings(rs: seq<ReviewResult>): (ws: seq<ReviewResult>)
    ensures forall i :: 0 <= i < |ws| ==> ws[i].kind == WarningKind
    decreases |rs|
  {
    if rs == [] then [] else (if rs[0].kind == WarningKind then [rs[0]] else []) + Warnings(rs[1..])
  }

  /** Every result is either an error or a warning: the summary's total is
      the sum of the two counts. */
  lemma {:induction false} TotalIsSum(rs: seq<ReviewResult>)
    ensures |Errors(rs)| + |Warnings(rs)| == |rs|
    decreases |rs|
  {
    if rs != [] {
      TotalIsSum(rs[1..]);
    }
  }

  /** Every error of the results is listed among the errors. */
  lemma {:induction false} ErrorsComplete(rs: seq<ReviewResult>, r: ReviewResult)
    requires r in rs && r.kind == ErrorKind
    ensures r in Errors(rs)
    decreases |rs|
  {
    if rs[0] != r {
      ErrorsComplete(rs[1..], r);
    }
  }

  function ItemLine(r: ReviewResult): string {
    "- **" + r.document + "**: " + r.message + "\n"
  }

  function ItemLines(rs: seq<ReviewResult>): (ls: seq<string>)
    ensures |ls| == |rs| && forall i :: 0 <= i < |rs| ==> ls[i] == ItemLine(rs[i])
  {
    seq(|rs|, i requires 0 <= i < |rs| => ItemLine(rs[i]))
  }

  /** A section listing `rs` under `head`, absent when there is nothing to list. */
  function Section(head: string, rs: seq<ReviewResult>): string {
    if rs == [] then "" else head + Concat(ItemLines(rs)) + "\n"
  }

  const FixErrors := "- Corriger les erreurs identifiées en priorité\n"
  const AddressWarnings := "- Adresser les avertissements pour améliorer la qualité de la documentation\n"
  const GoodState := "- La documentation est en bon état, continuer à la maintenir à jour\n"

  function Recommendations(errors: nat, warnings: nat): seq<string> {
    (if errors > 0 then [FixErrors] else []) + (if warnings > 0 then [AddressWarnings] else []) +
    (if errors == 0 && warnings == 0 then [GoodState] else [])
  }

  function Header(date: string): string {
    "# Rapport de Revue de Documentation - " + date + "\n\n"
  }

  function Summary(errors: nat, warnings: nat, total: nat): string {
    "## Résumé\n\n" + ("- **Erreurs**: " + Decimal(errors) + "\n") + ("- **Avertissements**: " + Decimal(warnings) + "\n") +
    ("- **Total**: " + Decimal(total) + "\n\n")
  }

  /** The report `generateReviewReport` writes: a header, the summary, the
      errors and warnings sections, the recommendations. */
  function Report(rs: seq<ReviewResult>, date: string): string {
    var es, ws := Errors(rs), Warnings(rs);
    Header(date) + Summary(|es|, |ws|, |rs|) + Section("## Erreurs\n\n", es) + Section("## Avertissements\n\n", ws) +
    "## Recommandations\n\n" + Concat(Recommendations(|es|, |ws|))
  }

  /** `generateReviewReport`: the report is appended to piece by piece,
      one line per error and per warning. */
  method GenerateReviewReport(results: seq<ReviewResult>, reviewDate: string) returns (report: string)
    ensures report == Report(results, reviewDate)
  {
    var errors := Errors(results);
    var warnings := Warnings(results);
    report := "# Rapport de Revue de Documentation - " + reviewDate + "\n\n";
    report := report + "## Résumé\n\n";
    report := report + ("- **Erreurs**: " + Decimal(|errors|) + "\n");
    report := report + ("- **Avertissements**: " + Decimal(|warnings|) + "\n");
    report := report + ("- **Total**: " + Decimal(|results|) + "\n\n");
    assert report == Header(reviewDate) + Summary(|errors|, |warnings|, |results|);
    ghost var before := report;
    if |errors| > 0 {
      report := AppendSection(report, "## Erreurs\n\n", errors);
    }
    assert report == before + Section("## Erreurs\n\n", errors);
    before := report;
    if |warnings| > 0 {
      report := AppendSection(report, "## Avertissements\n\n", warnings);
    }
    assert report == before + Section("## Avertissements\n\n", warnings);
    report := report + "## Recommandations\n\n";
    report := AppendRecommendations(report, |errors|, |warnings|);
  }

  /** The three conditional recommendation lines. */
  method AppendRecommendations(report: string, errors: nat, warnings: nat) returns (r: string)
    ensures r == report + Concat(Recommendations(errors, warnings))
  {
    r := report;
    ghost var lines: seq<string> := [];
    if errors > 0 {
      r := AppendLine(r, report, lines, FixErrors);
      lines := lines + [FixErrors];
    }
    if warnings > 0 {
      r := AppendLine(r, report, lines, AddressWarnings);
      lines := lines + [AddressWarnings];
    }
    if errors == 0 && warnings == 0 {
      r := AppendLine(r, report, lines, GoodState);
      lines := lines + [GoodState];
    }
    assert lines == Recommendations(errors, warnings);
  }

  /** Appending one more recommendation line to the report. */
  method AppendLine(r: string, ghost report: string, ghost lines: seq<string>, line: string) returns (r': string)
    requires r == report + Concat(lines)
    ensures r' == r + line && r' == report + Concat(lines + [line])
  {
    ConcatAppend(lines, line);
    r' := r + line;
  }

  /** The `forEach` over one kind of result. */
  method AppendSection(report: string, head: string, rs: seq<ReviewResult>) returns (r: string)
    requires rs != []
    ensures r == report + Section(head, rs)
  {
    r := report + head;
    ghost var start := r;
    var i := 0;
    while i < |rs|
      invariant 0 <= i <= |rs|
      invariant r == start + Concat(ItemLines(rs[..i]))
    {
      ItemLinesStep(rs, i);
      r := r + ItemLine(rs[i]);
      i := i + 1;
    }
    assert rs[..i] == rs;
    r := r + "\n";
    assert Section(head, rs) == head + Concat(ItemLines(rs)) + "\n";
  }

  lemma ItemLinesStep(rs: seq<ReviewResult>, i: nat)
    requires i < |rs|
    ensures Concat(ItemLines(rs[..i + 1])) == Concat(ItemLines(rs[..i])) + ItemLine(rs[i])
  {
    var before, line := ItemLines(rs[..i]), ItemLine(rs[i]);
    assert ItemLines(rs[..i + 1]) == before + [line];
    ConcatAppend(before, line);
  }

  /** The sections follow the counts: an errors section only with errors, a
      warnings section only with warnings, and the "good state"
      recommendation exactly when there is nothing to report. */
  lemma ReportShape(rs: seq<ReviewResult>)
    ensures Section("## Erreurs\n\n", Errors(rs)) == "" <==> forall r :: r in rs ==> r.kind != ErrorKind
    ensures Section("## Avertissements\n\n", Warnings(rs)) == "" <==> forall r :: r in rs ==> r.kind != WarningKind
    ensures GoodState in Recommendations(|Errors(rs)|, |Warnings(rs)|) <==> rs == []
  {
    TotalIsSum(rs);
    assert GoodState != FixErrors && GoodState != AddressWarnings;
    forall r | r in rs && r.kind == ErrorKind ensures Errors(rs) != [] {
      ErrorsComplete(rs, r);
    }
    forall r | r in rs && r.kind == WarningKind ensures Warnings(rs) != [] {
      WarningsComplete(rs, r);
    }
  }

  lemma {:induction false} WarningsComplete(rs: seq<ReviewResult>, r: ReviewResult)
    requires r in rs && r.kind == WarningKind
    ensures r in Warnings(rs)
    decreases |rs|
  {
    if rs[0] != r {
      WarningsComplete(rs[1..], r);
    }
  }

  /** Every error of the results has its line in the report. */
  lemma ReportListsErrors(rs: seq<ReviewResult>, date: string, r: ReviewResult)
    requires r in rs && r.kind == ErrorKind
    ensures Contains(Report(rs, date), ItemLine(r))
  {
    var es, ws := Errors(rs), Warnings(rs);
    ErrorsComplete(rs, r);
    var i :| 0 <= i < |es| && es[i] == r;
    var lines := ItemLines(es);
    ConcatContains(lines, i);
    var section := Section("## Erreurs\n\n", es);
    assert section == "## Erreurs\n\n" + Concat(lines) + "\n";
    ContainsWithin("## Erreurs\n\n", Concat(lines), "\n", ItemLine(r));
    var h, sm := Header(date), Summary(|es|, |ws|, |rs|);
    var wsec, rh, rc := Section("## Avertissements\n\n", ws), "## Recommandations\n\n", Concat(Recommendations(|es|, |ws|));
    assert Report(rs, date) == h + sm + section + wsec + rh + rc;
    Regroup(h, sm, section, wsec, rh, rc);
    ContainsWithin(h + sm, section, wsec + rh + rc, ItemLine(r));
  }

  lemma Regroup(a: string, b: string, c: string, d: string, e: string, f: string)
    ensures a + b + c + d + e + f == (a + b) + c + (d + e + f)
  {
  }

  /** A review of four documents that are all missing reports four errors,
      one per document, in the script's order. */
  lemma AllMissing()
    ensures AllFindings(None, None, None, None) == [MissingRequirements, MissingDesign, MissingTasks, MissingDmLog]
    ensures |Errors(AllFindings(None, None, None, None))| == 4
  {
    var rs := AllFindings(None, None, None, None);
    assert Errors(rs) == rs by {
      assert rs[1..][1..][1..][1..] == [];
    }
  }

  // ---------------------------------------------------------------------
  // The whole review

  /** The line the review adds to the decision log's results. */
  function ReviewSummary(rs: seq<ReviewResult>): string {
    "Revue de documentation effectuée. " + Decimal(|Warnings(rs)|) + " avertissements et " +
    Decimal(|Errors(rs)|) + " erreurs détectés."
  }

  const ReviewTask := "Revue Automatique de Documentation"

  function ReviewNextSteps(): seq<string> {
    ["Corriger les problèmes identifiés", "Mettre à jour la documentation"]
  }

  /** Where the report is saved, under the docs directory. */
  function ReportPath(reviewDate: string): Path {
    Path("review-reports", "review-" + reviewDate + ".md")
  }

  /** Where `updateDMLog` reads the decision log. */
  const DmLogPath := Path("docs", "dm-log.md")

  /** `reviewDocumentation`: the four reviews in order, the report, and the
      decision log with the review's entry inserted. The report is saved
      before the log is updated. `updateDMLog` reads the log again without
      checking that it exists, so a missing log makes that read throw
      ENOENT: the review ends with that error (`logUpdate` is `Err`) after
      the report was written, and never returns its results. */
  method ReviewDocumentation(requirements: Option<string>, design: Option<string>, tasks: Option<string>,
                             dmLog: Option<string>, reviewDate: string)
    returns (results: seq<ReviewResult>, report: string, logUpdate: Result<string>)
    ensures results == AllFindings(requirements, design, tasks, dmLog)
    ensures report == Report(results, reviewDate)
    ensures logUpdate.Err? <==> dmLog.None?
    ensures dmLog.None? ==> logUpdate == Err(NoSuchFile(DmLogPath))
    ensures dmLog.Some? ==>
      logUpdate == Ok(DmLog.UpdateDmLog(dmLog.value, reviewDate, ReviewTask, ReviewSummary(results), ReviewNextSteps()))
  {
    results := ReviewRequirements(requirements);
    var r := ReviewDesign(design);
    results := results + r;
    r := ReviewTasks(tasks);
    results := results + r;
    r := ReviewDmLog(dmLog);
    results := results + r;
    report := GenerateReviewReport(results, reviewDate);
    logUpdate := LogReview(dmLog, reviewDate, results);
  }

  /** The decision log update at the end of a review: the log's new
      content, or the read error of a missing log. */
  method LogReview(dmLog: Option<string>, reviewDate: string, results: seq<ReviewResult>) returns (logUpdate: Result<string>)
    ensures dmLog.None? ==> logUpdate == Err(NoSuchFile(DmLogPath))
    ensures dmLog.Some? ==>
      logUpdate == Ok(DmLog.UpdateDmLog(dmLog.value, reviewDate, ReviewTask, ReviewSummary(results), ReviewNextSteps()))
  {
    if dmLog.None? {
      logUpdate := Err(NoSuchFile(DmLogPath));
    } else {
      logUpdate := Ok(DmLog.UpdateDmLog(dmLog.value, reviewDate, ReviewTask, ReviewSummary(results), ReviewNextSteps()));
    }
  }

  /** Each document contributes its own results: a missing one exactly one
      error, and the design review never an error. */
  lemma ReviewContributions(requirements: Option<string>, design: Option<string>, tasks: Option<string>, dmLog: Option<string>)
    ensures requirements.None? ==> AllFindings(requirements, design, tasks, dmLog)[0] == MissingRequirements
    ensures design.Some? ==> forall r :: r in DesignFindings(design) ==> r.kind == WarningKind
    ensures |AllFindings(requirements, design, tasks, dmLog)| <= 4 + 3 + 2 + 1
  {
    if design.Some? {
      DesignOnlyWarns(design.value);
    }
    var a, b := RequirementsFindings(requirements), DesignFindings(design);
    var c, d := TasksFindings(tasks), DmLogFindings(dmLog);
    assert |a| <= 4 && |b| <= 3 && |c| <= 2 && |d| <= 1;
    assert AllFindings(requirements, design, tasks, dmLog) == a + b + c + d;
  }

  lemma DesignOnlyWarns(c: string)
    ensures forall r :: r in Findings(DesignChecks(c)) ==> r.kind == WarningKind
  {
    var cs := DesignChecks(c);
    assert cs[0].result == NoArchitecture && cs[1].result == NoComponents && cs[2].result == NoDiagrams;
    FindingsKinds(cs, WarningKind);
  }

  /** Rules that all push results of one kind report only that kind. */
  lemma {:induction false} FindingsKinds(cs: seq<Check>, k: Kind)
    requires forall j :: 0 <= j < |cs| ==> cs[j].result.kind == k
    ensures forall r :: r in Findings(cs) ==> r.kind == k
    decreases |cs|
  {
    if cs != [] {
      FindingsKinds(cs[1..], k);
      FindingsCons(cs);
    }
  }
}

=== FILE: docs_controller.dfy ===
/**
 * The backend's document registry: an in-memory list of document records
 * that generation and adaptation append to, that is listed newest first,
 * looked up by id and removed from. Ids (uuid), timestamps and the outcome
 * of file writes and reads are parameters.
 */
module DocsController {
  import opened Common
  import opened Text
  import opened Gemini
  import opened Generator

  /** The folder generated documents are written to. */
  const OutputDir := "output"

  /** A document's metadata. `template` is absent on adapted documents. */
  datatype DocRecord = DocRecord(
    id: string,
    projectName: string,
    description: string,
    template: Option<string>,
    model: string,
    createdAt: int,
    filePath: Path,
    isAdapted: bool)

  /** A generation request; an empty string is a field left out. */
  datatype GenerateRequest = GenerateRequest(
    projectName: string,
    description: string,
    features: Option<seq<string>>,
    template: string,
    model: string)

  /** An adaptation request; an empty string is a field left out. */
  datatype AdaptRequest = AdaptRequest(
    projectName: string,
    description: string,
    exampleContent: string,
    model: string)

  /** The HTTP answers of the controller. */
  datatype Response =
    | Created(doc: DocRecord, content: string)
    | DocList(count: nat, docs: seq<DocRecord>)
    | Found(doc: DocRecord, content: string)
    | Deleted(message: string)
    | Failure(status: nat, error: string)
  {
    function Status(): nat {
      match this
      case Created(_, _) => 201
      case Failure(s, _) => s
      case _ => 200
    }
  }

  const NotFoundMessage := "Document non trouvé"

  function DocTitle(projectName: string): string {
    "# " + projectName + " Design"
  }

  function DescriptionOr(projectName: string, description: string): (d: string)
    ensures d != ""
  {
    if description == "" then "Projet " + projectName else description
  }

  const ObjectivesSection := "\n\n## \U{1F4CB} Objectifs et Vision\n\n### Objectifs Principaux\n"
  const FeaturesSection := "\n\n### Fonctionnalités\n"
  const DefaultFeatureLines := "- Fonctionnalité 1\n- Fonctionnalité 2"

  /** The feature lines of a generated document: one bullet per given
      feature (none for an empty list), the two default bullets when the
      list is absent. */
  function FeatureLines(features: Option<seq<string>>): (t: string)
    ensures features.Some? ==> t == FeaturesText(features.value)
  {
    if features.Some? then FeaturesText(features.value) else DefaultFeatureLines
  }

  /** The content of a generated document. */
  function GeneratedContent(projectName: string, description: string, features: Option<seq<string>>): (c: string)
    ensures StartsWith(c, DocTitle(projectName))
    ensures EndsWith(c, FeaturesSection + FeatureLines(features))
  {
    var title, tail := DocTitle(projectName), FeaturesSection + FeatureLines(features);
    var middle := ObjectivesSection + DescriptionOr(projectName, description);
    Ends(title, middle + tail);
    Ends(title + middle, tail);
    Regroup3(title, middle, tail);
    var c := title + middle + tail;
    c
  }

  /** The default bullets are the bullets of the default features; an
      empty list yields no feature line at all. */
  lemma FeatureLinesDefaults()
    ensures FeatureLines(None) == FeaturesText(DefaultFeatures())
    ensures FeatureLines(Some([])) == ""
  {
    var f := DefaultFeatures();
    var b := Bullets(f);
    assert b == [b[0], b[1]];
    JoinTwo(b[0], b[1], "\n");
    DefaultLinesSpelled();
  }

  lemma DefaultLinesSpelled()
    ensures DefaultFeatureLines == "- " + "Fonctionnalité 1" + "\n" + ("- " + "Fonctionnalité 2")
  {
    DefaultLinesSplit();
    BulletSpelled1();
    BulletSpelled2();
  }

  lemma DefaultLinesSplit()
    ensures DefaultFeatureLines == "- Fonctionnalité 1" + "\n" + "- Fonctionnalité 2"
  {
  }

  lemma BulletSpelled1()
    ensures "- " + "Fonctionnalité 1" == "- Fonctionnalité 1"
  {
  }

  lemma BulletSpelled2()
    ensures "- " + "Fonctionnalité 2" == "- Fonctionnalité 2"
  {
  }

  // ---------------------------------------------------------------------
  // The adaptation rewrites

  predicate IsLineTerminator(c: char) {
    c == '\n' || c == '\r' || c == '\U{2028}' || c == '\U{2029}'
  }

  /** The end of the line that index `from` is on: the first line
      terminator at or after `from`, or the end of the text. */
  function LineEnd(s: string, from: nat): (e: nat)
    requires from <= |s|
    ensures from <= e <= |s|
    ensures forall i :: from <= i < e ==> !IsLineTerminator(s[i])
    ensures e < |s| ==> IsLineTerminator(s[e])
    decreases |s| - from
  {
    if from == |s| || IsLineTerminator(s[from]) then from else LineEnd(s, from + 1)
  }

  /** `s.replace(/# .*&#47;, title)`: the first "# " through the end of its
      line becomes `title`; text around it is kept. */
  function RetitleFirstHeading(s: string, title: string): (r: string)
    ensures IndexOf(s, "# ") == -1 ==> r == s
    ensures IndexOf(s, "# ") != -1 ==>
      var k := IndexOf(s, "# ");
      r == s[..k] + title + s[LineEnd(s, k + 2)..]
  {
    var k := IndexOf(s, "# ");
    if k == -1 then s else s[..k] + title + s[LineEnd(s, k + 2)..]
  }

  /** The "# " can be the tail of a "## " sub-heading: a text that starts
      with one has that heading retitled, leaving its first '#'. */
  lemma RetitleHitsSubheading(t: string, title: string)
    requires forall i :: 0 <= i < |t| ==> !IsLineTerminator(t[i])
    ensures RetitleFirstHeading("## " + t, title) == "#" + title
  {
    var s := "## " + t;
    assert !At(s, "# ", 0) by { assert s[..2] == "##"; }
    assert At(s, "# ", 1) by { assert s[1..3] == "# "; }
    assert IndexOf(s, "# ") == 1;
    assert LineEnd(s, 3) == |s|;
    assert s[..1] == "#";
  }

  const ObjectivesHeading := "### Objectifs Principaux"

  /** The replacement of the objectives block. */
  function ObjectivesBlock(description: string): string {
    ObjectivesHeading + "\n" + description + "\n\n"
  }

  /** `s.replace(/### Objectifs Principaux[\s\S]*?(?=###)/, block)`: the
      first objectives heading and everything after it up to the next
      "###" become the block; without a later "###" nothing changes. */
  function ReplaceObjectives(s: string, block: string): (r: string)
    ensures IndexOf(s, ObjectivesHeading) == -1 ==> r == s
    ensures IndexOf(s, ObjectivesHeading) != -1 ==>
      var h := IndexOf(s, ObjectivesHeading);
      var m := IndexFrom(s, "###", h + |ObjectivesHeading|);
      (m == -1 ==> r == s) && (m != -1 ==> r == s[..h] + block + s[m..])
  {
    var h := IndexOf(s, ObjectivesHeading);
    if h == -1 then s
    else
      var m := IndexFrom(s, "###", h + |ObjectivesHeading|);
      if m == -1 then s else s[..h] + block + s[m..]
  }

  /** The content of an adapted document. */
  function AdaptedContent(exampleContent: string, projectName: string, description: string): string {
    ReplaceObjectives(RetitleFirstHeading(exampleContent, DocTitle(projectName)),
                      ObjectivesBlock(DescriptionOr(projectName, description)))
  }

  // ---------------------------------------------------------------------
  // Lookup and ordering

  /** `documents.findIndex(doc => doc.id === id)`. */
  function FindIndex(ds: seq<DocRecord>, id: string): (k: int)
    ensures -1 <= k < |ds|
    ensures k == -1 <==> forall i :: 0 <= i < |ds| ==> ds[i].id != id
    ensures k != -1 ==> ds[k].id == id && forall i :: 0 <= i < k ==> ds[i].id != id
    decreases |ds|
  {
    if ds == [] then -1
    else if ds[0].id == id then 0
    else
      var k := FindIndex(ds[1..], id);
      if k == -1 then -1 else k + 1
  }

  /** A record appended under an id no other record has is found at the end. */
  lemma FindAppended(ds: seq<DocRecord>, d: DocRecord)
    requires forall i :: 0 <= i < |ds| ==> ds[i].id != d.id
    ensures FindIndex(ds + [d], d.id) == |ds|
  {
    assert (ds + [d])[|ds|] == d;
  }

  predicate NewestFirst(ds: seq<DocRecord>) {
    forall i, j :: 0 <= i < j < |ds| ==> ds[i].createdAt >= ds[j].createdAt
  }

  /** The records created at time `t`, in their order. */
  function SameDate(ds: seq<DocRecord>, t: int): seq<DocRecord>
    decreases |ds|
  {
    if ds == [] then [] else (if ds[0].createdAt == t then [ds[0]] else []) + SameDate(ds[1..], t)
  }

  lemma SameDateCons(x: DocRecord, ds: seq<DocRecord>)
    ensures forall t :: SameDate([x] + ds, t) == (if x.createdAt == t then [x] else []) + SameDate(ds, t)
  {
    assert ([x] + ds)[1..] == ds;
  }

  /** Places `d` before the first record that is not newer than it: in
      front of the records created at the same time as `d`. */
  function InsertByDate(d: DocRecord, ds: seq<DocRecord>): (r: seq<DocRecord>)
    requires NewestFirst(ds)
    ensures NewestFirst(r)
    ensures multiset(r) == multiset(ds) + multiset{d}
    ensures forall i :: 0 <= i < |r| ==> r[i] == d || r[i] in ds
    ensures forall t :: SameDate(r, t) == (if d.createdAt == t then [d] else []) + SameDate(ds, t)
    decreases |ds|
  {
    if ds == [] then
      SameDateCons(d, ds);
      [d]
    else if ds[0].createdAt <= d.createdAt then
      NewestFirstCons(d, ds);
      SameDateCons(d, ds);
      [d] + ds
    else
      var rest := InsertByDate(d, ds[1..]);
      InsertAfterHead(d, ds, rest);
      SameDateAfterHead(d, ds, rest);
      [ds[0]] + rest
  }

  /** The head newer than `d` and `d` never share a date, so their order
      among the records of one date does not matter. */
  lemma SameDateAfterHead(d: DocRecord, ds: seq<DocRecord>, rest: seq<DocRecord>)
    requires ds != [] && d.createdAt < ds[0].createdAt
    requires forall t :: SameDate(rest, t) == (if d.createdAt == t then [d] else []) + SameDate(ds[1..], t)
    ensures forall t :: SameDate([ds[0]] + rest, t) == (if d.createdAt == t then [d] else []) + SameDate(ds, t)
  {
    assert ds == [ds[0]] + ds[1..];
    SameDateCons(ds[0], rest);
    SameDateCons(ds[0], ds[1..]);
    forall t ensures SameDate([ds[0]] + rest, t) == (if d.createdAt == t then [d] else []) + SameDate(ds, t) {
      SwapAtDate(d, ds[0], SameDate(rest, t), SameDate(ds[1..], t), t);
    }
  }

  lemma SwapAtDate(d: DocRecord, x: DocRecord, a: seq<DocRecord>, b: seq<DocRecord>, t: int)
    requires d.createdAt < x.createdAt
    requires a == (if d.createdAt == t then [d] else []) + b
    ensures (if x.createdAt == t then [x] else []) + a ==
            (if d.createdAt == t then [d] else []) + ((if x.createdAt == t then [x] else []) + b)
  {
  }

  /** The step of `InsertByDate` that keeps the head in front. */
  lemma InsertAfterHead(d: DocRecord, ds: seq<DocRecord>, rest: seq<DocRecord>)
    requires ds != [] && NewestFirst(ds) && d.createdAt < ds[0].createdAt
    requires NewestFirst(rest) && multiset(rest) == multiset(ds[1..]) + multiset{d}
    requires forall i :: 0 <= i < |rest| ==> rest[i] == d || rest[i] in ds[1..]
    ensures NewestFirst([ds[0]] + rest)
    ensures multiset([ds[0]] + rest) == multiset(ds) + multiset{d}
    ensures forall i :: 0 <= i < |rest| + 1 ==> ([ds[0]] + rest)[i] == d || ([ds[0]] + rest)[i] in ds
  {
    var tail := ds[1..];
    NewestFirstTail(ds);
    assert forall x :: x in tail ==> x in ds;
    assert forall i :: 0 <= i < |rest| ==> rest[i].createdAt <= ds[0].createdAt;
    NewestFirstCons(ds[0], rest);
    assert ds == [ds[0]] + tail;
    var r := [ds[0]] + rest;
    forall i | 0 <= i < |rest| + 1 ensures r[i] == d || r[i] in ds {
      if i > 0 {
        assert r[i] == rest[i - 1];
      }
    }
  }

  lemma NewestFirstTail(ds: seq<DocRecord>)
    requires ds != [] && NewestFirst(ds)
    ensures NewestFirst(ds[1..]) && forall i :: 0 <= i < |ds| ==> ds[i].createdAt <= ds[0].createdAt
  {
    forall i, j | 0 <= i < j < |ds| - 1 ensures ds[1..][i].createdAt >= ds[1..][j].createdAt {
      assert ds[1..][i] == ds[i + 1] && ds[1..][j] == ds[j + 1];
    }
  }

  lemma NewestFirstCons(x: DocRecord, ds: seq<DocRecord>)
    requires NewestFirst(ds) && forall i :: 0 <= i < |ds| ==> ds[i].createdAt <= x.createdAt
    ensures NewestFirst([x] + ds)
  {
    var r := [x] + ds;
    forall i, j | 0 <= i < j < |r| ensures r[i].createdAt >= r[j].createdAt {
      assert r[j] == ds[j - 1];
      if i > 0 {
        assert r[i] == ds[i - 1];
      }
    }
  }

  /** The listing order: a stable sort on `createdAt`, newest first;
      records created at the same time keep their order. */
  function SortNewestFirst(ds: seq<DocRecord>): (r: seq<DocRecord>)
    ensures NewestFirst(r)
    ensures multiset(r) == multiset(ds)
    ensures forall t :: SameDate(r, t) == SameDate(ds, t)
    decreases |ds|
  {
    if ds == [] then []
    else
      assert ds == [ds[0]] + ds[1..];
      SameDateCons(ds[0], ds[1..]);
      InsertByDate(ds[0], SortNewestFirst(ds[1..]))
  }

  /** The record of a generated document. */
  function GeneratedRecord(req: GenerateRequest, id: string, now: int): (d: DocRecord)
    ensures d.projectName == req.projectName && d.id == id && d.createdAt == now && !d.isAdapted
    ensures d.description == (if req.description == "" then "Projet " + req.projectName else req.description)
    ensures d.template == Some(if req.template == "" then "pocketflow" else req.template)
    ensures d.model == (if req.model == "" then "gemini-2.5-pro" else req.model)
    ensures d.filePath == Path(OutputDir, Slug(req.projectName) + "-design.md")
  {
    DocRecord(id, req.projectName, DescriptionOr(req.projectName, req.description),
              Some(if req.template == "" then "pocketflow" else req.template),
              if req.model == "" then "gemini-2.5-pro" else req.model,
              now, Path(OutputDir, DesignFileName(req.projectName)), false)
  }

  /** The record of an adapted document. */
  function AdaptedRecord(req: AdaptRequest, id: string, now: int): (d: DocRecord)
    ensures d.projectName == req.projectName && d.id == id && d.createdAt == now
    ensures d.isAdapted && d.template.None?
    ensures d.description == (if req.description == "" then "Projet " + req.projectName else req.description)
    ensures d.model == (if req.model == "" then "gemini-2.5-pro" else req.model)
    ensures d.filePath == Path(OutputDir, Slug(req.projectName) + "-design.md")
  {
    DocRecord(id, req.projectName, DescriptionOr(req.projectName, req.description), None,
              if req.model == "" then "gemini-2.5-pro" else req.model,
              now, Path(OutputDir, DesignFileName(req.projectName)), true)
  }

  /** The content answered for a document whose file cannot be read. */
  function Unavailable(projectName: string): (c: string)
    ensures StartsWith(c, DocTitle(projectName))
  {
    var c := DocTitle(projectName) + "\n\n(Contenu non disponible)";
    assert c[..|DocTitle(projectName)|] == DocTitle(projectName);
    c
  }

  /** The module-level `documents` list. */
  class DocsRegistry {
    var documents: seq<DocRecord>

    constructor (documents: seq<DocRecord>)
      ensures this.documents == documents
    {
      this.documents := documents;
    }

    /** `generateDoc`: without a project name answers 400; a failed write
        answers 500; otherwise appends exactly one record and answers 201
        with the record and the generated content. */
    method GenerateDoc(req: GenerateRequest, id: string, now: int, writeError: Option<string>)
      returns (resp: Response)
      modifies this
      ensures req.projectName == "" ==>
        resp == Failure(400, "Le nom du projet est requis") && documents == old(documents)
      ensures req.projectName != "" && writeError.Some? ==>
        resp == Failure(500, writeError.value) && documents == old(documents)
      ensures req.projectName != "" && writeError.None? ==>
        documents == old(documents) + [GeneratedRecord(req, id, now)] &&
        resp == Created(GeneratedRecord(req, id, now),
                        GeneratedContent(req.projectName, req.description, req.features)) &&
        resp.Status() == 201
    {
      if req.projectName == "" {
        return Failure(400, "Le nom du projet est requis");
      }
      var content := GeneratedContent(req.projectName, req.description, req.features);
      if writeError.Some? {
        return Failure(500, writeError.value);
      }
      var record := GeneratedRecord(req, id, now);
      documents := documents + [record];
      resp := Created(record, content);
    }

    /** `adaptDoc`: needs both a project name and example content (400
        otherwise); appends one adapted record. */
    method AdaptDoc(req: AdaptRequest, id: string, now: int, writeError: Option<string>)
      returns (resp: Response)
      modifies this
      ensures req.projectName == "" || req.exampleContent == "" ==>
        resp == Failure(400, "Le nom du projet et le contenu exemple sont requis") &&
        documents == old(documents)
      ensures req.projectName != "" && req.exampleContent != "" && writeError.Some? ==>
        resp == Failure(500, writeError.value) && documents == old(documents)
      ensures req.projectName != "" && req.exampleContent != "" && writeError.None? ==>
        documents == old(documents) + [AdaptedRecord(req, id, now)] &&
        resp == Created(AdaptedRecord(req, id, now),
                        AdaptedContent(req.exampleContent, req.projectName, req.description))
    {
      if req.projectName == "" || req.exampleContent == "" {
        return Failure(400, "Le nom du projet et le contenu exemple sont requis");
      }
      var content := AdaptedContent(req.exampleContent, req.projectName, req.description);
      if writeError.Some? {
        return Failure(500, writeError.value);
      }
      var record := AdaptedRecord(req, id, now);
      documents := documents + [record];
      resp := Created(record, content);
    }

    /** `getAllDocs`: a copy of the registry, newest first; the registry
        itself is not reordered. */
    method GetAllDocs() returns (resp: Response)
      ensures resp.DocList? && resp.count == |documents| == |resp.docs|
      ensures NewestFirst(resp.docs) && multiset(resp.docs) == multiset(documents)
      ensures forall t :: SameDate(resp.docs, t) == SameDate(documents, t)
    {
      var sorted := SortNewestFirst(documents);
      assert |sorted| == |multiset(sorted)| == |multiset(documents)| == |documents|;
      resp := DocList(|sorted|, sorted);
    }

    /** `getDocById`: 404 for an unknown id; the file's content when it can
        be read (`disk`), a placeholder content otherwise. */
    method GetDocById(id: string, disk: map<Path, string>) returns (resp: Response)
      ensures FindIndex(documents, id) == -1 ==> resp == Failure(404, NotFoundMessage)
      ensures FindIndex(documents, id) != -1 ==>
        var d := documents[FindIndex(documents, id)];
        resp.Found? && resp.doc == d && resp.Status() == 200 &&
        (d.filePath in disk ==> resp.content == disk[d.filePath]) &&
        (d.filePath !in disk ==> resp.content == Unavailable(d.projectName))
    {
      var k := FindIndex(documents, id);
      if k == -1 {
        return Failure(404, NotFoundMessage);
      }
      var d := documents[k];
      var content := if d.filePath in disk then disk[d.filePath] else Unavailable(d.projectName);
      resp := Found(d, content);
    }

    /** `deleteDoc`: 404 for an unknown id; otherwise removes the first
        record with that id, whether or not its file could be removed. */
    method DeleteDoc(id: string) returns (resp: Response)
      modifies this
      ensures FindIndex(old(documents), id) == -1 ==>
        resp == Failure(404, NotFoundMessage) && documents == old(documents)
      ensures FindIndex(old(documents), id) != -1 ==>
        var k := FindIndex(old(documents), id);
        resp == Deleted("Document supprimé avec succès") &&
        documents == old(documents)[..k] + old(documents)[k + 1..]
    {
      var k := FindIndex(documents, id);
      if k == -1 {
        return Failure(404, NotFoundMessage);
      }
      documents := documents[..k] + documents[k + 1..];
      resp := Deleted("Document supprimé avec succès");
    }
  }

  /** Removing index `k` takes out exactly that record: one fewer copy of
      it, every other record kept, in order. */
  lemma RemoveAtExact(ds: seq<DocRecord>, k: nat)
    requires k < |ds|
    ensures multiset(ds[..k] + ds[k + 1..]) == multiset(ds) - multiset{ds[k]}
    ensures forall i :: 0 <= i < k ==> (ds[..k] + ds[k + 1..])[i] == ds[i]
    ensures forall i :: k < i < |ds| ==> (ds[..k] + ds[k + 1..])[i - 1] == ds[i]
  {
    var a, b := ds[..k], ds[k + 1..];
    var r := a + b;
    assert ds == a + [ds[k]] + b;
    assert multiset(ds) == multiset(a) + multiset{ds[k]} + multiset(b);
    assert multiset(r) == multiset(a) + multiset(b);
    forall i | 0 <= i < k ensures r[i] == ds[i] {
      assert r[i] == a[i];
    }
    forall i | k < i < |ds| ensures r[i - 1] == ds[i] {
      assert r[i - 1] == b[i - 1 - k];
    }
  }

  /** With unique ids, a deleted document is no longer found. */
  lemma DeletedNotFound(ds: seq<DocRecord>, id: string)
    requires forall i, j :: 0 <= i < j < |ds| ==> ds[i].id != ds[j].id
    requires FindIndex(ds, id) != -1
    ensures FindIndex(ds[..FindIndex(ds, id)] + ds[FindIndex(ds, id) + 1..], id) == -1
  {
    var k := FindIndex(ds, id);
    var r := ds[..k] + ds[k + 1..];
    forall i | 0 <= i < |r| ensures r[i].id != id {
      if i < k {
        assert r[i] == ds[i];
      } else {
        assert r[i] == ds[i + 1];
      }
    }
  }
}

=== FILE: flow.dfy ===
/**
 * The documentation-update flow: it runs its nodes in order over a shared
 * context, records one report per executed node, stops after the first
 * node that raises, and ends in status completed or error. It also draws a
 * 40-cell progress bar and counts successes and errors for its summary.
 *
 * What a node does is an oracle: given its position and the context's
 * values, it returns a result and the values it left behind, or raises an
 * error (keeping whatever it changed before raising).
 */
module Flow {
  import opened Common
  import opened Text

  /** Keyed context values other than the flow's own record. */
  type Values = map<string, string>

  datatype NodeRun = Ran(result: string, values: Values) | Raised(error: string, values: Values)

  /** Node `i` executed on the current values. */
  type Exec = (nat, Values) -> NodeRun

  datatype NodeStatus = Success | Error(message: string)

  /** One entry of `completed_nodes` (elapsed times are not modelled). */
  datatype NodeReport = NodeReport(name: string, status: NodeStatus)

  datatype FlowStatus = Running | Completed | Failed

  /** The context's `flow` record. */
  datatype FlowState = FlowState(
    name: string,
    nodeCount: nat,
    currentNode: nat,
    currentNodeName: Option<string>,
    completed: seq<NodeReport>,
    status: FlowStatus)

  /** The context `run` returns. */
  datatype RunContext = RunContext(values: Values, flow: FlowState)

  /** What running the nodes from index `i` on leaves: the values, the
      reports, and whether a node raised. */
  datatype Outcome = Outcome(values: Values, reports: seq<NodeReport>, failed: bool)

  function ResultKey(name: string): string {
    "result_" + name
  }

  /** The node loop from node `i` on, with the values and reports so far. */
  function RunFrom(nodes: seq<string>, exec: Exec, i: nat, values: Values, reports: seq<NodeReport>): Outcome
    requires i <= |nodes|
    decreases |nodes| - i
  {
    if i == |nodes| then Outcome(values, reports, false)
    else
      match exec(i, values)
      case Ran(r, v) =>
        RunFrom(nodes, exec, i + 1, v[ResultKey(nodes[i]) := r], reports + [NodeReport(nodes[i], Success)])
      case Raised(e, v) =>
        Outcome(v, reports + [NodeReport(nodes[i], Error(e))], true)
  }

  /** The shape of a run: reports name the nodes in order, one per executed
      node; all succeed but the last, which fails exactly when the run
      failed; a run that did not fail executed every node. */
  lemma {:induction false} RunShape(nodes: seq<string>, exec: Exec, i: nat, values: Values, reports: seq<NodeReport>)
    requires i <= |nodes| && |reports| == i
    requires forall j :: 0 <= j < i ==> reports[j] == NodeReport(nodes[j], Success)
    ensures var o := RunFrom(nodes, exec, i, values, reports);
      i <= |o.reports| <= |nodes| &&
      (forall j :: 0 <= j < |o.reports| ==> o.reports[j].name == nodes[j]) &&
      (forall j :: 0 <= j < |o.reports| - 1 ==> o.reports[j].status == Success) &&
      (o.failed <==> (|o.reports| > 0 && o.reports[|o.reports| - 1].status.Error?)) &&
      (!o.failed ==> |o.reports| == |nodes|) &&
      (o.failed ==> |o.reports| > i)
    decreases |nodes| - i
  {
    if i < |nodes| {
      match exec(i, values)
      case Ran(r, v) =>
        var rs := reports + [NodeReport(nodes[i], Success)];
        RunShape(nodes, exec, i + 1, v[ResultKey(nodes[i]) := r], rs);
      case Raised(e, v) =>
    }
  }

  /** A successful node's result is stored under `result_<name>` before the
      next node runs; a node that raises gets no result entry from the
      flow and the run ends with the values it left. */
  lemma RunStep(nodes: seq<string>, exec: Exec, i: nat, values: Values, reports: seq<NodeReport>)
    requires i < |nodes|
    ensures exec(i, values).Ran? ==>
      RunFrom(nodes, exec, i, values, reports) ==
      RunFrom(nodes, exec, i + 1, exec(i, values).values[ResultKey(nodes[i]) := exec(i, values).result],
              reports + [NodeReport(nodes[i], Success)])
    ensures exec(i, values).Raised? ==>
      RunFrom(nodes, exec, i, values, reports).values == exec(i, values).values &&
      RunFrom(nodes, exec, i, values, reports).failed
  {
  }

  const DefaultFlowName := "PocketFlow Update Flow"

  /** The flow: its nodes (by name), its own name, its API key and whether
      it holds an LLM client (one is made exactly for a non-empty key). */
  class PocketFlow {
    const nodes: seq<string>
    const name: string
    const apiKey: Option<string>
    const hasClient: bool

    /** `Flow(nodes, name="PocketFlow Update Flow", api_key=None)`. */
    constructor (nodes: seq<string>, name: Option<string>, apiKey: Option<string>)
      ensures this.nodes == nodes && this.name == name.GetOr(DefaultFlowName) && this.apiKey == apiKey
      ensures hasClient <==> apiKey.Some? && apiKey.value != ""
    {
      this.nodes := nodes;
      this.name := name.GetOr(DefaultFlowName);
      this.apiKey := apiKey;
      this.hasClient := apiKey.Some? && apiKey.value != "";
    }

    /** `run(initial_context)`: an absent (or empty) initial context starts
        from no values. */
    method Run(initial: Option<Values>, exec: Exec) returns (ctx: RunContext)
      ensures var o := RunFrom(nodes, exec, 0, initial.GetOr(map[]), []);
        ctx.values == o.values &&
        ctx.flow.completed == o.reports &&
        ctx.flow.status == (if o.failed then Failed else Completed) &&
        ctx.flow.nodeCount == |nodes| && ctx.flow.name == name &&
        ctx.flow.currentNode == |o.reports| &&
        ctx.flow.currentNodeName == (if o.reports == [] then None else Some(o.reports[|o.reports| - 1].name))
    {
      var values: Values := if initial.Some? then initial.value else map[];
      var flow := FlowState(name, |nodes|, 0, None, [], Running);
      ghost var start := values;
      RunShape(nodes, exec, 0, start, []);
      var i := 0;
      while i < |nodes|
        invariant 0 <= i <= |nodes|
        invariant |flow.completed| == i && flow.status == Running
        invariant forall j :: 0 <= j < i ==> flow.completed[j] == NodeReport(nodes[j], Success)
        invariant RunFrom(nodes, exec, i, values, flow.completed) == RunFrom(nodes, exec, 0, start, [])
        invariant flow.currentNode == i && flow.nodeCount == |nodes| && flow.name == name
        invariant flow.currentNodeName == (if i == 0 then None else Some(nodes[i - 1]))
      {
        flow := flow.(currentNode := i + 1, currentNodeName := Some(nodes[i]));
        var run := exec(i, values);
        if run.Ran? {
          values := run.values[ResultKey(nodes[i]) := run.result];
          flow := flow.(completed := flow.completed + [NodeReport(nodes[i], Success)]);
        } else {
          values := run.values;
          flow := flow.(completed := flow.completed + [NodeReport(nodes[i], Error(run.error))], status := Failed);
          break;
        }
        i := i + 1;
      }
      if flow.status != Failed {
        flow := flow.(status := Completed);
      }
      ctx := RunContext(values, flow);
    }
  }

  /** The final status is completed exactly when every report is a
      success, and then every node ran. */
  lemma CompletedIffNoError(nodes: seq<string>, exec: Exec, values: Values)
    ensures var o := RunFrom(nodes, exec, 0, values, []);
      (!o.failed <==> forall j :: 0 <= j < |o.reports| ==> o.reports[j].status == Success) &&
      (!o.failed ==> |o.reports| == |nodes|)
  {
    RunShape(nodes, exec, 0, values, []);
  }

  // ---------------------------------------------------------------------
  // Progress bar

  const ProgressWidth := 40

  /** `int(40 * (current - 1) / total)`: Python's `int` truncates toward
      zero; for these small integers the float quotient truncates to the
      exact integer one. */
  function FilledWidth(current: int, total: int): (f: int)
    ensures total > 0 && 1 <= current <= total ==> 0 <= f < ProgressWidth
    ensures total <= 0 ==> f == 0
  {
    if total <= 0 then 0
    else
      var n := ProgressWidth * (current - 1);
      if n >= 0 then
        assert 1 <= current <= total ==> n < ProgressWidth * total;
        n / total
      else -((-n) / total)
  }

  /** `_generate_ascii_progress`'s bar: '[', the filled cells, a '>' while
      nodes remain, the blank cells, ']'. */
  method ProgressBar(current: int, total: int) returns (bar: string)
    ensures 1 <= current <= total ==>
      var f := FilledWidth(current, total);
      |bar| == ProgressWidth + 2 && bar[0] == '[' && bar[|bar| - 1] == ']' && bar[f + 1] == '>' &&
      (forall k :: 1 <= k <= f ==> bar[k] == '=') &&
      (forall k :: f + 2 <= k < |bar| - 1 ==> bar[k] == ' ')
    ensures current > total ==> '>' !in bar
  {
    var filled := FilledWidth(current, total);
    var remaining := ProgressWidth - filled;
    bar := "[";
    bar := bar + Repeat('=', filled);
    bar := bar + (if current <= total then ">" else "");
    bar := bar + Repeat(' ', remaining - (if current <= total then 1 else 0));
    bar := bar + "]";
  }

  /** The filled part never shrinks as the run advances. */
  lemma FilledMonotone(c1: int, c2: int, total: int)
    requires 1 <= c1 <= c2 && total > 0
    ensures FilledWidth(c1, total) <= FilledWidth(c2, total)
  {
    var n1 := ProgressWidth * (c1 - 1);
    var n2 := ProgressWidth * (c2 - 1);
    assert n1 <= n2;
    DivMonotone(n1, n2, total);
  }

  lemma DivMonotone(a: int, b: int, d: int)
    requires 0 <= a <= b && d > 0
    ensures a / d <= b / d
  {
    var qa, qb := a / d, b / d;
    assert qa * d <= a by { assert a == qa * d + a % d; }
    assert b < qb * d + d by { assert b == qb * d + b % d; }
    var x := qb + 1 - qa;
    assert x * d == qb * d + d - qa * d;
    assert x * d > 0;
  }

  // ---------------------------------------------------------------------
  // Summary counts

  function CountSuccess(rs: seq<NodeReport>): (n: nat)
    ensures n <= |rs|
  {
    if rs == [] then 0 else (if rs[0].status == Success then 1 else 0) + CountSuccess(rs[1..])
  }

  function CountError(rs: seq<NodeReport>): (n: nat)
    ensures n <= |rs|
  {
    if rs == [] then 0 else (if rs[0].status.Error? then 1 else 0) + CountError(rs[1..])
  }

  /** In the summary, successes and errors add up to the executed nodes. */
  lemma {:induction false} CountsAddUp(rs: seq<NodeReport>)
    ensures CountSuccess(rs) + CountError(rs) == |rs|
  {
    if rs != [] {
      CountsAddUp(rs[1..]);
    }
  }

  lemma {:induction false} AllSuccessCount(rs: seq<NodeReport>)
    requires forall j :: 0 <= j < |rs| ==> rs[j].status == Success
    ensures CountError(rs) == 0
  {
    if rs != [] {
      AllSuccessCount(rs[1..]);
    }
  }

  /** A run reports at most one error, and exactly one when it failed. */
  lemma RunErrorCount(nodes: seq<string>, exec: Exec, values: Values)
    ensures var o := RunFrom(nodes, exec, 0, values, []);
      CountError(o.reports) == (if o.failed then 1 else 0)
  {
    var o := RunFrom(nodes, exec, 0, values, []);
    RunShape(nodes, exec, 0, values, []);
    var rs := o.reports;
    if o.failed {
      var init := rs[..|rs| - 1];
      assert forall j :: 0 <= j < |init| ==> init[j].status == Success;
      AllSuccessCount(init);
      CountAppend(init, rs[|rs| - 1]);
      assert rs == init + [rs[|rs| - 1]];
    } else {
      AllSuccessCount(rs);
    }
  }

  lemma {:induction false} CountAppend(rs: seq<NodeReport>, r: NodeReport)
    ensures CountError(rs + [r]) == CountError(rs) + (if r.status.Error? then 1 else 0)
  {
    if rs != [] {
      assert (rs + [r])[1..] == rs[1..] + [r];
      CountAppend(rs[1..], r);
    }
  }
}

=== FILE: gemini.dfy ===
/**
 * The Gemini client: configuration checks and defaults, the two prompts it
 * sends (design document from a template, adaptation of an example), the
 * model switch and the model listing. The language model itself is an
 * oracle: a function from the prompt to the text it answers or the error
 * it raises.
 */
module Gemini {
  import opened Common
  import opened Text
  import opened Models

  /** The `gemini` section of the configuration. An empty `model` and a zero
      `maxOutputTokens` stand for absent (falsy) values. */
  datatype GeminiConfig = GeminiConfig(apiKey: string, model: string, maxOutputTokens: nat)

  /** A configured client: the configuration it was built from and the
      model and output limit it settled on. */
  datatype Client = Client(config: GeminiConfig, modelName: string, maxOutputTokens: nat)

  /** The language model: the text answered for a prompt, or the message of
      the error it raised. */
  type Oracle = string -> Result<string>

  /** `getGeminiClient(config)`: a key is required; model and output limit
      fall back to their defaults. */
  function GetClient(config: Option<GeminiConfig>): (r: Result<Client>)
    ensures r.Err? <==> config.None? || config.value.apiKey == ""
    ensures r.Err? ==> r.msg == "Gemini API key is required"
    ensures r.Ok? ==> r.value.config == config.value
    ensures r.Ok? ==> r.value.modelName == (if config.value.model == "" then DefaultModelId else config.value.model)
    ensures r.Ok? ==> r.value.maxOutputTokens == (if config.value.maxOutputTokens == 0 then 8192 else config.value.maxOutputTokens)
  {
    if config.None? || config.value.apiKey == "" then Err("Gemini API key is required")
    else
      var c := config.value;
      Ok(Client(c, if c.model == "" then DefaultModelId else c.model,
                if c.maxOutputTokens == 0 then 8192 else c.maxOutputTokens))
  }

  /** A client always names a model and a positive output limit. */
  lemma ClientDefaults(config: GeminiConfig)
    requires config.apiKey != ""
    ensures GetClient(Some(config)).Ok?
    ensures GetClient(Some(config)).value.modelName != ""
    ensures GetClient(Some(config)).value.maxOutputTokens > 0
  {
  }

  /** `useModel(name)`: a new client from the same configuration with only
      the model replaced. */
  function UseModel(c: Client, newModelName: string): (r: Result<Client>)
    requires c.config.apiKey != ""
    ensures r.Err? <==> newModelName == ""
    ensures r.Err? ==> r.msg == "Model name is required"
    ensures r.Ok? ==> r.value.modelName == newModelName
    ensures r.Ok? ==> r.value.config == c.config.(model := newModelName)
    ensures r.Ok? ==> r.value.config.apiKey == c.config.apiKey &&
                      r.value.config.maxOutputTokens == c.config.maxOutputTokens
  {
    if newModelName == "" then Err("Model name is required")
    else GetClient(Some(c.config.(model := newModelName)))
  }

  /** A client as built by `GetClient` from its own configuration. */
  ghost predicate WellBuilt(c: Client) {
    GetClient(Some(c.config)) == Ok(c)
  }

  /** Switching to the model already in use gives the same client back. */
  lemma UseSameModel(c: Client)
    requires WellBuilt(c) && c.config.model != ""
    ensures UseModel(c, c.config.model) == Ok(c)
  {
  }

  // ---------------------------------------------------------------------
  // Prompts

  /** One "- f" line per feature (`features.map(f => `- ${f}`)`). */
  function Bullets(features: seq<string>): (ls: seq<string>)
    ensures |ls| == |features|
    ensures forall i :: 0 <= i < |features| ==> ls[i] == "- " + features[i]
  {
    seq(|features|, i requires 0 <= i < |features| => "- " + features[i])
  }

  /** `featuresText`: the bullet lines joined by line feeds. */
  function FeaturesText(features: seq<string>): string {
    Join(Bullets(features), "\n")
  }

  /** The features text has exactly one line "- f" per feature, in order,
      when no feature spans lines; with no features it is empty. */
  lemma FeaturesTextLines(features: seq<string>)
    requires forall i :: 0 <= i < |features| ==> '\n' !in features[i]
    ensures features == [] ==> FeaturesText(features) == ""
    ensures features != [] ==> Split(FeaturesText(features), '\n') == Bullets(features)
  {
    if features != [] {
      var ls := Bullets(features);
      forall i | 0 <= i < |ls| ensures '\n' !in ls[i] {
        assert ls[i] == "- " + features[i];
      }
      SplitJoin(ls, '\n');
    }
  }

  /** The data of a design request; `None` stands for a field left undefined. */
  datatype DesignData = DesignData(
    projectName: string,
    template: string,
    description: Option<string>,
    features: Option<seq<string>>,
    instructions: string,
    additionalContext: Option<string>)

  const DesignTaskHead := "\nTu es un expert en architecture logicielle et en documentation technique.\n\nTÂCHE: Crée un document de design détaillé pour le projet \""
  const DesignTaskTail := "\" en suivant le format du template fourni.\n\nDESCRIPTION DU PROJET:\n"
  const DesignFeaturesHead := "\n\nFONCTIONNALITÉS PRINCIPALES:\n"
  const DesignInstructionsHead := "\n\nINSTRUCTIONS SPÉCIFIQUES:\n"
  const DesignTemplateHead := "\n\nTEMPLATE DE RÉFÉRENCE:\n"
  const DesignDirectivesHead := "\n\nDIRECTIVES:\n1. Respecte la structure du template fourni (sections, sous-sections)\n2. Adapte le contenu au contexte du projet \""
  const DesignDirectivesTail := "\"\n3. Inclus des diagrammes Mermaid si pertinent (architecture, flux, classes)\n4. Sois précis et technique dans les descriptions\n5. Utilise un style professionnel et clair\n6. Génère un document complet et cohérent\n7. Utilise des exemples de code pertinents pour le projet\n\nRéponds uniquement avec le contenu Markdown du document de design, sans commentaires additionnels.\n"

  /** The pieces of the prompt of `generateDesignDoc`, with description,
      features and additional context defaulting to empty. */
  function DesignPromptParts(d: DesignData): (ps: seq<string>)
    ensures |ps| == 15
    ensures ps[1] == ps[13] == d.projectName && ps[3] == d.description.GetOr("")
    ensures ps[5] == FeaturesText(d.features.GetOr([])) && ps[7] == d.instructions
    ensures ps[9] == d.template && ps[11] == d.additionalContext.GetOr("")
  {
    [DesignTaskHead, d.projectName, DesignTaskTail, d.description.GetOr(""),
     DesignFeaturesHead, FeaturesText(d.features.GetOr([])), DesignInstructionsHead, d.instructions,
     DesignTemplateHead, d.template, "\n\n", d.additionalContext.GetOr(""),
     DesignDirectivesHead, d.projectName, DesignDirectivesTail]
  }

  function DesignPrompt(d: DesignData): string {
    Concat(DesignPromptParts(d))
  }

  /** The design prompt carries the project name, the description, the
      features text, the instructions and the template verbatim. */
  lemma DesignPromptCarries(d: DesignData)
    ensures Contains(DesignPrompt(d), d.projectName)
    ensures Contains(DesignPrompt(d), d.description.GetOr(""))
    ensures Contains(DesignPrompt(d), FeaturesText(d.features.GetOr([])))
    ensures Contains(DesignPrompt(d), d.instructions)
    ensures Contains(DesignPrompt(d), d.template)
  {
    var ps := DesignPromptParts(d);
    ConcatContains(ps, 1);
    ConcatContains(ps, 3);
    ConcatContains(ps, 5);
    ConcatContains(ps, 7);
    ConcatContains(ps, 9);
  }

  /** The client's `generateDesignDoc`: the oracle's answer to the design
      prompt, or its error under a fixed prefix. */
  function GenerateDesignDoc(llm: Oracle, d: DesignData): (r: Result<string>)
    ensures llm(DesignPrompt(d)).Ok? ==> r == llm(DesignPrompt(d))
    ensures llm(DesignPrompt(d)).Err? ==>
      r == Err("Failed to generate design document: " + llm(DesignPrompt(d)).msg)
  {
    match llm(DesignPrompt(d))
    case Ok(text) => Ok(text)
    case Err(m) => Err("Failed to generate design document: " + m)
  }

  /** The data of an adaptation request. */
  datatype AdaptData = AdaptData(exampleContent: string, projectName: string, description: Option<string>)

  const AdaptTaskHead := "\nTu es un expert en architecture logicielle et en documentation technique.\n\nTÂCHE: Adapte le document de design fourni pour le nouveau projet \""
  const AdaptTaskTail := "\".\n\nDESCRIPTION DU NOUVEAU PROJET:\n"
  const AdaptExampleHead := "\n\nDOCUMENT EXEMPLE:\n"
  const AdaptDirectivesHead := "\n\nDIRECTIVES:\n1. Conserve la structure générale du document exemple\n2. Remplace les noms de projets, concepts et détails spécifiques pour les adapter au nouveau projet \""
  const AdaptDirectivesTail := "\"\n3. Conserve les diagrammes Mermaid mais adapte-les au nouveau contexte\n4. Maintiens le niveau de détail technique et la qualité du document original\n5. Assure-toi que tous les exemples de code sont pertinents pour le nouveau projet\n6. Adapte les objectifs, métriques et plans d'implémentation au nouveau contexte\n\nRéponds uniquement avec le contenu Markdown du document de design adapté, sans commentaires additionnels.\n"

  /** The pieces of the prompt of `adaptExampleDoc`, the description
      defaulting to empty. */
  function AdaptPromptParts(d: AdaptData): (ps: seq<string>)
    ensures |ps| == 9
    ensures ps[1] == ps[7] == d.projectName && ps[3] == d.description.GetOr("")
    ensures ps[5] == d.exampleContent
  {
    [AdaptTaskHead, d.projectName, AdaptTaskTail, d.description.GetOr(""),
     AdaptExampleHead, d.exampleContent, AdaptDirectivesHead, d.projectName, AdaptDirectivesTail]
  }

  function AdaptPrompt(d: AdaptData): string {
    Concat(AdaptPromptParts(d))
  }

  /** The adaptation prompt carries the project name, the description and
      the whole example verbatim. */
  lemma AdaptPromptCarries(d: AdaptData)
    ensures Contains(AdaptPrompt(d), d.projectName)
    ensures Contains(AdaptPrompt(d), d.exampleContent)
    ensures Contains(AdaptPrompt(d), d.description.GetOr(""))
  {
    var ps := AdaptPromptParts(d);
    ConcatContains(ps, 1);
    ConcatContains(ps, 3);
    ConcatContains(ps, 5);
  }

  /** The client's `adaptExampleDoc`: the oracle's answer to the adaptation
      prompt, or its error under a fixed prefix. */
  function AdaptExampleDoc(llm: Oracle, d: AdaptData): (r: Result<string>)
    ensures llm(AdaptPrompt(d)).Ok? ==> r == llm(AdaptPrompt(d))
    ensures llm(AdaptPrompt(d)).Err? ==>
      r == Err("Failed to adapt design document: " + llm(AdaptPrompt(d)).msg)
  {
    match llm(AdaptPrompt(d))
    case Ok(text) => Ok(text)
    case Err(m) => Err("Failed to adapt design document: " + m)
  }

  // ---------------------------------------------------------------------
  // Model listing

  /** A model with the uses it is recommended for. */
  datatype ListedModel = ListedModel(id: string, name: string, description: string, bestFor: seq<string>)

  datatype ModelInfoReply = ModelInfoReply(currentModel: string, availableModels: seq<ListedModel>)

  /** The fixed list answered when listing the models fails. */
  function FallbackModels(): (ms: seq<ListedModel>)
    ensures |ms| == 4
  {
    [ListedModel("gemini-2.5-pro", "Gemini 2.5 Pro", "Modèle avancé avec raisonnement complexe",
                 ["Documents techniques", "Raisonnement approfondi"]),
     ListedModel("gemini-2.5-flash", "Gemini 2.5 Flash", "Nouvelle génération, rapide",
                 ["Génération de contenu améliorée", "Réponses rapides"]),
     ListedModel("gemini-2.0-flash", "Gemini 2.0 Flash", "Modèle de génération rapide",
                 ["Génération de contenu", "Streaming en temps réel"]),
     ListedModel("gemini-1.5-pro", "Gemini 1.5 Pro (obsolète)", "Ancien modèle pour tâches complexes",
                 ["Compatibilité avec anciens systèmes"])]
  }

  function Listing(ms: seq<ModelDescriptor>): (ls: seq<ListedModel>)
    ensures |ls| == |ms|
    ensures forall i :: 0 <= i < |ms| ==> ls[i] == ListedModel(ms[i].id, ms[i].name, ms[i].description, [])
  {
    seq(|ms|, i requires 0 <= i < |ms| => ListedModel(ms[i].id, ms[i].name, ms[i].description, []))
  }

  /** The reply of `getModelInfo` given the outcome of listing: the listed
      models, or the fixed fallback list when listing failed; the current
      model is the client's either way. */
  function ModelInfoFrom(modelName: string, listed: Result<seq<ModelDescriptor>>): (r: ModelInfoReply)
    ensures r.currentModel == modelName
    ensures listed.Err? ==> r.availableModels == FallbackModels()
    ensures listed.Ok? ==> r.availableModels == Listing(listed.value)
  {
    match listed
    case Ok(ms) => ModelInfoReply(modelName, Listing(ms))
    case Err(_) => ModelInfoReply(modelName, FallbackModels())
  }

  /** The client's `getModelInfo`. Its models manager is built from the
      Gemini section alone, so it has no `models` section: listing answers
      the two default models and the fallback is never taken. */
  method GetModelInfo(c: Client, manager: ModelsManager) returns (r: ModelInfoReply)
    requires manager.Valid() && manager.models.None?
    modifies manager
    ensures manager.Valid()
    ensures r == ModelInfoFrom(c.modelName, Ok(DefaultModels()))
    ensures r.availableModels != FallbackModels()
  {
    var ms := manager.ListModels();
    r := ModelInfoFrom(c.modelName, Ok(ms));
    assert |r.availableModels| == 2;
  }

  /** The client's `getRecommendedModel`, through the same manager. */
  function ClientRecommendedModel(taskType: string): (r: string)
    ensures r == (if taskType == "quickDraft" then "gemini-2.5-flash" else DefaultModelId)
  {
    RecommendedDefaults(taskType);
    RecommendedModel(None, taskType)
  }
}

=== FILE: generate_page.dfy ===
/**
 * The generation page's form logic: the initial mode read from the query
 * string, editing the list of feature fields, the live preview and what
 * a submission sends or refuses. The API calls, the delays and the
 * navigation timers are not modelled; a submission's outcome records the
 * request it would send and the message it would show.
 */
module GeneratePage {
  import opened Common
  import opened Text
  import Gemini
  import DocsController
  import PreviewService

  /** Mode 1 (adapt an example) exactly when the query parameter `mode` is
      "adapt"; mode 0 (new document) otherwise, including when absent. */
  function InitialMode(modeParam: Option<string>): (m: nat)
    ensures m == 1 <==> modeParam == Some("adapt")
    ensures m == 0 <==> modeParam != Some("adapt")
  {
    if modeParam == Some("adapt") then 1 else 0
  }

  /** A feature field counts when it holds a character other than white
      space, that is when its trimmed text is not empty. */
  predicate Filled(f: string) {
    !(forall i :: 0 <= i < |f| ==> IsSpace(f[i]))
  }

  lemma FilledIffTrimmed(f: string)
    ensures Filled(f) <==> Trim(f) != ""
  {
    TrimEmptyIffBlank(f);
  }

  /** `features.filter(f => f.trim() !== '')`: the filled fields, in order. */
  function FilledFeatures(fs: seq<string>): (r: seq<string>)
    ensures |r| <= |fs|
    ensures IsSubseq(r, fs)
    ensures forall i :: 0 <= i < |r| ==> Filled(r[i])
  {
    if fs == [] then []
    else if Filled(fs[0]) then [fs[0]] + FilledFeatures(fs[1..])
    else
      var rest := FilledFeatures(fs[1..]);
      assert rest != [] ==> rest[0] != fs[0];
      rest
  }

  /** Only filled fields are kept, every filled field is kept, and a list
      of filled fields is kept whole. */
  lemma {:induction false} FilledFeaturesSpec(fs: seq<string>)
    ensures forall x :: x in FilledFeatures(fs) ==> Filled(x) && x in fs
    ensures forall x :: x in fs && Filled(x) ==> x in FilledFeatures(fs)
    ensures (forall i :: 0 <= i < |fs| ==> Filled(fs[i])) ==> FilledFeatures(fs) == fs
  {
    if fs != [] {
      var tail := fs[1..];
      FilledFeaturesSpec(tail);
      assert forall x :: x in fs ==> x == fs[0] || x in tail;
      if forall i :: 0 <= i < |fs| ==> Filled(fs[i]) {
        assert forall j :: 0 <= j < |tail| ==> Filled(tail[j]) by {
          forall j | 0 <= j < |tail| ensures Filled(tail[j]) {
            assert tail[j] == fs[j + 1];
          }
        }
        assert fs == [fs[0]] + tail;
      }
    }
  }

  /** The feature fields of the form; the page starts with one empty field. */
  class FeatureForm {
    var features: seq<string>

    /** The delete button is disabled on the last field, so at least one
        field always remains. */
    ghost predicate Valid()
      reads this
    {
      |features| >= 1
    }

    constructor ()
      ensures features == [""] && Valid()
    {
      features := [""];
    }

    /** `handleAddFeature`: one more, empty, field at the end. */
    method AddFeature()
      requires Valid()
      modifies this
      ensures Valid()
      ensures features == old(features) + [""]
    {
      features := features + [""];
    }

    /** Whether the delete button of a field is enabled. */
    function CanRemove(): bool
      reads this
    {
      |features| > 1
    }

    /** `handleRemoveFeature(index)` on a rendered field: a copy with that
        element spliced out; the others keep their order. */
    method RemoveFeature(index: nat)
      requires Valid() && CanRemove() && index < |features|
      modifies this
      ensures Valid()
      ensures features == old(features)[..index] + old(features)[index + 1..]
      ensures |features| == |old(features)| - 1
    {
      var copy := features;
      copy := copy[..index] + copy[index + 1..];
      features := copy;
    }

    /** `handleFeatureChange(index, value)` on a rendered field: only that
        field changes. */
    method ChangeFeature(index: nat, value: string)
      requires Valid() && index < |features|
      modifies this
      ensures Valid()
      ensures features == old(features)[index := value]
      ensures forall i :: 0 <= i < |features| && i != index ==> features[i] == old(features)[i]
    {
      var copy := features;
      copy := copy[index := value];
      features := copy;
    }
  }

  /** The preview list: one bullet per filled field, or the two default
      bullets when no field is filled. */
  function PageFeatureList(fs: seq<string>): string {
    var filled := FilledFeatures(fs);
    if |filled| > 0 then Gemini.FeaturesText(filled) else DocsController.DefaultFeatureLines
  }

  /** `generatePreview`: nothing without a project name; otherwise the
      preview document for the form's values. */
  function PagePreview(projectName: string, description: string, features: seq<string>, template: string): (r: Option<string>)
    ensures projectName == "" <==> r.None?
  {
    if projectName == "" then None
    else
      Some(PreviewService.PreviewDocument(
        projectName,
        if description != "" then description else "Description du projet " + projectName,
        PageFeatureList(features), template))
  }

  /** The page's preview carries the project's title line and every filled
      feature's bullet text. */
  lemma PagePreviewCarries(projectName: string, description: string, features: seq<string>, template: string)
    requires projectName != ""
    ensures var d := PagePreview(projectName, description, features, template).value;
      StartsWith(d, DocsController.DocTitle(projectName)) &&
      Contains(d, PageFeatureList(features)) && Contains(d, PreviewService.TemplateLine(template))
  {
    PreviewService.PreviewCarries(projectName,
      if description != "" then description else "Description du projet " + projectName,
      PageFeatureList(features), template);
  }

  /** With a name, a template and only filled fields, the page's preview is
      the preview service's document for the same parameters. */
  lemma PagePreviewMatchesService(projectName: string, description: string, features: seq<string>, template: string)
    requires projectName != "" && template != "" && features != []
    requires forall i :: 0 <= i < |features| ==> Filled(features[i])
    ensures PagePreview(projectName, description, features, template) ==
      Some(PreviewService.ServiceContent(
        PreviewService.PreviewParams(Some(projectName), Some(description), Some(features), Some(template))))
  {
    FilledFeaturesSpec(features);
    assert FilledFeatures(features) == features;
    assert PageFeatureList(features) == PreviewService.ServiceFeatureList(Some(features));
  }

  /** The request a new-document submission sends. */
  datatype GenerateRequest = GenerateRequest(
    projectName: string, description: string, features: seq<string>, template: string, model: string)

  /** What a submission leads to: an error message, or a success message
      with the request sent (new documents only) and the page to open. */
  datatype Submission =
    | Refused(error: string)
    | Submitted(request: Option<GenerateRequest>, success: string, next: string)

  /** `handleSubmit`: mode 0 sends the filled features only; any other mode
      needs an example document. */
  function Submit(mode: nat, projectName: string, description: string, features: seq<string>,
                  template: string, model: string, exampleContent: string): (s: Submission)
    ensures s.Refused? <==> mode != 0 && exampleContent == ""
    ensures s.Refused? ==> s.error == "Veuillez fournir un document exemple"
    ensures mode == 0 ==> s.Submitted? && s.request.Some? && s.request.value.features == FilledFeatures(features)
    ensures mode != 0 && s.Submitted? ==> s.request.None?
  {
    if mode == 0 then
      Submitted(Some(GenerateRequest(projectName, description, FilledFeatures(features), template, model)),
                "Document généré avec succès !", "/preview/new-doc-id")
    else if exampleContent == "" then Refused("Veuillez fournir un document exemple")
    else Submitted(None, "Document adapté avec succès !", "/preview/adapted-doc-id")
  }

  /** Submission only ever sends filled features, and never drops one. */
  lemma SubmittedFeaturesFilled(projectName: string, description: string, features: seq<string>,
                                template: string, model: string)
    ensures var fs := Submit(0, projectName, description, features, template, model, "").request.value.features;
      (forall i :: 0 <= i < |fs| ==> Trim(fs[i]) != "") &&
      (forall i :: 0 <= i < |features| && Trim(features[i]) != "" ==> features[i] in fs)
  {
    FilledFeaturesSpec(features);
    var fs := FilledFeatures(features);
    forall i | 0 <= i < |fs| ensures Trim(fs[i]) != "" {
      assert fs[i] in fs;
      FilledIffTrimmed(fs[i]);
    }
    forall i | 0 <= i < |features| && Trim(features[i]) != "" ensures features[i] in fs {
      FilledIffTrimmed(features[i]);
    }
  }
}

=== FILE: generator.dfy ===
/**
 * The document generator: loads a template, asks the language model for a
 * design document (or for an adaptation of an example document), and
 * writes the result to `<output>/<slug>-design.md`.
 */
module Generator {
  import opened Common
  import opened Text
  import opened Placeholders
  import opened TemplateFiles
  import opened Gemini

  /** The files the generator reads and writes. */
  class Disk {
    var files: map<Path, string>

    constructor (files: map<Path, string>)
      ensures this.files == files
    {
      this.files := files;
    }
  }

  /** Where template `name` is read from: `templatesDir` when given
      (non-empty), otherwise the `templates` folder of the installation. */
  function TemplatePath(name: string, templatesDir: string, basePath: string): (p: Path)
    ensures p.file == TemplateFileName(name)
    ensures templatesDir != "" ==> p.dir == templatesDir
    ensures templatesDir == "" ==> p.dir == basePath + "/templates"
  {
    Path(if templatesDir != "" then templatesDir else basePath + "/templates", TemplateFileName(name))
  }

  /** `loadTemplate(name, templatesDir)`: the file's content, or the read
      error under a message naming the template. */
  function LoadTemplate(files: map<Path, string>, name: string, templatesDir: string, basePath: string): (r: Result<string>)
    ensures var p := TemplatePath(name, templatesDir, basePath);
      (p in files ==> r == Ok(files[p])) &&
      (p !in files ==> r == Err("Failed to load template " + name + ": " + NoSuchFile(p)))
  {
    var p := TemplatePath(name, templatesDir, basePath);
    if p in files then Ok(files[p]) else Err("Failed to load template " + name + ": " + NoSuchFile(p))
  }

  /** The file name of a generated document. */
  function DesignFileName(projectName: string): (f: string)
    ensures f == Slug(projectName) + "-design.md"
    ensures NoSpace(f[..|f| - 10])
  {
    assert (Slug(projectName) + "-design.md")[..|Slug(projectName)|] == Slug(projectName);
    Slug(projectName) + "-design.md"
  }

  /** Names that differ only in case or in the width of their whitespace
      name the same output file. */
  lemma SameSlugSameFile(a: string, b: string, outputPath: string)
    requires Slug(a) == Slug(b)
    ensures Path(outputPath, DesignFileName(a)) == Path(outputPath, DesignFileName(b))
  {
  }

  /** "My Project" and "my project" are written to the same file. */
  lemma OutputCollision(outputPath: string)
    ensures "My Project" != "my project"
    ensures Path(outputPath, DesignFileName("My Project")) == Path(outputPath, DesignFileName("my project"))
  {
    SlugNotInjective();
  }

  /** The options of a template-mode generation; an empty description and
      absent features stand for values left out. */
  datatype GenerateOptions = GenerateOptions(
    projectName: string,
    template: string,
    outputPath: string,
    description: string,
    features: Option<seq<string>>)

  /** The parts of the configuration the generator reads. */
  datatype AppConfig = AppConfig(gemini: Option<GeminiConfig>, instructions: map<string, string>)

  datatype Output = Output(outputPath: Path, content: string)

  function DefaultFeatures(): seq<string> {
    ["Fonctionnalité 1", "Fonctionnalité 2"]
  }

  const DefaultInstructions := "Créer un document de design détaillé"

  /** The data handed to the model (`promptData`). */
  function PromptDataFor(opts: GenerateOptions, templateContent: string, config: AppConfig,
                         additionalContext: string): (d: DesignData)
    ensures d.projectName == opts.projectName && d.template == templateContent
    ensures d.additionalContext == Some(additionalContext)
    ensures d.description.Some? && d.description.value != ""
    ensures d.features.Some? && d.instructions != ""
  {
    DesignData(
      opts.projectName,
      templateContent,
      Some(if opts.description == "" then "Projet " + opts.projectName else opts.description),
      Some(opts.features.GetOr(DefaultFeatures())),
      if opts.template in config.instructions && config.instructions[opts.template] != ""
      then config.instructions[opts.template] else DefaultInstructions,
      Some(additionalContext))
  }

  /** The defaults of `promptData`: an empty description becomes
      "Projet <name>", absent features the two default features while an
      empty list is kept, and instructions come from the configuration for
      the template or fall back to a fixed sentence. */
  lemma PromptDataDefaults(opts: GenerateOptions, t: string, config: AppConfig, ctx: string)
    ensures opts.description == "" ==>
      PromptDataFor(opts, t, config, ctx).description == Some("Projet " + opts.projectName)
    ensures opts.description != "" ==>
      PromptDataFor(opts, t, config, ctx).description == Some(opts.description)
    ensures opts.features.None? ==> PromptDataFor(opts, t, config, ctx).features == Some(DefaultFeatures())
    ensures opts.features == Some([]) ==> PromptDataFor(opts, t, config, ctx).features == Some([])
    ensures opts.template !in config.instructions ==>
      PromptDataFor(opts, t, config, ctx).instructions == DefaultInstructions
  {
  }

  /** `generateDesignDoc(options, config)` in template mode: load the
      template, ask the model, put the project name into the answer, write
      it. The model's answer is the oracle `llm`; `additionalContext` is
      what the documentation server contributed. */
  method GenerateDesignDoc(disk: Disk, opts: GenerateOptions, config: AppConfig, basePath: string,
                           additionalContext: string, llm: Oracle) returns (r: Result<Output>)
    modifies disk
    ensures var tpl := LoadTemplate(old(disk.files), opts.template, "", basePath);
      tpl.Err? ==> r == Err(tpl.msg) && disk.files == old(disk.files)
    ensures config.gemini.None? || config.gemini.value.apiKey == "" ==>
      r.Err? && disk.files == old(disk.files)
    ensures var tpl := LoadTemplate(old(disk.files), opts.template, "", basePath);
      var keyed := config.gemini.Some? && config.gemini.value.apiKey != "";
      tpl.Ok? ==>
        var answer := llm(DesignPrompt(PromptDataFor(opts, tpl.value, config, additionalContext)));
        (!keyed ==> r == Err("Gemini API key is required")) &&
        (keyed && answer.Err? ==> r == Err("Failed to generate design document: " + answer.msg)) &&
        (keyed && answer.Ok? ==> r.Ok?)
    ensures r.Ok? ==>
      var tpl := LoadTemplate(old(disk.files), opts.template, "", basePath);
      var answer := llm(DesignPrompt(PromptDataFor(opts, tpl.value, config, additionalContext)));
      tpl.Ok? && answer.Ok? &&
      r.value.content == ApplyEntries(answer.value, [Entry("PROJECT_NAME", opts.projectName)]) &&
      r.value.outputPath == Path(opts.outputPath, DesignFileName(opts.projectName)) &&
      disk.files == old(disk.files)[r.value.outputPath := r.value.content]
    ensures r.Err? ==> disk.files == old(disk.files)
  {
    var tpl := LoadTemplate(disk.files, opts.template, "", basePath);
    if tpl.Err? {
      return Err(tpl.msg);
    }
    var data := PromptDataFor(opts, tpl.value, config, additionalContext);
    var client := GetClient(config.gemini);
    if client.Err? {
      return Err(client.msg);
    }
    var generated := Gemini.GenerateDesignDoc(llm, data);
    if generated.Err? {
      return Err(generated.msg);
    }
    var finalContent := ReplaceTemplateValues(generated.value, [Entry("PROJECT_NAME", opts.projectName)]);
    var path := Path(opts.outputPath, DesignFileName(opts.projectName));
    disk.files := disk.files[path := finalContent];
    r := Ok(Output(path, finalContent));
  }

  /** The options of an example-mode generation. */
  datatype ExampleOptions = ExampleOptions(
    projectName: string,
    outputPath: string,
    description: string,
    gemini: Option<GeminiConfig>)

  /** `generateFromExample(examplePath, options)`: read the example, ask the
      model to adapt it, write the answer unchanged. */
  method GenerateFromExample(disk: Disk, examplePath: Path, opts: ExampleOptions, llm: Oracle)
    returns (r: Result<Output>)
    modifies disk
    ensures examplePath !in old(disk.files) ==>
      r == Err(NoSuchFile(examplePath)) && disk.files == old(disk.files)
    ensures var keyed := opts.gemini.Some? && opts.gemini.value.apiKey != "";
      examplePath in old(disk.files) ==>
        var data := AdaptData(old(disk.files)[examplePath], opts.projectName,
                              Some(if opts.description == "" then "Projet " + opts.projectName else opts.description));
        var answer := llm(AdaptPrompt(data));
        (!keyed ==> r == Err("Gemini API key is required")) &&
        (keyed && answer.Err? ==> r == Err("Failed to adapt design document: " + answer.msg)) &&
        (keyed && answer.Ok? ==> r.Ok?)
    ensures r.Ok? ==>
      examplePath in old(disk.files) &&
      var data := AdaptData(old(disk.files)[examplePath], opts.projectName,
                            Some(if opts.description == "" then "Projet " + opts.projectName else opts.description));
      llm(AdaptPrompt(data)) == Ok(r.value.content) &&
      r.value.outputPath == Path(opts.outputPath, DesignFileName(opts.projectName)) &&
      disk.files == old(disk.files)[r.value.outputPath := r.value.content]
    ensures r.Err? ==> disk.files == old(disk.files)
  {
    if examplePath !in disk.files {
      return Err(NoSuchFile(examplePath));
    }
    var exampleContent := disk.files[examplePath];
    var client := GetClient(opts.gemini);
    if client.Err? {
      return Err(client.msg);
    }
    var description := if opts.description == "" then "Projet " + opts.projectName else opts.description;
    var adapted := AdaptExampleDoc(llm, AdaptData(exampleContent, opts.projectName, Some(description)));
    if adapted.Err? {
      return Err(adapted.msg);
    }
    var path := Path(opts.outputPath, DesignFileName(opts.projectName));
    disk.files := disk.files[path := adapted.value];
    r := Ok(Output(path, adapted.value));
  }

  /** Two generations whose project names share a slug write the same file:
      the second document replaces the first. */
  method GenerateTwice(disk: Disk, first: GenerateOptions, second: GenerateOptions, config: AppConfig,
                       basePath: string, ctx: string, llm: Oracle) returns (r1: Result<Output>, r2: Result<Output>)
    requires Slug(first.projectName) == Slug(second.projectName)
    requires first.outputPath == second.outputPath
    modifies disk
    ensures r2.Ok? ==> r2.value.outputPath in disk.files &&
                       disk.files[r2.value.outputPath] == r2.value.content
    ensures r1.Ok? && r2.Ok? ==> r1.value.outputPath == r2.value.outputPath
  {
    r1 := GenerateDesignDoc(disk, first, config, basePath, ctx, llm);
    r2 := GenerateDesignDoc(disk, second, config, basePath, ctx, llm);
    if r2.Ok? {
      assert r2.value.outputPath in disk.files;
    }
  }
}

=== FILE: history_page.dfy ===
/**
 * The history page's list logic: the search, template, model and date
 * filters, the page of rows shown, the selection check boxes and the
 * deletion of one or of the selected documents. Component state set
 * through React setters is the fields of `HistoryView`. Whether a
 * document passes the date filter depends on the clock and is an oracle.
 */
module HistoryPage {
  import opened Common
  import opened Text
  import Generator

  datatype HistoryDoc = HistoryDoc(id: string, projectName: string, createdAt: int, template: string, model: string)

  datatype Filters = Filters(searchTerm: string, templateFilter: string, modelFilter: string)

  /** The date filter's verdict on a document (`true` under 'all'). */
  type DateFilter = HistoryDoc -> bool

  /** The name contains the search term, ignoring ASCII case. */
  predicate MatchesSearch(d: HistoryDoc, term: string) {
    Contains(Lower(d.projectName), Lower(term))
  }

  predicate Keeps(f: Filters, dateOk: DateFilter, d: HistoryDoc) {
    MatchesSearch(d, f.searchTerm) && dateOk(d) &&
    (f.templateFilter == "all" || d.template == f.templateFilter) &&
    (f.modelFilter == "all" || d.model == f.modelFilter)
  }

  /** `filteredDocuments`: the documents every filter keeps, in order. */
  function FilterDocs(docs: seq<HistoryDoc>, f: Filters, dateOk: DateFilter): (r: seq<HistoryDoc>)
    ensures IsSubseq(r, docs)
    ensures forall d :: d in r <==> d in docs && Keeps(f, dateOk, d)
  {
    if docs == [] then []
    else if Keeps(f, dateOk, docs[0]) then [docs[0]] + FilterDocs(docs[1..], f, dateOk)
    else
      var rest := FilterDocs(docs[1..], f, dateOk);
      assert rest != [] ==> rest[0] != docs[0];
      rest
  }

  /** An empty search term is in every name. */
  lemma EmptySearchMatches(d: HistoryDoc)
    ensures MatchesSearch(d, "")
  {
    assert At(Lower(d.projectName), "", 0);
  }

  /** With an empty search, 'all' template and model filters and a date
      filter passing everything, the whole list is shown. */
  lemma {:induction false} NoFilterKeepsAll(docs: seq<HistoryDoc>, dateOk: DateFilter)
    requires forall d :: dateOk(d)
    ensures FilterDocs(docs, Filters("", "all", "all"), dateOk) == docs
  {
    if docs != [] {
      EmptySearchMatches(docs[0]);
      NoFilterKeepsAll(docs[1..], dateOk);
    }
  }

  // ---------------------------------------------------------------------
  // Pagination

  /** `slice(page * rows, page * rows + rows)`, clipped to the list. */
  function PageOf<T>(xs: seq<T>, page: nat, rows: nat): (r: seq<T>)
    ensures |r| <= rows
    ensures forall i :: 0 <= i < |r| ==> page * rows + i < |xs| && r[i] == xs[page * rows + i]
    ensures page * rows + rows <= |xs| ==> |r| == rows
    ensures page * rows < |xs| ==> |r| > 0 || rows == 0
  {
    var start := page * rows;
    if start >= |xs| then []
    else xs[start..if start + rows < |xs| then start + rows else |xs|]
  }

  lemma FactorLess(k: nat, x: nat, y: nat)
    requires k > 0 && k * x < k * y
    ensures x < y
  {
    assert k * y - k * x == k * (y - x);
  }

  /** Each row of the filtered list appears on page `i / rows`, as its
      entry `i % rows`. */
  lemma RowOnItsPage<T>(xs: seq<T>, rows: nat, i: nat)
    requires rows > 0 && i < |xs|
    ensures i % rows < |PageOf(xs, i / rows, rows)| && PageOf(xs, i / rows, rows)[i % rows] == xs[i]
  {
    var q, r := i / rows, i % rows;
    var start := q * rows;
    assert i == start + r && r < rows;
    var pg := PageOf(xs, q, rows);
    assert start < |xs|;
    assert pg == xs[start..if start + rows < |xs| then start + rows else |xs|];
  }

  /** No other page covers row `i`. */
  lemma RowOnOnePage(rows: nat, i: nat, p: nat)
    requires rows > 0 && p * rows <= i < p * rows + rows
    ensures p == i / rows
  {
    var q, r := i / rows, i % rows;
    assert i == q * rows + r && 0 <= r < rows;
    assert rows * q < rows * (p + 1);
    FactorLess(rows, q, p + 1);
    assert rows * p < rows * (q + 1);
    FactorLess(rows, p, q + 1);
  }

  // ---------------------------------------------------------------------
  // Selection and deletion

  /** `xs.filter(y => y !== x)`. */
  function Without(xs: seq<string>, x: string): (r: seq<string>)
    ensures IsSubseq(r, xs)
    ensures forall y :: y in r <==> y in xs && y != x
  {
    if xs == [] then []
    else if xs[0] != x then [xs[0]] + Without(xs[1..], x)
    else
      var rest := Without(xs[1..], x);
      assert rest != [] ==> rest[0] in rest && rest[0] != xs[0];
      rest
  }

  lemma {:induction false} WithoutAbsent(xs: seq<string>, x: string)
    requires x !in xs
    ensures Without(xs, x) == xs
  {
    if xs != [] {
      WithoutAbsent(xs[1..], x);
    }
  }

  lemma {:induction false} WithoutAppended(xs: seq<string>, x: string)
    requires x !in xs
    ensures Without(xs + [x], x) == xs
  {
    if xs == [] {
      assert [x][1..] == [];
    } else {
      assert (xs + [x])[1..] == xs[1..] + [x];
      WithoutAppended(xs[1..], x);
    }
  }

  /** `handleSelectDocument`: an absent id is appended, a present one is
      removed with all its copies. */
  function Toggle(selected: seq<string>, id: string): (r: seq<string>)
    ensures id !in selected ==> r == selected + [id]
    ensures id in selected ==> id !in r && forall y :: y != id ==> (y in r <==> y in selected)
  {
    if id !in selected then selected + [id] else Without(selected, id)
  }

  /** Toggling twice restores the selected set; when the id was not
      selected it restores the very list. */
  lemma ToggleTwice(selected: seq<string>, id: string)
    ensures forall y :: y in Toggle(Toggle(selected, id), id) <==> y in selected
    ensures id !in selected ==> Toggle(Toggle(selected, id), id) == selected
  {
    if id !in selected {
      WithoutAppended(selected, id);
    }
  }

  /** `handleSelectAllDocuments`: the ids of the filtered documents in
      order when checked, nothing otherwise. */
  function SelectAll(checked: bool, filtered: seq<HistoryDoc>): (r: seq<string>)
    ensures checked ==> |r| == |filtered| && forall i :: 0 <= i < |r| ==> r[i] == filtered[i].id
    ensures !checked ==> r == []
  {
    if checked then seq(|filtered|, i requires 0 <= i < |filtered| => filtered[i].id) else []
  }

  /** The documents without the given id, in order. */
  function WithoutId(docs: seq<HistoryDoc>, id: string): (r: seq<HistoryDoc>)
    ensures IsSubseq(r, docs)
    ensures forall d :: d in r <==> d in docs && d.id != id
  {
    if docs == [] then []
    else if docs[0].id != id then [docs[0]] + WithoutId(docs[1..], id)
    else
      var rest := WithoutId(docs[1..], id);
      assert rest != [] ==> rest[0] != docs[0];
      rest
  }

  /** The documents whose id is not selected, in order. */
  function WithoutIds(docs: seq<HistoryDoc>, ids: seq<string>): (r: seq<HistoryDoc>)
    ensures IsSubseq(r, docs)
    ensures forall d :: d in r <==> d in docs && d.id !in ids
  {
    if docs == [] then []
    else if docs[0].id !in ids then [docs[0]] + WithoutIds(docs[1..], ids)
    else
      var rest := WithoutIds(docs[1..], ids);
      assert rest != [] ==> rest[0] != docs[0];
      rest
  }

  /** The name a document is downloaded under: that of the generated file. */
  function DownloadName(projectName: string): (f: string)
    ensures f == Generator.DesignFileName(projectName)
    ensures EndsWith(f, "-design.md")
  {
    var f := Slug(projectName) + "-design.md";
    assert f[|f| - 10..] == "-design.md";
    f
  }

  /** The page's state. */
  class HistoryView {
    var documents: seq<HistoryDoc>
    var selected: seq<string>
    var page: nat
    var rowsPerPage: nat
    var toDelete: Option<HistoryDoc>
    var dialogOpen: bool

    constructor (documents: seq<HistoryDoc>)
      ensures this.documents == documents && selected == [] && page == 0 && rowsPerPage == 10
      ensures toDelete == None && !dialogOpen
    {
      this.documents := documents;
      selected := [];
      page := 0;
      rowsPerPage := 10;
      toDelete := None;
      dialogOpen := false;
    }

    /** The rows shown under the given filters. */
    function Shown(f: Filters, dateOk: DateFilter): seq<HistoryDoc>
      reads this
    {
      PageOf(FilterDocs(documents, f, dateOk), page, rowsPerPage)
    }

    method ChangePage(newPage: nat)
      modifies this
      ensures page == newPage
      ensures documents == old(documents) && selected == old(selected) && rowsPerPage == old(rowsPerPage)
      ensures toDelete == old(toDelete) && dialogOpen == old(dialogOpen)
    {
      page := newPage;
    }

    /** `handleChangeRowsPerPage`: a new page size starts again at page 0. */
    method ChangeRowsPerPage(rows: nat)
      modifies this
      ensures rowsPerPage == rows && page == 0
      ensures documents == old(documents) && selected == old(selected)
      ensures toDelete == old(toDelete) && dialogOpen == old(dialogOpen)
    {
      rowsPerPage := rows;
      page := 0;
    }

    method SelectDocument(id: string)
      modifies this
      ensures selected == Toggle(old(selected), id)
      ensures documents == old(documents) && page == old(page) && rowsPerPage == old(rowsPerPage)
      ensures toDelete == old(toDelete) && dialogOpen == old(dialogOpen)
    {
      selected := Toggle(selected, id);
    }

    method SelectAllDocuments(checked: bool, f: Filters, dateOk: DateFilter)
      modifies this
      ensures selected == SelectAll(checked, FilterDocs(documents, f, dateOk))
      ensures documents == old(documents) && page == old(page) && rowsPerPage == old(rowsPerPage)
      ensures toDelete == old(toDelete) && dialogOpen == old(dialogOpen)
    {
      selected := SelectAll(checked, FilterDocs(documents, f, dateOk));
    }

    /** Opening the dialog on a row's delete button. */
    method OpenDeleteDialog(doc: Option<HistoryDoc>)
      modifies this
      ensures toDelete == doc && dialogOpen
      ensures documents == old(documents) && selected == old(selected)
      ensures page == old(page) && rowsPerPage == old(rowsPerPage)
    {
      toDelete := doc;
      dialogOpen := true;
    }

    /** `handleDeleteDocument`: a chosen document goes, by id, from the list
        and from the selection; without one, every selected document goes
        and the selection empties. The dialog then closes. */
    method DeleteDocument()
      modifies this
      ensures toDelete == None && !dialogOpen
      ensures old(toDelete).Some? ==>
        documents == WithoutId(old(documents), old(toDelete).value.id) &&
        selected == Without(old(selected), old(toDelete).value.id)
      ensures old(toDelete).None? && old(selected) != [] ==>
        documents == WithoutIds(old(documents), old(selected)) && selected == []
      ensures old(toDelete).None? && old(selected) == [] ==>
        documents == old(documents) && selected == []
      ensures page == old(page) && rowsPerPage == old(rowsPerPage)
    {
      if toDelete.Some? {
        documents := WithoutId(documents, toDelete.value.id);
        selected := Without(selected, toDelete.value.id);
      } else if |selected| > 0 {
        documents := WithoutIds(documents, selected);
        selected := [];
      }
      dialogOpen := false;
      toDelete := None;
    }
  }
}

=== FILE: models.dfy ===
/**
 * The catalogue of Gemini models: a manager that lists the configured
 * models once and caches the list, describes one model with its
 * capabilities, and recommends a model for a kind of task.
 */
module Models {
  import opened Common

  /** One entry of the model list. */
  datatype ModelDescriptor = ModelDescriptor(id: string, name: string, description: string)

  /** The `models` section of the configuration; a field that is absent is `None`. */
  datatype ModelsConfig = ModelsConfig(
    available: Option<seq<ModelDescriptor>>,
    recommended: Option<map<string, string>>)

  datatype Capabilities = Capabilities(
    multimodal: bool,
    codeGeneration: bool,
    longContext: bool,
    streaming: bool,
    maxInputTokens: Option<nat>,
    maxOutputTokens: Option<nat>)

  /** A model's fields together with its capabilities. */
  datatype ModelInfo = ModelInfo(model: ModelDescriptor, capabilities: Capabilities)

  const DefaultModelId := "gemini-2.5-pro"

  /** The list used when the configuration names no models. */
  function DefaultModels(): (ms: seq<ModelDescriptor>)
    ensures |ms| == 2 && ms[0].id == DefaultModelId && ms[1].id == "gemini-2.5-flash"
  {
    [ModelDescriptor("gemini-2.5-pro", "Gemini 2.5 Pro", "Modèle avancé pour le raisonnement complexe"),
     ModelDescriptor("gemini-2.5-flash", "Gemini 2.5 Flash", "Modèle rapide et polyvalent")]
  }

  /** The models a manager lists: `config.models.available` when present,
      even when empty, otherwise the default list. */
  function ConfiguredModels(models: Option<ModelsConfig>): (ms: seq<ModelDescriptor>)
    ensures models.Some? && models.value.available.Some? ==> ms == models.value.available.value
    ensures (models.None? || models.value.available.None?) ==> ms == DefaultModels()
  {
    if models.Some? && models.value.available.Some? then models.value.available.value
    else DefaultModels()
  }

  /** The first model with the given id (`models.find(m => m.id === id)`). */
  function FindById(ms: seq<ModelDescriptor>, id: string): (r: Option<ModelDescriptor>)
    ensures r.None? <==> forall i :: 0 <= i < |ms| ==> ms[i].id != id
    ensures r.Some? ==> exists i :: 0 <= i < |ms| && ms[i] == r.value &&
                          r.value.id == id && forall j :: 0 <= j < i ==> ms[j].id != id
  {
    if ms == [] then None
    else if ms[0].id == id then Some(ms[0])
    else
      var r := FindById(ms[1..], id);
      assert forall i :: 1 <= i < |ms| ==> ms[i] == ms[1..][i - 1];
      if r.Some? then
        var i :| 0 <= i < |ms[1..]| && ms[1..][i] == r.value && r.value.id == id &&
                  forall j :: 0 <= j < i ==> ms[1..][j].id != id;
        assert ms[i + 1] == r.value;
        r
      else r
  }

  /** The five model ids with a capability record of their own. */
  predicate KnownModel(id: string) {
    id == "gemini-2.5-pro" || id == "gemini-2.5-flash" || id == "gemini-2.0-flash" ||
    id == "gemini-1.5-pro" || id == "gemini-1.5-flash"
  }

  const DefaultCapabilities := Capabilities(false, false, false, true, None, None)

  /** `getModelCapabilities(modelId)`: the fixed record of a known id, the
      default record otherwise. */
  function ModelCapabilities(id: string): (c: Capabilities)
    ensures !KnownModel(id) ==> c == DefaultCapabilities
    ensures KnownModel(id) ==> c.multimodal && c.codeGeneration && c.maxInputTokens.Some?
  {
    if id == "gemini-2.5-pro" || id == "gemini-2.5-flash" || id == "gemini-1.5-pro" then
      Capabilities(true, true, true, true, Some(1048576), Some(8192))
    else if id == "gemini-2.0-flash" then
      Capabilities(true, true, false, true, Some(32768), Some(4096))
    else if id == "gemini-1.5-flash" then
      Capabilities(true, true, false, true, Some(32768), Some(2048))
    else DefaultCapabilities
  }

  /** Across the whole table: every model streams, a long context means an
      input window of 1048576 tokens, and the token limits are given exactly
      for the known ids. */
  lemma CapabilitiesTable(id: string)
    ensures ModelCapabilities(id).streaming
    ensures ModelCapabilities(id).longContext <==> ModelCapabilities(id).maxInputTokens == Some(1048576)
    ensures KnownModel(id) <==> ModelCapabilities(id).maxOutputTokens.Some?
    ensures ModelCapabilities(id).longContext ==> ModelCapabilities(id).maxOutputTokens == Some(8192)
  {
  }

  /** The table used when the configuration has no recommendations. */
  function DefaultRecommended(): map<string, string> {
    map["designDoc" := "gemini-2.5-pro", "quickDraft" := "gemini-2.5-flash",
        "codeGeneration" := "gemini-2.5-pro"]
  }

  /** `getRecommendedModel(taskType)`: the configured table, when there is
      one, replaces the default table as a whole; a task type without a
      non-empty entry gets the default model. */
  function RecommendedModel(models: Option<ModelsConfig>, taskType: string): (r: string)
    ensures r != ""
    ensures models.Some? && models.value.recommended.Some? ==>
      var table := models.value.recommended.value;
      r == (if taskType in table && table[taskType] != "" then table[taskType] else DefaultModelId)
    ensures models.None? || models.value.recommended.None? ==>
      r == (if taskType == "quickDraft" then "gemini-2.5-flash" else DefaultModelId)
  {
    var table := if models.Some? && models.value.recommended.Some?
                 then models.value.recommended.value else DefaultRecommended();
    if taskType in table && table[taskType] != "" then table[taskType] else DefaultModelId
  }

  /** Without configuration: drafts go to the flash model, everything else
      to the default model. */
  lemma RecommendedDefaults(taskType: string)
    ensures RecommendedModel(None, taskType) ==
            (if taskType == "quickDraft" then "gemini-2.5-flash" else DefaultModelId)
  {
  }

  /** A configured table is not merged with the default one: a configured
      table without a "quickDraft" entry recommends the default model for
      drafts. */
  lemma RecommendedNotMerged(table: map<string, string>)
    requires "quickDraft" !in table
    ensures RecommendedModel(Some(ModelsConfig(None, Some(table))), "quickDraft") == DefaultModelId
    ensures RecommendedModel(None, "quickDraft") == "gemini-2.5-flash"
  {
  }

  /** The model catalogue of one configuration, with its cached list. */
  class ModelsManager {
    const apiKey: string
    const models: Option<ModelsConfig>
    var cachedModels: Option<seq<ModelDescriptor>>

    /** Only called through `New`, which rejects an empty key. */
    constructor (apiKey: string, models: Option<ModelsConfig>)
      requires apiKey != ""
      ensures this.apiKey == apiKey && this.models == models && cachedModels.None?
      ensures Valid()
    {
      this.apiKey := apiKey;
      this.models := models;
      cachedModels := None;
    }

    /** The cache, once filled, holds the configured list. */
    ghost predicate Valid()
      reads this
    {
      cachedModels.Some? ==> cachedModels.value == ConfiguredModels(models)
    }

    /** The list `listModels` answers with: the cached list once there is one. */
    function Listed(): (ms: seq<ModelDescriptor>)
      reads this
      ensures cachedModels.Some? ==> ms == cachedModels.value
      ensures cachedModels.None? ==> ms == ConfiguredModels(models)
    {
      if cachedModels.Some? then cachedModels.value else ConfiguredModels(models)
    }

    /** `listModels()`: answers the cached list if there is one; otherwise
        computes the configured list and caches it. */
    method ListModels() returns (ms: seq<ModelDescriptor>)
      requires Valid()
      modifies this
      ensures Valid()
      ensures ms == old(Listed()) == ConfiguredModels(models)
      ensures cachedModels == Some(ms)
    {
      if cachedModels.Some? {
        ms := cachedModels.value;
      } else {
        ms := ConfiguredModels(models);
        cachedModels := Some(ms);
      }
    }

    /** `getModelInfo(modelId)`: the listed model with that id, with its
        capabilities, or a wrapped "not found" error. */
    method GetModelInfo(modelId: string) returns (r: Result<ModelInfo>)
      requires Valid()
      modifies this
      ensures Valid()
      ensures cachedModels == Some(old(Listed()))
      ensures r == InfoFrom(old(Listed()), modelId)
    {
      var ms := ListModels();
      var m := FindById(ms, modelId);
      if m.None? {
        r := Err("Failed to get model info: Model " + modelId + " not found");
      } else {
        r := Ok(ModelInfo(m.value, ModelCapabilities(modelId)));
      }
    }
  }

  /** The answer of `getModelInfo` over a given list of models. */
  function InfoFrom(ms: seq<ModelDescriptor>, modelId: string): (r: Result<ModelInfo>)
    ensures r.Err? <==> forall i :: 0 <= i < |ms| ==> ms[i].id != modelId
    ensures r.Err? ==> r.msg == "Failed to get model info: Model " + modelId + " not found"
    ensures r.Ok? ==> r.value.model.id == modelId && r.value.model in ms &&
                      r.value.capabilities == ModelCapabilities(modelId)
  {
    var m := FindById(ms, modelId);
    if m.None? then Err("Failed to get model info: Model " + modelId + " not found")
    else Ok(ModelInfo(m.value, ModelCapabilities(modelId)))
  }

  /** `new ModelsManager(apiKey, config)`: an empty key throws. */
  method New(apiKey: string, models: Option<ModelsConfig>) returns (r: Result<ModelsManager>)
    ensures r.Err? <==> apiKey == ""
    ensures r.Err? ==> r.msg == "Gemini API key is required"
    ensures r.Ok? ==> fresh(r.value) && r.value.apiKey == apiKey &&
                      r.value.models == models && r.value.cachedModels.None? && r.value.Valid()
  {
    if apiKey == "" {
      r := Err("Gemini API key is required");
    } else {
      var m := new ModelsManager(apiKey, models);
      r := Ok(m);
    }
  }

  /** The part of the application configuration a manager is created from:
      the Gemini key (empty when absent) and the `models` section. */
  datatype ManagerConfig = ManagerConfig(geminiApiKey: Option<string>, models: Option<ModelsConfig>)

  /** `createModelsManager(config)`: needs `config.gemini.apiKey`. */
  method CreateModelsManager(config: Option<ManagerConfig>) returns (r: Result<ModelsManager>)
    ensures r.Err? <==> config.None? || config.value.geminiApiKey.None? || config.value.geminiApiKey.value == ""
    ensures r.Err? ==> r.msg == "Gemini API key is required in config"
    ensures r.Ok? ==> fresh(r.value) && r.value.apiKey == config.value.geminiApiKey.value &&
                      r.value.models == config.value.models && r.value.cachedModels.None? &&
                      r.value.Valid()
  {
    if config.None? || config.value.geminiApiKey.None? || config.value.geminiApiKey.value == "" {
      r := Err("Gemini API key is required in config");
    } else {
      r := New(config.value.geminiApiKey.value, config.value.models);
    }
  }

  /** Listing twice answers the same list, whatever was cached before. */
  method ListTwice(m: ModelsManager) returns (first: seq<ModelDescriptor>, second: seq<ModelDescriptor>)
    requires m.Valid()
    modifies m
    ensures first == second == old(m.Listed())
  {
    first := m.ListModels();
    second := m.ListModels();
  }
}

=== FILE: placeholders.dfy ===
/**
 * Placeholder substitution in design-document templates: every `{{KEY}}` of
 * a template is replaced by a value, one key after the other, each key in a
 * single global left-to-right pass.
 */
module Placeholders {
  import opened Text

  /** One entry of the values object, in its enumeration order. */
  datatype Entry = Entry(key: string, value: string)

  function Placeholder(key: string): (r: string)
    ensures |r| == |key| + 4
    ensures StartsWith(r, "{{") && EndsWith(r, "}}")
  {
    "{{" + key + "}}"
  }

  // ---------------------------------------------------------------------
  // One pass of one key: `s.replace(/p/g, v)` is `s.split(p).join(v)`.

  /** The pieces between the occurrences that a left-to-right global match
      of `p` finds (`s.split(p)`). */
  function Pieces(s: string, p: string): (r: seq<string>)
    requires |p| > 0
    ensures |r| >= 1
    decreases |s|
  {
    if |s| < |p| then [s]
    else if s[..|p|] == p then [""] + Pieces(s[|p|..], p)
    else
      var rest := Pieces(s[1..], p);
      [[s[0]] + rest[0]] + rest[1..]
  }

  /** Gluing the pieces back with the pattern gives the text. */
  lemma {:induction false} PiecesJoin(s: string, p: string)
    requires |p| > 0
    ensures Join(Pieces(s, p), p) == s
    decreases |s|
  {
    if |s| < |p| {
    } else if s[..|p|] == p {
      var tail := s[|p|..];
      var rest := Pieces(tail, p);
      assert Pieces(s, p) == [""] + rest;
      PiecesJoin(tail, p);
      JoinCons("", rest, p);
      assert s == s[..|p|] + tail;
    } else {
      var tail := s[1..];
      var rest := Pieces(tail, p);
      assert Pieces(s, p) == [[s[0]] + rest[0]] + rest[1..];
      PiecesJoin(tail, p);
      JoinHead([s[0]], rest, p);
      assert s == [s[0]] + tail;
    }
  }

  /** Joining with a separator after a leading element. */
  lemma JoinCons(x: string, rest: seq<string>, sep: string)
    requires |rest| >= 1
    ensures Join([x] + rest, sep) == x + sep + Join(rest, sep)
  {
    assert ([x] + rest)[1..] == rest;
  }

  /** Prefixing the first element prefixes the join. */
  lemma JoinHead(c: string, rest: seq<string>, sep: string)
    requires |rest| >= 1
    ensures Join([c + rest[0]] + rest[1..], sep) == c + Join(rest, sep)
  {
    var xs := [c + rest[0]] + rest[1..];
    if |rest| > 1 {
      assert xs[1..] == rest[1..];
    }
  }

  /** No piece holds an occurrence of the pattern: every occurrence the scan
      meets is consumed as a separator. */
  lemma {:induction false} PiecesClean(s: string, p: string)
    requires |p| > 0
    ensures forall i :: 0 <= i < |Pieces(s, p)| ==> !Contains(Pieces(s, p)[i], p)
    decreases |s|
  {
    var r := Pieces(s, p);
    if |s| < |p| {
      if Contains(s, p) {
        var k := IndexOf(s, p);
        assert false;
      }
    } else if s[..|p|] == p {
      PiecesClean(s[|p|..], p);
      assert r == [""] + Pieces(s[|p|..], p);
      forall i | 0 <= i < |r| ensures !Contains(r[i], p) {
        if i == 0 {
          assert !At("", p, IndexOf("", p));
        } else {
          assert r[i] == Pieces(s[|p|..], p)[i - 1];
        }
      }
    } else {
      PiecesClean(s[1..], p);
      var rest := Pieces(s[1..], p);
      PiecesJoin(s[1..], p);
      var head := [s[0]] + rest[0];
      forall i | 0 <= i < |r| ensures !Contains(r[i], p) {
        if i == 0 {
          HeadClean(s, p, rest);
        } else {
          assert r[i] == rest[i];
        }
      }
    }
  }

  lemma HeadClean(s: string, p: string, rest: seq<string>)
    requires |p| > 0 && |s| >= |p| && s[..|p|] != p
    requires |rest| >= 1 && Join(rest, p) == s[1..]
    requires !Contains(rest[0], p)
    ensures !Contains([s[0]] + rest[0], p)
  {
    var r0 := rest[0];
    var h := [s[0]] + r0;
    JoinPrefix(rest, p);
    assert s[1..][..|r0|] == r0;
    assert forall j :: 0 <= j < |r0| ==> r0[j] == s[j + 1];
    forall k ensures !At(h, p, k) {
      if At(h, p, k) && k > 0 {
        assert r0[k - 1..k - 1 + |p|] == h[k..k + |p|];
        ContainsAt(r0, p, k - 1);
      }
    }
  }

  lemma JoinPrefix(xs: seq<string>, sep: string)
    requires |xs| >= 1
    ensures |xs[0]| <= |Join(xs, sep)| && Join(xs, sep)[..|xs[0]|] == xs[0]
  {
  }

  /** A global replace of `p` by `v` (`s.replace(/p/g, v)` with a literal
      `p` and a `$`-free `v`) is the split on `p` joined with `v`. */
  lemma {:induction false} ReplaceAllIsPiecesJoin(s: string, p: string, v: string)
    requires |p| > 0
    ensures ReplaceAll(s, p, v) == Join(Pieces(s, p), v)
    decreases |s|
  {
    if |s| < |p| {
    } else if s[..|p|] == p {
      ReplaceAllIsPiecesJoin(s[|p|..], p, v);
      JoinCons("", Pieces(s[|p|..], p), v);
    } else {
      ReplaceAllIsPiecesJoin(s[1..], p, v);
      JoinHead([s[0]], Pieces(s[1..], p), v);
    }
  }

  /** Without an occurrence of the pattern a pass changes nothing. */
  lemma {:induction false} ReplaceAllAbsent(s: string, p: string, v: string)
    requires |p| > 0 && !Contains(s, p)
    ensures ReplaceAll(s, p, v) == s
    decreases |s|
  {
    if |s| >= |p| {
      if s[..|p|] == p {
        ContainsAt(s, p, 0);
        assert false;
      }
      if Contains(s[1..], p) {
        var k := IndexOf(s[1..], p);
        AtTail(s, p, k + 1);
        ContainsAt(s, p, k + 1);
        assert false;
      }
      ReplaceAllAbsent(s[1..], p, v);
      assert s == [s[0]] + s[1..];
    }
  }

  /** Each of the k occurrences replaced changes the length by |v| - |p|. */
  lemma {:induction false} ReplaceAllLength(s: string, p: string, v: string)
    requires |p| > 0
    ensures |ReplaceAll(s, p, v)| == |s| + Count(s, p) * (|v| - |p|)
    decreases |s|
  {
    var d := |v| - |p|;
    if |s| < |p| {
      assert ReplaceAll(s, p, v) == s && Count(s, p) == 0;
    } else if s[..|p|] == p {
      var tail := s[|p|..];
      ReplaceAllLength(tail, p, v);
      var c := Count(tail, p);
      assert ReplaceAll(s, p, v) == v + ReplaceAll(tail, p, v);
      assert Count(s, p) == 1 + c;
      MulSucc(c, d);
    } else {
      var tail := s[1..];
      ReplaceAllLength(tail, p, v);
      assert ReplaceAll(s, p, v) == [s[0]] + ReplaceAll(tail, p, v);
      assert Count(s, p) == Count(tail, p);
    }
  }

  lemma MulSucc(c: int, d: int)
    ensures (1 + c) * d == d + c * d
  {
  }

  /** Text produced by the value is not scanned again in the same pass. */
  lemma ReplaceAllSkipsValue(p: string, v: string, s: string)
    requires |p| > 0
    ensures ReplaceAll(p + s, p, v) == v + ReplaceAll(s, p, v)
  {
    assert (p + s)[..|p|] == p;
    assert (p + s)[|p|..] == s;
  }

  // ---------------------------------------------------------------------
  // The whole mapping

  /** The entries applied in order: the pass of the last entry runs on the
      result of all earlier ones. */
  function ApplyEntries(t: string, es: seq<Entry>): (r: string)
    decreases |es|
  {
    if es == [] then t
    else
      var last := es[|es| - 1];
      ReplaceAll(ApplyEntries(t, es[..|es| - 1]), Placeholder(last.key), last.value)
  }

  /** `replaceTemplateValues(template, values)`: one global replace per
      entry, reassigning the running result. */
  method ReplaceTemplateValues(template: string, values: seq<Entry>) returns (result: string)
    ensures result == ApplyEntries(template, values)
  {
    result := template;
    for i := 0 to |values|
      invariant result == ApplyEntries(template, values[..i])
    {
      assert values[..i + 1][..i] == values[..i];
      result := ReplaceAll(result, Placeholder(values[i].key), values[i].value);
    }
    assert values[..|values|] == values;
  }

  /** A template holding none of the keys' placeholders comes back
      unchanged; in particular the empty mapping changes nothing. */
  lemma {:induction false} ApplyEntriesUntouched(t: string, es: seq<Entry>)
    requires forall i :: 0 <= i < |es| ==> !Contains(t, Placeholder(es[i].key))
    ensures ApplyEntries(t, es) == t
    decreases |es|
  {
    if es != [] {
      var init := es[..|es| - 1];
      assert forall i :: 0 <= i < |init| ==> init[i] == es[i];
      ApplyEntriesUntouched(t, init);
      ReplaceAllAbsent(t, Placeholder(es[|es| - 1].key), es[|es| - 1].value);
    }
  }

  /** Applying a mapping in two parts is applying it whole: each key sees
      the result of every earlier key. */
  lemma {:induction false} ApplyEntriesAppend(t: string, a: seq<Entry>, b: seq<Entry>)
    ensures ApplyEntries(t, a + b) == ApplyEntries(ApplyEntries(t, a), b)
    decreases |b|
  {
    if b == [] {
      assert a + b == a;
    } else {
      var ab := a + b;
      assert ab[..|ab| - 1] == a + b[..|b| - 1];
      assert ab[|ab| - 1] == b[|b| - 1];
      ApplyEntriesAppend(t, a, b[..|b| - 1]);
    }
  }

  /** With a single key the length moves by k * (|value| - |{{KEY}}|). */
  lemma SingleKeyLength(t: string, key: string, value: string)
    ensures var k := Count(t, Placeholder(key));
      |ApplyEntries(t, [Entry(key, value)])| == |t| + k * (|value| - (|key| + 4))
  {
    var es := [Entry(key, value)];
    assert es[..0] == [];
    ReplaceAllLength(t, Placeholder(key), value);
  }

  /** Substituting is not idempotent: a value can complete a placeholder
      that a second pass then replaces. */
  lemma SubstitutionNotIdempotent()
    ensures var es := [Entry("K", "K")];
      ApplyEntries("{{{{K}}}}", es) == "{{K}}" &&
      ApplyEntries(ApplyEntries("{{{{K}}}}", es), es) == "K"
  {
    var es := [Entry("K", "K")];
    assert es[..0] == [];
    var p := Placeholder("K");
    assert p == "{{K}}";
    assert "{{{{K}}}}" == "{{" + p + "}}";
    assert ReplaceAll("}}", p, "K") == "}}";
    assert ReplaceAll(p + "}}", p, "K") == "K}}" by {
      ReplaceAllSkipsValue(p, "K", "}}");
    }
    assert ReplaceAll("{" + p + "}}", p, "K") == "{K}}" by {
      assert ("{" + p + "}}")[1..] == p + "}}";
      assert ("{" + p + "}}")[..|p|][2] != p[2];
    }
    assert ReplaceAll("{{" + p + "}}", p, "K") == "{{K}}" by {
      assert ("{{" + p + "}}")[1..] == "{" + p + "}}";
      assert ("{{" + p + "}}")[..|p|][2] != p[2];
    }
    assert ReplaceAll(p, p, "K") == "K" by {
      ReplaceAllSkipsValue(p, "K", "");
      assert p + "" == p;
    }
  }

  // ---------------------------------------------------------------------
  // Sample values of the template preview

  const SampleProjectName := "Exemple de Projet"
  const SampleDescription := "Description du projet exemple"
  const SampleFeatureList := "- Fonctionnalité 1\n- Fonctionnalité 2\n- Fonctionnalité 3"
  const SampleAuthor := "John Doe"

  /** The five sample substitutions of a template preview, in their order;
      the date is the caller's formatted current date. */
  function PreviewEntries(date: string): (es: seq<Entry>)
    ensures |es| == 5
    ensures es[0].key == "PROJECT_NAME" && es[4] == Entry("DATE", date)
  {
    [Entry("PROJECT_NAME", SampleProjectName),
     Entry("DESCRIPTION", SampleDescription),
     Entry("FEATURE_LIST", SampleFeatureList),
     Entry("AUTHOR", SampleAuthor),
     Entry("DATE", date)]
  }

  /** A preview of a template: all occurrences of the five placeholders
      replaced by sample values. */
  function Preview(content: string, date: string): (r: string)
  {
    ApplyEntries(content, PreviewEntries(date))
  }

  /** The preview of a template holding none of the five placeholders is
      the template itself. */
  lemma PreviewUntouched(content: string, date: string)
    requires !Contains(content, Placeholder("PROJECT_NAME")) && !Contains(content, Placeholder("DESCRIPTION"))
    requires !Contains(content, Placeholder("FEATURE_LIST")) && !Contains(content, Placeholder("AUTHOR"))
    requires !Contains(content, Placeholder("DATE"))
    ensures Preview(content, date) == content
  {
    var es := PreviewEntries(date);
    assert es[0].key == "PROJECT_NAME" && es[1].key == "DESCRIPTION" && es[2].key == "FEATURE_LIST";
    assert es[3].key == "AUTHOR" && es[4].key == "DATE";
    ApplyEntriesUntouched(content, es);
  }

  /** The project name placeholder becomes the sample project name. */
  lemma PreviewOfTitle(date: string)
    ensures Preview(Placeholder("PROJECT_NAME"), date) == SampleProjectName
  {
    var es := PreviewEntries(date);
    var p := Placeholder("PROJECT_NAME");
    var first, rest := es[..1], es[1..];
    assert first == [Entry("PROJECT_NAME", SampleProjectName)];
    assert first[..0] == [];
    ReplaceAllSkipsValue(p, SampleProjectName, "");
    assert p + "" == p;
    assert ApplyEntries(p, first) == SampleProjectName;
    assert es == first + rest;
    ApplyEntriesAppend(p, first, rest);
    forall i | 0 <= i < |rest| ensures !Contains(SampleProjectName, Placeholder(rest[i].key)) {
      NoBraces(SampleProjectName, rest[i].key);
    }
    ApplyEntriesUntouched(SampleProjectName, rest);
  }

  /** A text without '{' holds no placeholder. */
  lemma NoBraces(s: string, key: string)
    requires '{' !in s
    ensures !Contains(s, Placeholder(key))
  {
    var ph := Placeholder(key);
    assert ph[0] == '{';
    forall k | 0 <= k && k + |ph| <= |s| ensures !At(s, ph, k) {
      assert s[k..k + |ph|][0] == s[k] != '{';
    }
  }
}

=== FILE: preview_service.dfy ===
/**
 * The front end's preview service: the simulated design document shown
 * while a form is being filled in, and the cache of previews keyed by the
 * form's parameters with the description and each feature truncated.
 * Absent parameters (`undefined`) are `None`; the 300 ms delay and the
 * debounced variant are timers and are not modelled.
 */
module PreviewService {
  import opened Common
  import opened Text
  import Gemini
  import DocsController

  // ---------------------------------------------------------------------
  // The preview document (shared with the generation page)

  const ArchitectureHeading := "\n\n## \U{1F3D7}\U{FE0F} Architecture\n\n"

  function TemplateLine(template: string): string {
    "Cette section sera générée en fonction du template " + template + "."
  }

  const PreviewTail :=
    "\n\n### Structures de Données Principales\n\n#### Structure 1\n```typescript\n" +
    "interface ExampleStructure {\n  id: string;\n  name: string;\n  description: string;\n  createdAt: Date;\n}\n```\n\n" +
    "### Diagramme de flux\n\n```mermaid\nflowchart TD\n    start[Start] --> process[Process]\n" +
    "    process --> decision{Decision}\n    decision -->|Yes| end[End]\n    decision -->|No| process\n```\n\n" +
    "## \U{1F4CA} Métriques et Monitoring\n\n- Métrique 1: Description de la métrique\n" +
    "- Métrique 2: Description de la métrique\n- Métrique 3: Description de la métrique\n\n" +
    "## \U{1F680} Plan d'Implémentation\n\n### Phase 1: Foundation\n1. Tâche 1\n2. Tâche 2\n3. Tâche 3\n\n" +
    "### Phase 2: Développement\n1. Tâche 1\n2. Tâche 2\n3. Tâche 3\n"

  /** The pieces of a preview: title, objectives, feature list and the
      architecture section naming the template, then the fixed rest. */
  function PreviewParts(title: string, objective: string, featureList: string, template: string): (ps: seq<string>)
    ensures |ps| == 8
  {
    [DocsController.DocTitle(title), DocsController.ObjectivesSection, objective, DocsController.FeaturesSection,
     featureList, ArchitectureHeading, TemplateLine(template), PreviewTail]
  }

  function PreviewDocument(title: string, objective: string, featureList: string, template: string): string {
    Concat(PreviewParts(title, objective, featureList, template))
  }

  /** A preview opens with its title line and carries the objective, the
      feature list and the template line verbatim. */
  lemma PreviewCarries(title: string, objective: string, featureList: string, template: string)
    ensures var d := PreviewDocument(title, objective, featureList, template);
      StartsWith(d, DocsController.DocTitle(title)) &&
      Contains(d, objective) && Contains(d, featureList) && Contains(d, TemplateLine(template))
  {
    var ps := PreviewParts(title, objective, featureList, template);
    assert Concat(ps) == ps[0] + Concat(ps[1..]);
    ConcatContains(ps, 2);
    ConcatContains(ps, 4);
    ConcatContains(ps, 6);
  }

  // ---------------------------------------------------------------------
  // Service content

  datatype PreviewParams = PreviewParams(
    projectName: Option<string>, description: Option<string>,
    features: Option<seq<string>>, template: Option<string>)

  /** `x || fallback` on an optional string: absent and empty are falsy. */
  function OrElse(x: Option<string>, fallback: string): (r: string)
    ensures x.Some? && x.value != "" ==> r == x.value
    ensures x.None? || x.value == "" ==> r == fallback
  {
    if x.Some? && x.value != "" then x.value else fallback
  }

  /** One bullet per feature, or the two default bullets when the list is
      absent or empty. */
  function ServiceFeatureList(features: Option<seq<string>>): (t: string)
    ensures features.Some? && features.value != [] ==> t == Gemini.FeaturesText(features.value)
    ensures features.None? || features.value == [] ==> t == DocsController.DefaultFeatureLines
  {
    if features.Some? && |features.value| > 0 then Gemini.FeaturesText(features.value)
    else DocsController.DefaultFeatureLines
  }

  function ServiceContent(p: PreviewParams): string {
    PreviewDocument(OrElse(p.projectName, "Projet"),
                    OrElse(p.description, "Description du projet " + OrElse(p.projectName, "Exemple")),
                    ServiceFeatureList(p.features),
                    OrElse(p.template, "sélectionné"))
  }

  // ---------------------------------------------------------------------
  // Cache key

  const DescriptionKeyLength := 100
  const FeatureKeyLength := 50

  /** The fields `generateCacheKey` serialises; two keys are the same
      string exactly when these fields are equal. */
  datatype CacheKey = CacheKey(
    projectName: Option<string>, description: Option<string>,
    features: Option<seq<string>>, template: Option<string>)

  function TruncatedFeatures(fs: seq<string>): (ts: seq<string>)
    ensures |ts| == |fs|
    ensures forall i :: 0 <= i < |fs| ==> ts[i] == Prefix(fs[i], FeatureKeyLength)
  {
    seq(|fs|, i requires 0 <= i < |fs| => Prefix(fs[i], FeatureKeyLength))
  }

  function KeyOf(p: PreviewParams): CacheKey {
    CacheKey(p.projectName,
             if p.description.Some? then Some(Prefix(p.description.value, DescriptionKeyLength)) else None,
             if p.features.Some? then Some(TruncatedFeatures(p.features.value)) else None,
             p.template)
  }

  /** Two parameter sets share a key exactly when they agree on the
      project name and the template, on the first 100 characters of the
      description and on the first 50 characters of each feature. */
  lemma KeyIff(p: PreviewParams, q: PreviewParams)
    ensures KeyOf(p) == KeyOf(q) <==>
      p.projectName == q.projectName && p.template == q.template &&
      p.description.Some? == q.description.Some? &&
      (p.description.Some? ==> Prefix(p.description.value, 100) == Prefix(q.description.value, 100)) &&
      p.features.Some? == q.features.Some? &&
      (p.features.Some? ==>
        |p.features.value| == |q.features.value| &&
        forall i :: 0 <= i < |p.features.value| ==>
          Prefix(p.features.value[i], 50) == Prefix(q.features.value[i], 50))
  {
    if p.features.Some? && q.features.Some? {
      var a, b := TruncatedFeatures(p.features.value), TruncatedFeatures(q.features.value);
      if |a| == |b| && forall i :: 0 <= i < |a| ==> a[i] == b[i] {
        assert a == b;
      }
    }
  }

  /** Text past the 100th character of the description does not reach the
      key. */
  lemma DescriptionTailIgnored(p: PreviewParams, d: string, tail1: string, tail2: string)
    requires |d| == DescriptionKeyLength
    ensures KeyOf(p.(description := Some(d + tail1))) == KeyOf(p.(description := Some(d + tail2)))
  {
    assert (d + tail1)[..100] == d == (d + tail2)[..100];
  }

  // ---------------------------------------------------------------------
  // Cache

  /** What `generatePreview` answers and the cache it leaves. */
  function Step(cache: map<CacheKey, string>, p: PreviewParams): (string, map<CacheKey, string>) {
    var k := KeyOf(p);
    if k in cache then (cache[k], cache) else (ServiceContent(p), cache[k := ServiceContent(p)])
  }

  /** A cached preview belongs to its key: it opens with the key's project
      title and names the key's template. */
  predicate CachedFor(k: CacheKey, content: string) {
    StartsWith(content, DocsController.DocTitle(OrElse(k.projectName, "Projet"))) &&
    Contains(content, TemplateLine(OrElse(k.template, "sélectionné")))
  }

  predicate CacheValid(cache: map<CacheKey, string>) {
    forall k :: k in cache ==> CachedFor(k, cache[k])
  }

  /** A step keeps every entry, adds the request's key, and answers the
      stored preview on a hit and the freshly built one on a miss; a valid
      cache stays valid and every answer belongs to the request. */
  lemma StepSpec(cache: map<CacheKey, string>, p: PreviewParams)
    ensures var (content, next) := Step(cache, p);
      next.Keys == cache.Keys + {KeyOf(p)} &&
      (forall k :: k in cache ==> next[k] == cache[k]) &&
      (KeyOf(p) in cache ==> content == cache[KeyOf(p)]) &&
      (KeyOf(p) !in cache ==> content == ServiceContent(p) && next[KeyOf(p)] == content) &&
      (CacheValid(cache) ==> CacheValid(next) && CachedFor(KeyOf(p), content))
  {
    var k := KeyOf(p);
    PreviewCarries(OrElse(p.projectName, "Projet"),
                   OrElse(p.description, "Description du projet " + OrElse(p.projectName, "Exemple")),
                   ServiceFeatureList(p.features), OrElse(p.template, "sélectionné"));
  }

  /** Two requests with the same key get the same content: the second one
      is answered from the cache, whatever it differs in past the
      truncation points. */
  lemma {:induction false} SameKeySameContent(cache: map<CacheKey, string>, p: PreviewParams, q: PreviewParams)
    requires KeyOf(p) == KeyOf(q)
    ensures Step(Step(cache, p).1, q).0 == Step(cache, p).0
    ensures Step(Step(cache, p).1, q).1 == Step(cache, p).1
  {
    StepSpec(cache, p);
  }

  /** The module-level `previewCache`. */
  class PreviewCache {
    var cache: map<CacheKey, string>

    ghost predicate Valid()
      reads this
    {
      CacheValid(cache)
    }

    constructor ()
      ensures cache == map[] && Valid()
    {
      cache := map[];
    }

    /** `generatePreview`: a hit answers the stored content; a miss builds
        the preview, stores it under the key and answers it. */
    method GeneratePreview(p: PreviewParams) returns (content: string)
      requires Valid()
      modifies this
      ensures Valid()
      ensures (content, cache) == Step(old(cache), p)
      ensures CachedFor(KeyOf(p), content)
      ensures old(cache).Keys <= cache.Keys
    {
      StepSpec(cache, p);
      var key := KeyOf(p);
      if key in cache {
        return cache[key];
      }
      content := ServiceContent(p);
      cache := cache[key := content];
    }
  }
}

=== FILE: settings_page.dfy ===
/**
 * The settings page's state changes: adding, removing and switching MCP
 * servers, and resetting every setting to its initial value. Each handler
 * builds the new list from the old one. The temperature is kept in tenths
 * (0.2 is 2) because the model has no floating point.
 */
module SettingsPage {
  import opened Common
  import opened Text

  datatype McpServer = McpServer(id: string, name: string, url: string, enabled: bool)

  datatype Settings = Settings(
    apiKey: string, defaultModel: string, temperatureTenths: int, maxTokens: nat,
    mcpServers: seq<McpServer>, theme: string, language: string, dateFormat: string,
    defaultTemplate: string, outputFormat: string, outputPath: string)

  /** The state the page starts from. */
  function InitialSettings(): (s: Settings)
    ensures |s.mcpServers| == 2 && s.apiKey == ""
  {
    Settings("", "gemini-2.5-pro", 2, 8192,
      [McpServer("pocketflow", "PocketFlow Docs", "https://gitmcp.io/The-Pocket/PocketFlow", true),
       McpServer("pocketflow-python", "PocketFlow-Template-Python Docs", "https://gitmcp.io/The-Pocket/PocketFlow-Template-Python", true)],
      "system", "fr", "DD/MM/YYYY", "pocketflow", "markdown", "./output")
  }

  /** `handleResetSettings`: every setting is set back, field by field. */
  function ResetSettings(current: Settings): (s: Settings)
    ensures s.apiKey == "" && s.defaultModel == "gemini-2.5-pro" && s.maxTokens == 8192
  {
    current.(apiKey := "", defaultModel := "gemini-2.5-pro", temperatureTenths := 2, maxTokens := 8192,
             mcpServers := [McpServer("pocketflow", "PocketFlow Docs", "https://gitmcp.io/The-Pocket/PocketFlow", true),
                            McpServer("pocketflow-python", "PocketFlow-Template-Python Docs", "https://gitmcp.io/The-Pocket/PocketFlow-Template-Python", true)],
             theme := "system", language := "fr", dateFormat := "DD/MM/YYYY", defaultTemplate := "pocketflow",
             outputFormat := "markdown", outputPath := "./output")
  }

  /** Whatever was changed, a reset gives back the initial settings,
      including the two default servers. */
  lemma ResetRestoresInitial(current: Settings)
    ensures ResetSettings(current) == InitialSettings()
  {
  }

  /** The new-server dialog's fields. */
  datatype ServerDialog = ServerDialog(open: bool, name: string, url: string)

  /** `handleAddMcpServer`: without a name or a URL nothing changes;
      otherwise an enabled server whose id is the slug of its name is
      appended, and the dialog closes with its fields cleared. */
  function AddMcpServer(servers: seq<McpServer>, dialog: ServerDialog): (r: (seq<McpServer>, ServerDialog))
    ensures dialog.name == "" || dialog.url == "" ==> r == (servers, dialog)
    ensures dialog.name != "" && dialog.url != "" ==>
      r.0 == servers + [McpServer(Slug(dialog.name), dialog.name, dialog.url, true)] &&
      r.1 == ServerDialog(false, "", "") && NoSpace(r.0[|servers|].id) && r.0[|servers|].id != ""
  {
    if dialog.name == "" || dialog.url == "" then (servers, dialog)
    else (servers + [McpServer(Slug(dialog.name), dialog.name, dialog.url, true)], ServerDialog(false, "", ""))
  }

  /** `handleRemoveMcpServer`: every server with the id goes; the others
      keep their order. */
  function RemoveMcpServer(servers: seq<McpServer>, id: string): (r: seq<McpServer>)
    ensures IsSubseq(r, servers)
    ensures forall s :: s in r <==> s in servers && s.id != id
  {
    if servers == [] then []
    else if servers[0].id != id then [servers[0]] + RemoveMcpServer(servers[1..], id)
    else
      var rest := RemoveMcpServer(servers[1..], id);
      assert rest != [] ==> rest[0] in rest && rest[0] != servers[0];
      rest
  }

  /** `handleToggleMcpServer`: every server with the id is switched; the
      length, the order and all other fields stay. */
  function ToggleMcpServer(servers: seq<McpServer>, id: string): (r: seq<McpServer>)
    ensures |r| == |servers|
    ensures forall i :: 0 <= i < |r| ==>
      r[i].id == servers[i].id && r[i].name == servers[i].name && r[i].url == servers[i].url &&
      r[i].enabled == (if servers[i].id == id then !servers[i].enabled else servers[i].enabled)
  {
    seq(|servers|, i requires 0 <= i < |servers| =>
      if servers[i].id == id then servers[i].(enabled := !servers[i].enabled) else servers[i])
  }

  /** Switching the same id twice restores the list. */
  lemma ToggleTwiceRestores(servers: seq<McpServer>, id: string)
    ensures ToggleMcpServer(ToggleMcpServer(servers, id), id) == servers
  {
    var r := ToggleMcpServer(ToggleMcpServer(servers, id), id);
    forall i | 0 <= i < |servers| ensures r[i] == servers[i] {
    }
  }

  /** Removing a server just added under a fresh id gives the list back. */
  lemma {:induction false} RemoveUndoesAdd(servers: seq<McpServer>, s: McpServer)
    requires forall t :: t in servers ==> t.id != s.id
    ensures RemoveMcpServer(servers + [s], s.id) == servers
  {
    if servers == [] {
      assert [s][1..] == [];
    } else {
      assert (servers + [s])[1..] == servers[1..] + [s];
      RemoveUndoesAdd(servers[1..], s);
    }
  }

  /** Ids need not be unique: a server whose name is already a lower-case
      word equal to an existing id gets that same id. */
  lemma DuplicateIdsPossible(servers: seq<McpServer>, i: nat, url: string)
    requires i < |servers| && servers[i].id != "" && url != ""
    requires NoSpace(servers[i].id) && IsLower(servers[i].id)
    ensures var r := AddMcpServer(servers, ServerDialog(true, servers[i].id, url)).0;
      |r| == |servers| + 1 && r[i].id == r[|servers|].id
  {
    var name := servers[i].id;
    SlugOfSpaceless(name);
    LowerOfLower(name);
  }

  lemma {:induction false} LowerOfLower(s: string)
    requires IsLower(s)
    ensures Lower(s) == s
  {
    if s != [] {
      LowerOfLower(s[1..]);
    }
  }
}

=== FILE: template_editor.dfy ===
/**
 * The template editor page: the fixture templates it loads by name, the
 * insertion of a placeholder at the text area's selection, the preview
 * with sample values, and the checks and naming of a save. The example
 * template text the fixtures derive from is a parameter; the page's
 * delays and navigation are not modelled.
 */
module TemplateEditor {
  import opened Common
  import opened Text
  import opened Placeholders
  import TemplatesController

  /** A template as the editor holds it. */
  datatype EditorTemplate = EditorTemplate(
    name: string, displayName: string, description: string, content: string, instructions: string)

  /** The heading the 'minimal' fixture is cut before. */
  const NodesHeading := "## \U{1F3D7}\U{FE0F} Architecture des Nœuds PocketFlow"

  const TechniqueTitle := Placeholder("PROJECT_NAME") + " - Documentation Technique"

  const PocketFlowInstructions :=
    "Créer un document de design technique détaillé suivant la structure PocketFlow. Inclus des sections pour les objectifs, l'architecture, les flux de données, les diagrammes et le plan d'implémentation."
  const TechniqueInstructions :=
    "Créer une documentation technique détaillée avec focus sur les aspects techniques et l'implémentation."
  const MinimalInstructions :=
    "Créer un document de design simplifié, focalisé sur les objectifs et les structures de données essentielles."

  /** `s.split(p)[0]`: the text before the first occurrence of `p`, or all
      of it. */
  function Before(s: string, p: string): (r: string)
    ensures |r| <= |s| && r == s[..|r|]
    ensures !Contains(s, p) ==> r == s
    ensures Contains(s, p) ==> |r| == IndexOf(s, p)
  {
    var i := IndexOf(s, p);
    if i == -1 then s else s[..i]
  }

  /** The text kept holds no occurrence of the separator. */
  lemma BeforeHasNoSeparator(s: string, p: string)
    requires |p| > 0
    ensures !Contains(Before(s, p), p)
  {
    var r := Before(s, p);
    if Contains(s, p) {
      forall k | 0 <= k && k + |p| <= |r| ensures !At(r, p, k) {
        assert !At(s, p, k);
        assert r[k..k + |p|] == s[k..k + |p|];
      }
    }
  }

  /** The fixture data of the three known templates, derived from the
      example template text; any other name throws. */
  function FixtureTemplate(name: string, example: string): (r: Result<EditorTemplate>)
    ensures name != "pocketflow" && name != "technique" && name != "minimal" <==> r.Err?
    ensures r.Err? ==> r.msg == "Template \"" + name + "\" non trouvé"
    ensures r.Ok? ==> r.value.name == name
    ensures name == "pocketflow" ==> r.Ok? && r.value.content == example
    ensures name == "technique" ==> r.Ok? && r.value.content == ReplaceFirst(example, Placeholder("PROJECT_NAME"), TechniqueTitle)
    ensures name == "minimal" ==> r.Ok? && r.value.content == Before(example, NodesHeading)
  {
    if name == "pocketflow" then
      Ok(EditorTemplate(name, "PocketFlow", "Template standard avec architecture complète", example, PocketFlowInstructions))
    else if name == "technique" then
      Ok(EditorTemplate(name, "Technique", "Template détaillé pour projets techniques",
        ReplaceFirst(example, Placeholder("PROJECT_NAME"), TechniqueTitle), TechniqueInstructions))
    else if name == "minimal" then
      Ok(EditorTemplate(name, "Minimal", "Template simplifié et minimaliste", Before(example, NodesHeading), MinimalInstructions))
    else Err("Template \"" + name + "\" non trouvé")
  }

  /** 'technique' changes only the first `{{PROJECT_NAME}}`: the text before
      it and after it is the example's. */
  lemma TechniqueReplacesFirstOnly(example: string)
    requires Contains(example, Placeholder("PROJECT_NAME"))
    ensures var i := IndexOf(example, Placeholder("PROJECT_NAME"));
      var c := FixtureTemplate("technique", example).value.content;
      c[..i] == example[..i] && c[i..i + |TechniqueTitle|] == TechniqueTitle &&
      c[i + |TechniqueTitle|..] == example[i + 16..] &&
      forall k :: 0 <= k < i ==> !At(c, Placeholder("PROJECT_NAME"), k)
  {
    var p := Placeholder("PROJECT_NAME");
    assert TechniqueTitle[..|p|] == p;
    ReplaceFirstShape(example, p, TechniqueTitle);
  }

  /** What the page shows after loading: the new-template form with the
      example text, a fixture, or the page's own error message. */
  function LoadEditor(name: string, example: string): (r: Result<EditorTemplate>)
    ensures name == "new" ==> r == Ok(EditorTemplate("", "", "", example, "Créer un document de design détaillé"))
    ensures name != "new" && FixtureTemplate(name, example).Ok? ==> r == FixtureTemplate(name, example)
    ensures name != "new" && FixtureTemplate(name, example).Err? ==> r == Err("Erreur lors du chargement du template")
  {
    if name == "new" then Ok(EditorTemplate("", "", "", example, "Créer un document de design détaillé"))
    else
      match FixtureTemplate(name, example)
      case Ok(t) => Ok(t)
      case Err(_) => Err("Erreur lors du chargement du template")
  }

  // ---------------------------------------------------------------------
  // Placeholder insertion

  datatype Insertion = Insertion(content: string, cursor: nat)

  /** `insertPlaceholder(p)` on the text area's selection [start, end): the
      selection is replaced by `{{p}}` and the cursor goes after it. A text
      area always has `start <= end <= |content|`. */
  function InsertPlaceholder(content: string, start: nat, end: nat, placeholder: string): (r: Insertion)
    requires start <= end <= |content|
    ensures r.cursor == start + |placeholder| + 4
    ensures |r.content| == |content| - (end - start) + |placeholder| + 4
  {
    Insertion(content[..start] + Placeholder(placeholder) + content[end..], start + |placeholder| + 4)
  }

  /** Everything outside the selection is kept, the token sits between,
      and the cursor lands right after the token. */
  lemma InsertionShape(content: string, start: nat, end: nat, placeholder: string)
    requires start <= end <= |content|
    ensures var r := InsertPlaceholder(content, start, end, placeholder);
      r.cursor <= |r.content| &&
      r.content[..start] == content[..start] &&
      r.content[start..r.cursor] == Placeholder(placeholder) &&
      r.content[r.cursor..] == content[end..]
  {
    var t := Placeholder(placeholder);
    var c := content[..start] + t + content[end..];
    assert c[..start] == content[..start];
    assert c[start..start + |t|] == t;
    assert c[start + |t|..] == content[end..];
  }

  /** An empty selection only inserts: removing the token gives the text
      back. */
  lemma InsertAtCursorUndo(content: string, pos: nat, placeholder: string)
    requires pos <= |content|
    ensures var r := InsertPlaceholder(content, pos, pos, placeholder);
      r.content[..pos] + r.content[r.cursor..] == content
  {
    InsertionShape(content, pos, pos, placeholder);
  }

  // ---------------------------------------------------------------------
  // Preview and save

  /** `generatePreview`: nothing for empty content, otherwise the page's
      own chain of five global replacements with its sample values (the
      date is the caller's formatted date). */
  function EditorPreview(content: string, date: string): (r: Option<string>)
    ensures content == "" <==> r.None?
  {
    if content == "" then None
    else
      var s1 := ReplaceAll(content, Placeholder("PROJECT_NAME"), "Exemple de Projet");
      var s2 := ReplaceAll(s1, Placeholder("DESCRIPTION"), "Description du projet exemple");
      var s3 := ReplaceAll(s2, Placeholder("FEATURE_LIST"), "- Fonctionnalité 1\n- Fonctionnalité 2\n- Fonctionnalité 3");
      var s4 := ReplaceAll(s3, Placeholder("AUTHOR"), "John Doe");
      Some(ReplaceAll(s4, Placeholder("DATE"), date))
  }

  /** The editor's chain substitutes exactly what the back end's
      `previewTemplate` does: same placeholders, same values, same order. */
  lemma EditorPreviewMatchesBackend(content: string, date: string)
    requires content != ""
    ensures EditorPreview(content, date) == Some(Preview(content, date))
    ensures TemplatesController.PreviewTemplate(content, date) == TemplatesController.Previewed(EditorPreview(content, date).value)
  {
    var es := PreviewEntries(date);
    var s1 := ReplaceAll(content, Placeholder("PROJECT_NAME"), SampleProjectName);
    var s2 := ReplaceAll(s1, Placeholder("DESCRIPTION"), SampleDescription);
    var s3 := ReplaceAll(s2, Placeholder("FEATURE_LIST"), SampleFeatureList);
    var s4 := ReplaceAll(s3, Placeholder("AUTHOR"), SampleAuthor);
    assert ApplyEntries(content, es[..1]) == s1 by { assert es[..1][..0] == []; }
    assert ApplyEntries(content, es[..2]) == s2 by { assert es[..2][..1] == es[..1]; }
    assert ApplyEntries(content, es[..3]) == s3 by { assert es[..3][..2] == es[..2]; }
    assert ApplyEntries(content, es[..4]) == s4 by { assert es[..4][..3] == es[..3]; }
    assert es[..5][..4] == es[..4] && es[..5] == es;
  }

  datatype SaveOutcome = SaveRefused(error: string) | Saved(templateName: string)

  /** `handleSave`: a display name and content are required; a new
      template is saved under the slug of its display name, an existing
      one keeps its name. */
  function Save(isNew: bool, templateName: string, displayName: string, content: string): (r: SaveOutcome)
    ensures r.SaveRefused? <==> displayName == "" || content == ""
    ensures r.SaveRefused? ==> r.error == "Le nom et le contenu du template sont requis"
    ensures r.Saved? && isNew ==> r.templateName == Slug(displayName) && NoSpace(r.templateName)
    ensures r.Saved? && !isNew ==> r.templateName == templateName
  {
    if displayName == "" || content == "" then SaveRefused("Le nom et le contenu du template sont requis")
    else if isNew then Saved(Slug(displayName))
    else Saved(templateName)
  }
}

=== FILE: template_files.dfy ===
/**
 * How template names map to file names in a templates directory: template
 * `n` is the file `n-template.md`, and a listed file's name is recovered by
 * removing the first `-template.md` from it.
 */
module TemplateFiles {
  import opened Text

  const TemplateSuffix := "-template.md"

  /** The file holding template `name`. */
  function TemplateFileName(name: string): (f: string)
    ensures EndsWith(f, TemplateSuffix) && StartsWith(f, name)
    ensures |f| == |name| + 12
  {
    assert (name + TemplateSuffix)[..|name|] == name;
    name + TemplateSuffix
  }

  /** Whether a directory entry is listed as a template. */
  predicate IsTemplateFile(file: string) {
    EndsWith(file, TemplateSuffix)
  }

  /** The template name of a listed file: `file.replace('-template.md', '')`,
      which removes the FIRST occurrence only. */
  function NameOfFile(file: string): (n: string)
    ensures IsTemplateFile(file) ==> |n| == |file| - 12
  {
    assert IsTemplateFile(file) ==> At(file, TemplateSuffix, |file| - 12);
    ReplaceFirst(file, TemplateSuffix, "")
  }

  /** The '-' of the suffix occurs only at its start, so no occurrence of
      the suffix can straddle a name and the suffix appended to it. */
  lemma SuffixDashOnlyFirst()
    ensures forall i :: 1 <= i < |TemplateSuffix| ==> TemplateSuffix[i] != '-'
  {
  }

  /** Naming a file after a template and reading the name back gives the
      template name, as long as the name does not itself contain the suffix. */
  lemma NameRoundTrip(name: string)
    requires !Contains(name, TemplateSuffix)
    ensures NameOfFile(TemplateFileName(name)) == name
  {
    var f := name + TemplateSuffix;
    var s := TemplateSuffix;
    SuffixDashOnlyFirst();
    assert At(f, s, |name|) by {
      assert f[|name|..|name| + 12] == s;
    }
    forall k | 0 <= k < |name| ensures !At(f, s, k) {
      if k + 12 <= |name| {
        if At(f, s, k) {
          assert f[k..k + 12] == name[k..k + 12];
          ContainsAt(name, s, k);
        }
      } else {
        var j := |name| - k;
        assert 1 <= j < 12;
        assert f[k..k + 12][j] == f[|name|] == '-';
        assert s[j] != '-';
      }
    }
    assert IndexOf(f, s) == |name|;
    assert f[..|name|] == name;
    assert f[|name| + 12..] == [];
  }

  /** A name containing the suffix does not survive the round trip. */
  lemma NameRoundTripFails(rest: string)
    requires rest != [] && rest[0] != '-'
    ensures NameOfFile(TemplateFileName(TemplateSuffix + rest)) == rest + TemplateSuffix
    ensures rest + TemplateSuffix != TemplateSuffix + rest
  {
    var s := TemplateSuffix;
    var f := TemplateFileName(s + rest);
    assert f == s + (rest + s);
    assert f[..12] == s;
    assert At(f, s, 0);
    assert IndexOf(f, s) == 0;
    assert f[12..] == rest + s;
    assert (rest + s)[0] != (s + rest)[0];
  }

  /** The display name: first character upper-cased, the rest unchanged. */
  function DisplayName(name: string): (d: string)
    ensures |d| == |name|
    ensures name != [] ==> d[0] == UpperChar(name[0]) && d[1..] == name[1..]
  {
    Capitalize(name)
  }
}

=== FILE: templates_controller.dfy ===
/**
 * The backend's template registry: an in-memory list of template metadata
 * (name, display name, description, modification time) with create, read,
 * update and delete, and the preview of a template with sample values.
 * Timestamps and the preview date are parameters.
 */
module TemplatesController {
  import opened Common
  import opened Text
  import opened Placeholders

  datatype TemplateMeta = TemplateMeta(name: string, displayName: string, description: string, lastModified: int)

  /** The HTTP answers of the controller. */
  datatype Reply =
    | TemplateList(count: nat, templates: seq<TemplateMeta>)
    | TemplateFound(template: TemplateMeta, content: string)
    | TemplateCreated(template: TemplateMeta)
    | TemplateUpdated(template: TemplateMeta)
    | TemplateDeleted(message: string)
    | Previewed(preview: string)
    | Failure(status: nat, error: string)

  const NotFoundMessage := "Template non trouvé"

  /** The three templates the registry starts with. */
  function SeedTemplates(now: int): (ts: seq<TemplateMeta>)
    ensures |ts| == 3
  {
    [TemplateMeta("pocketflow", "PocketFlow", "Template standard avec architecture complète", now),
     TemplateMeta("technique", "Technique", "Template détaillé pour projets techniques", now - 5 * 24 * 60 * 60 * 1000),
     TemplateMeta("minimal", "Minimal", "Template simplifié et minimaliste", now - 10 * 24 * 60 * 60 * 1000)]
  }

  /** No two templates share a name. */
  predicate UniqueNames(ts: seq<TemplateMeta>) {
    forall i, j :: 0 <= i < j < |ts| ==> ts[i].name != ts[j].name
  }

  /** `templates.findIndex(t => t.name === name)`. */
  function IndexOfName(ts: seq<TemplateMeta>, name: string): (k: int)
    ensures -1 <= k < |ts|
    ensures k == -1 <==> forall i :: 0 <= i < |ts| ==> ts[i].name != name
    ensures k != -1 ==> ts[k].name == name && forall i :: 0 <= i < k ==> ts[i].name != name
    decreases |ts|
  {
    if ts == [] then -1
    else if ts[0].name == name then 0
    else
      var k := IndexOfName(ts[1..], name);
      if k == -1 then -1 else k + 1
  }

  const SampleBody := " Design\n\n## \U{1F4CB} Objectifs et Vision\n\n### Objectifs Principaux\n[Description des objectifs principaux du projet]\n\n### Buts du Système\n- [But 1]\n- [But 2]\n- [But 3]"

  /** The content answered for every found template. */
  function SampleContent(): (c: string)
    ensures Contains(c, Placeholder("PROJECT_NAME"))
  {
    ContainsMiddle("# ", Placeholder("PROJECT_NAME"), SampleBody);
    "# " + Placeholder("PROJECT_NAME") + SampleBody
  }

  /** `previewTemplate`: 400 without content, otherwise the five sample
      substitutions. */
  function PreviewTemplate(content: string, date: string): (r: Reply)
    ensures content == "" <==> r == Failure(400, "Le contenu du template est requis")
    ensures content != "" ==> r == Previewed(Preview(content, date))
  {
    if content == "" then Failure(400, "Le contenu du template est requis")
    else Previewed(Preview(content, date))
  }

  /** The module-level `templates` list. */
  class TemplatesRegistry {
    var templates: seq<TemplateMeta>

    ghost predicate Valid()
      reads this
    {
      UniqueNames(templates)
    }

    constructor (now: int)
      ensures templates == SeedTemplates(now)
      ensures Valid()
    {
      templates := SeedTemplates(now);
    }

    /** `getAllTemplates`: the list as it is, with its length. */
    method GetAllTemplates() returns (r: Reply)
      ensures r == TemplateList(|templates|, templates)
    {
      r := TemplateList(|templates|, templates);
    }

    /** `getTemplateByName`: 404 for an unknown name. */
    method GetTemplateByName(name: string) returns (r: Reply)
      ensures IndexOfName(templates, name) == -1 <==> r == Failure(404, NotFoundMessage)
      ensures r.TemplateFound? ==>
        r.template == templates[IndexOfName(templates, name)] && r.template.name == name &&
        Contains(r.content, Placeholder("PROJECT_NAME"))
      ensures r.TemplateFound? || r.Failure?
    {
      var k := IndexOfName(templates, name);
      if k == -1 {
        return Failure(404, NotFoundMessage);
      }
      r := TemplateFound(templates[k], SampleContent());
    }

    /** `createTemplate`: needs a display name and content (400); the name
        is the slug of the display name and must be new (400); appends one
        entry whose description defaults to ''. The content is not kept. */
    method CreateTemplate(displayName: string, description: string, content: string, now: int)
      returns (r: Reply)
      requires Valid()
      modifies this
      ensures Valid()
      ensures displayName == "" || content == "" ==>
        r == Failure(400, "Le nom et le contenu du template sont requis") && templates == old(templates)
      ensures displayName != "" && content != "" && IndexOfName(old(templates), Slug(displayName)) != -1 ==>
        r == Failure(400, "Un template avec ce nom existe déjà") && templates == old(templates)
      ensures displayName != "" && content != "" && IndexOfName(old(templates), Slug(displayName)) == -1 ==>
        r == TemplateCreated(TemplateMeta(Slug(displayName), displayName, description, now)) &&
        templates == old(templates) + [r.template]
    {
      if displayName == "" || content == "" {
        return Failure(400, "Le nom et le contenu du template sont requis");
      }
      var name := Slug(displayName);
      if IndexOfName(templates, name) != -1 {
        return Failure(400, "Un template avec ce nom existe déjà");
      }
      var t := TemplateMeta(name, displayName, description, now);
      templates := templates + [t];
      r := TemplateCreated(t);
    }

    /** `updateTemplate`: 404 for an unknown name; otherwise only that
        entry changes: the name stays, an empty display name keeps the old
        one, a description given (even empty) replaces the old one. */
    method UpdateTemplate(name: string, displayName: string, description: Option<string>, now: int)
      returns (r: Reply)
      requires Valid()
      modifies this
      ensures Valid()
      ensures IndexOfName(old(templates), name) == -1 ==>
        r == Failure(404, NotFoundMessage) && templates == old(templates)
      ensures IndexOfName(old(templates), name) != -1 ==>
        var k := IndexOfName(old(templates), name);
        var t := old(templates)[k];
        r == TemplateUpdated(TemplateMeta(name, if displayName == "" then t.displayName else displayName,
                                          description.GetOr(t.description), now)) &&
        templates == old(templates)[k := r.template]
    {
      var k := IndexOfName(templates, name);
      if k == -1 {
        return Failure(404, NotFoundMessage);
      }
      var t := templates[k];
      var updated := t.(displayName := if displayName == "" then t.displayName else displayName,
                        description := description.GetOr(t.description),
                        lastModified := now);
      templates := templates[k := updated];
      r := TemplateUpdated(updated);
    }

    /** `deleteTemplate`: 404 for an unknown name; otherwise exactly that
        entry is removed. */
    method DeleteTemplate(name: string) returns (r: Reply)
      requires Valid()
      modifies this
      ensures Valid()
      ensures IndexOfName(old(templates), name) == -1 ==>
        r == Failure(404, NotFoundMessage) && templates == old(templates)
      ensures IndexOfName(old(templates), name) != -1 ==>
        var k := IndexOfName(old(templates), name);
        r == TemplateDeleted("Template supprimé avec succès") &&
        templates == old(templates)[..k] + old(templates)[k + 1..]
    {
      var k := IndexOfName(templates, name);
      if k == -1 {
        return Failure(404, NotFoundMessage);
      }
      templates := templates[..k] + templates[k + 1..];
      r := TemplateDeleted("Template supprimé avec succès");
    }
  }

  /** With unique names a deleted template is gone: looking it up fails. */
  lemma DeletedTemplateGone(ts: seq<TemplateMeta>, name: string)
    requires UniqueNames(ts)
    requires IndexOfName(ts, name) != -1
    ensures IndexOfName(ts[..IndexOfName(ts, name)] + ts[IndexOfName(ts, name) + 1..], name) == -1
  {
    var k := IndexOfName(ts, name);
    var r := ts[..k] + ts[k + 1..];
    forall i | 0 <= i < |r| ensures r[i].name != name {
      if i < k {
        assert r[i] == ts[i];
      } else {
        assert r[i] == ts[i + 1];
      }
    }
  }

  /** A created template is found afterwards under the slug of its display
      name. */
  lemma CreatedTemplateFound(ts: seq<TemplateMeta>, t: TemplateMeta)
    requires IndexOfName(ts, t.name) == -1
    ensures IndexOfName(ts + [t], t.name) == |ts|
    ensures UniqueNames(ts) ==> UniqueNames(ts + [t])
  {
    var s := ts + [t];
    assert s[|ts|] == t;
    forall i | 0 <= i < |ts| ensures s[i].name != t.name {
      assert s[i] == ts[i];
    }
    if UniqueNames(ts) {
      forall i, j | 0 <= i < j < |s| ensures s[i].name != s[j].name {
        assert s[i] == ts[i];
        if j < |ts| {
          assert s[j] == ts[j];
        }
      }
    }
  }

  /** Two display names with the same slug cannot both be created: the
      second is refused. */
  lemma SecondCreateRefused(ts: seq<TemplateMeta>, d1: string, d2: string, now: int)
    requires Slug(d1) == Slug(d2)
    ensures IndexOfName(ts + [TemplateMeta(Slug(d1), d1, "", now)], Slug(d2)) != -1
  {
    var t := TemplateMeta(Slug(d1), d1, "", now);
    assert (ts + [t])[|ts|].name == Slug(d2);
  }
}

=== FILE: templates_page.dfy ===
/**
 * The templates page: the list of templates shown, the import dialog
 * (suggested name, append) and the deletion of a template. Each handler
 * builds the new list from the old one; the import time is a parameter.
 */
module TemplatesPage {
  import opened Common
  import opened Text
  import TemplateFiles

  datatype PageTemplate = PageTemplate(name: string, displayName: string, description: string, lastModified: string)

  /** The import dialog: open or not, the name typed, the chosen file (by
      its file name). */
  datatype ImportDialog = ImportDialog(open: bool, name: string, file: Option<string>)

  /** `s.replace(/suffix$/, '')`: the suffix is removed only at the end. */
  function StripSuffix(s: string, suffix: string): (r: string)
    ensures EndsWith(s, suffix) ==> r + suffix == s
    ensures !EndsWith(s, suffix) ==> r == s
  {
    if EndsWith(s, suffix) then s[..|s| - |suffix|] else s
  }

  /** The name suggested for a file: ".md" and then "-template" removed at
      the end. */
  function SuggestedName(fileName: string): string {
    StripSuffix(StripSuffix(fileName, ".md"), "-template")
  }

  /** Every template file name suggests the name of its template, whatever
      that name contains. */
  lemma SuggestedNameOfTemplateFile(name: string)
    ensures SuggestedName(TemplateFiles.TemplateFileName(name)) == name
  {
    var f := TemplateFiles.TemplateFileName(name);
    assert f == (name + "-template") + ".md";
    assert EndsWith(f, ".md");
    var g := StripSuffix(f, ".md");
    assert g == name + "-template";
    assert EndsWith(g, "-template");
  }

  /** A file name without either suffix is suggested as it is. */
  lemma SuggestedNamePlain(fileName: string)
    requires !EndsWith(fileName, ".md") && !EndsWith(fileName, "-template")
    ensures SuggestedName(fileName) == fileName
  {
  }

  /** `handleFileUpload`: the file is kept; the suggestion fills the name
      only when the name is empty. */
  function UploadFile(dialog: ImportDialog, fileName: string): (d: ImportDialog)
    ensures d.file == Some(fileName) && d.open == dialog.open
    ensures dialog.name == "" ==> d.name == SuggestedName(fileName)
    ensures dialog.name != "" ==> d.name == dialog.name
  {
    dialog.(file := Some(fileName), name := if dialog.name == "" then SuggestedName(fileName) else dialog.name)
  }

  /** The import button is enabled only with both a name and a file. */
  predicate CanImport(dialog: ImportDialog) {
    dialog.name != "" && dialog.file.Some?
  }

  /** `handleImportDialogClose`: closed, with the name and the file
      cleared, so that importing is disabled until both are given again. */
  function CloseImportDialog(dialog: ImportDialog): (d: ImportDialog)
    ensures !d.open && d.name == "" && d.file.None?
    ensures !CanImport(d)
  {
    ImportDialog(false, "", None)
  }

  /** `handleImportTemplate`: one template is appended, named by the slug of
      the import name, and the dialog closes. */
  function ImportTemplate(templates: seq<PageTemplate>, dialog: ImportDialog, now: string): (r: (seq<PageTemplate>, ImportDialog))
    ensures |r.0| == |templates| + 1 && r.0[..|templates|] == templates
    ensures r.0[|templates|] == PageTemplate(Slug(dialog.name), dialog.name, "Template importé", now)
    ensures NoSpace(r.0[|templates|].name)
    ensures r.1 == CloseImportDialog(dialog)
  {
    (templates + [PageTemplate(Slug(dialog.name), dialog.name, "Template importé", now)], CloseImportDialog(dialog))
  }

  /** `handleDeleteTemplate`: every template with the chosen name goes and
      the others keep their order; without a chosen template the handler
      fails with its error message and the list stays. */
  function DeleteTemplate(templates: seq<PageTemplate>, toDelete: Option<PageTemplate>): (r: Result<seq<PageTemplate>>)
    ensures toDelete.None? <==> r == Err("Erreur lors de la suppression du template")
    ensures toDelete.Some? ==> r.Ok? && IsSubseq(r.value, templates)
    ensures toDelete.Some? && r.Ok? ==>
      forall t :: t in r.value <==> t in templates && t.name != toDelete.value.name
  {
    if toDelete.None? then Err("Erreur lors de la suppression du template")
    else Ok(WithoutName(templates, toDelete.value.name))
  }

  function WithoutName(templates: seq<PageTemplate>, name: string): (r: seq<PageTemplate>)
    ensures IsSubseq(r, templates)
    ensures forall t :: t in r <==> t in templates && t.name != name
  {
    if templates == [] then []
    else if templates[0].name != name then [templates[0]] + WithoutName(templates[1..], name)
    else
      var rest := WithoutName(templates[1..], name);
      assert rest != [] ==> rest[0] in rest && rest[0] != templates[0];
      rest
  }

  /** Deleting an imported template under a fresh name gives the list
      back. */
  lemma {:induction false} DeleteUndoesImport(templates: seq<PageTemplate>, dialog: ImportDialog, now: string)
    requires forall t :: t in templates ==> t.name != Slug(dialog.name)
    ensures var (after, _) := ImportTemplate(templates, dialog, now);
      DeleteTemplate(after, Some(after[|templates|])) == Ok(templates)
  {
    var t := PageTemplate(Slug(dialog.name), dialog.name, "Template importé", now);
    WithoutNameAppended(templates, t);
  }

  lemma {:induction false} WithoutNameAppended(templates: seq<PageTemplate>, t: PageTemplate)
    requires forall u :: u in templates ==> u.name != t.name
    ensures WithoutName(templates + [t], t.name) == templates
  {
    if templates == [] {
      assert [t][1..] == [];
    } else {
      assert (templates + [t])[1..] == templates[1..] + [t];
      WithoutNameAppended(templates[1..], t);
    }
  }
}

=== FILE: templates_service.dfy ===
/**
 * The file-backed template store of the backend. The templates directory is
 * a map from file name to content; template `n` is the file
 * `n-template.md`. Every failure is rethrown under an operation prefix.
 */
module TemplatesService {
  import opened Common
  import opened Text
  import opened TemplateFiles

  /** A template as the store answers it. */
  datatype StoredTemplate = StoredTemplate(name: string, displayName: string, fileName: string, content: string)

  /** A template as listed, without its content. */
  datatype TemplateEntry = TemplateEntry(name: string, displayName: string, fileName: string)

  function NotFound(name: string): string {
    "Template \"" + name + "\" not found"
  }

  /** `getTemplateByName(name)` over a directory. */
  function Lookup(files: map<string, string>, name: string): (r: Result<StoredTemplate>)
    ensures r.Ok? <==> TemplateFileName(name) in files
    ensures r.Err? ==> r.msg == "Failed to get template: " + NotFound(name)
    ensures r.Ok? ==> r.value.content == files[TemplateFileName(name)] && r.value.name == name &&
                      r.value.displayName == DisplayName(name)
  {
    var f := TemplateFileName(name);
    if f !in files then Err("Failed to get template: " + NotFound(name))
    else Ok(StoredTemplate(name, DisplayName(name), f, files[f]))
  }

  /** The listing entry of a template file. */
  function EntryOf(file: string): TemplateEntry {
    TemplateEntry(NameOfFile(file), DisplayName(NameOfFile(file)), file)
  }

  /** `getAllTemplates()`: the template files of a directory listing, in
      listing order, each with its recovered name. */
  function ListTemplates(listing: seq<string>): (ts: seq<TemplateEntry>)
    ensures |ts| <= |listing|
    ensures forall i :: 0 <= i < |ts| ==>
      ts[i] == EntryOf(ts[i].fileName) && IsTemplateFile(ts[i].fileName) && ts[i].fileName in listing
  {
    if listing == [] then []
    else
      var rest := ListTemplates(listing[1..]);
      var f := listing[0];
      if IsTemplateFile(f) then [EntryOf(f)] + rest else rest
  }

  /** Every template file of the listing is listed. */
  lemma {:induction false} ListTemplatesComplete(listing: seq<string>, f: string)
    requires f in listing && IsTemplateFile(f)
    ensures exists i :: 0 <= i < |ListTemplates(listing)| && ListTemplates(listing)[i].fileName == f
    decreases |listing|
  {
    var ts := ListTemplates(listing);
    var rest := ListTemplates(listing[1..]);
    var head := listing[0];
    assert ts == if IsTemplateFile(head) then [EntryOf(head)] + rest else rest;
    if head == f {
      assert ts[0] == EntryOf(f);
    } else {
      assert f in listing[1..] by {
        var k :| 0 <= k < |listing| && listing[k] == f;
        assert listing[1..][k - 1] == f;
      }
      ListTemplatesComplete(listing[1..], f);
      var i :| 0 <= i < |rest| && rest[i].fileName == f;
      if IsTemplateFile(head) {
        assert ts[i + 1] == rest[i];
      } else {
        assert ts[i] == rest[i];
      }
    }
  }

  /** A template created under a name free of the suffix is listed back
      under that same name. */
  lemma CreatedIsListed(listing: seq<string>, name: string)
    requires TemplateFileName(name) in listing
    requires !Contains(name, TemplateSuffix)
    ensures exists i :: 0 <= i < |ListTemplates(listing)| && ListTemplates(listing)[i].name == name
  {
    var ts := ListTemplates(listing);
    var f := TemplateFileName(name);
    ListTemplatesComplete(listing, f);
    var i :| 0 <= i < |ts| && ts[i].fileName == f;
    NameRoundTrip(name);
    assert ts[i].name == name;
  }

  /** The message of a failed `fs.access` on the file of template `name`
      in directory `dir`. */
  function AccessError(dir: string, name: string): string {
    "ENOENT: no such file or directory, access '" + dir + "/" + TemplateFileName(name) + "'"
  }

  /** The access message carries the template's name, so a name holding
      "already exists" makes a missing file look like an existing one. */
  lemma AccessErrorCarriesName(dir: string, name: string)
    requires Contains(name, "already exists")
    ensures Contains(AccessError(dir, name), "already exists")
  {
    var f := TemplateFileName(name);
    var pre := "ENOENT: no such file or directory, access '" + dir + "/";
    ContainsWithin([], name, "-template.md", "already exists");
    assert [] + name + "-template.md" == f;
    ContainsWithin(pre, f, "'", "already exists");
    assert pre + f + "'" == AccessError(dir, name);
  }

  /** The templates directory: its path and its files. */
  class TemplateStore {
    const dir: string
    var files: map<string, string>

    constructor (dir: string, files: map<string, string>)
      ensures this.dir == dir && this.files == files
    {
      this.dir := dir;
      this.files := files;
    }

    /** `getTemplateByName(name)`. */
    function GetTemplateByName(name: string): (r: Result<StoredTemplate>)
      reads this
      ensures r == Lookup(files, name)
    {
      Lookup(files, name)
    }

    /** `createTemplate({name, content})`: refuses an existing file and
        leaves it untouched; otherwise writes the new file. The check
        rethrows any access error whose message holds "already exists",
        so a missing file whose path holds those words is refused too. */
    method CreateTemplate(name: string, content: string) returns (r: Result<StoredTemplate>)
      modifies this
      ensures TemplateFileName(name) in old(files) ==>
        r == Err("Failed to create template: Template \"" + name + "\" already exists") &&
        files == old(files)
      ensures TemplateFileName(name) !in old(files) && Contains(AccessError(dir, name), "already exists") ==>
        r == Err("Failed to create template: " + AccessError(dir, name)) && files == old(files)
      ensures TemplateFileName(name) !in old(files) && !Contains(AccessError(dir, name), "already exists") ==>
        files == old(files)[TemplateFileName(name) := content] &&
        r == Ok(StoredTemplate(name, DisplayName(name), TemplateFileName(name), content))
    {
      var f := TemplateFileName(name);
      if f in files {
        r := Err("Failed to create template: Template \"" + name + "\" already exists");
      } else if Contains(AccessError(dir, name), "already exists") {
        r := Err("Failed to create template: " + AccessError(dir, name));
      } else {
        files := files[f := content];
        r := Ok(StoredTemplate(name, DisplayName(name), f, content));
      }
    }

    /** `updateTemplate(name, {content})`: writes only a non-empty content;
        answers the new content, or the stored one when none was given. */
    method UpdateTemplate(name: string, content: Option<string>) returns (r: Result<StoredTemplate>)
      modifies this
      ensures TemplateFileName(name) !in old(files) ==>
        r == Err("Failed to update template: " + NotFound(name)) && files == old(files)
      ensures TemplateFileName(name) in old(files) && (content.None? || content.value == "") ==>
        files == old(files) && r == Lookup(old(files), name)
      ensures TemplateFileName(name) in old(files) && content.Some? && content.value != "" ==>
        files == old(files)[TemplateFileName(name) := content.value] && r == Lookup(files, name)
    {
      var f := TemplateFileName(name);
      if f !in files {
        r := Err("Failed to update template: " + NotFound(name));
      } else {
        if content.Some? && content.value != "" {
          files := files[f := content.value];
        }
        var c := if content.Some? && content.value != "" then content.value else files[f];
        r := Ok(StoredTemplate(name, DisplayName(name), f, c));
      }
    }

    /** `deleteTemplate(name)`: removes the file of an existing template. */
    method DeleteTemplate(name: string) returns (r: Result<()>)
      modifies this
      ensures TemplateFileName(name) !in old(files) ==>
        r == Err("Failed to delete template: " + NotFound(name)) && files == old(files)
      ensures TemplateFileName(name) in old(files) ==>
        r == Ok(()) && files == old(files) - {TemplateFileName(name)}
    {
      var f := TemplateFileName(name);
      if f !in files {
        r := Err("Failed to delete template: " + NotFound(name));
      } else {
        files := files - {f};
        r := Ok(());
      }
    }
  }

  /** After a create on a free name, reading the template answers the
      written content; other templates are unaffected. */
  lemma CreateThenGet(files: map<string, string>, name: string, content: string, other: string)
    requires TemplateFileName(name) !in files
    requires TemplateFileName(other) != TemplateFileName(name)
    ensures Lookup(files[TemplateFileName(name) := content], name).Ok?
    ensures Lookup(files[TemplateFileName(name) := content], name).value.content == content
    ensures Lookup(files[TemplateFileName(name) := content], other) == Lookup(files, other)
  {
  }

  /** After a delete, reading the template fails with "not found". */
  lemma DeleteThenGet(files: map<string, string>, name: string)
    ensures Lookup(files - {TemplateFileName(name)}, name) ==
            Err("Failed to get template: " + NotFound(name))
  {
  }

  /** Distinct names have distinct files, so operations on one template
      never touch another. */
  lemma FileNamesDistinct(a: string, b: string)
    requires a != b
    ensures TemplateFileName(a) != TemplateFileName(b)
  {

  }
}

=== FILE: text.dfy ===
/**
 * String helpers shared by every part of the generator: ASCII case mapping,
 * the whitespace class used by the JavaScript and Python regular expressions
 * (`\s`), the project-name slug, substring search, literal replacement and
 * single-character split/join.
 */
module Text {

  /** The fixed whitespace class standing for `\s`: space, tab, line feed,
      vertical tab, form feed and carriage return. */
  predicate IsSpace(c: char) {
    c == ' ' || c == '\t' || c == '\n' || c == '\U{B}' || c == '\U{C}' || c == '\r'
  }

  predicate NoSpace(s: string) {
    forall i :: 0 <= i < |s| ==> !IsSpace(s[i])
  }

  function LowerChar(c: char): (r: char)
    ensures 'A' <= c <= 'Z' ==> 'a' <= r <= 'z' && r as int == c as int + 32
    ensures !('A' <= c <= 'Z') ==> r == c
  {
    if 'A' <= c <= 'Z' then (c as int + 32) as char else c
  }

  function UpperChar(c: char): (r: char)
    ensures 'a' <= c <= 'z' ==> 'A' <= r <= 'Z' && r as int == c as int - 32
    ensures !('a' <= c <= 'z') ==> r == c
  {
    if 'a' <= c <= 'z' then (c as int - 32) as char else c
  }

  predicate IsLower(s: string) {
    forall i :: 0 <= i < |s| ==> LowerChar(s[i]) == s[i]
  }

  /** `toLowerCase()` restricted to ASCII letters. */
  function Lower(s: string): (r: string)
    ensures |r| == |s|
    ensures forall i :: 0 <= i < |s| ==> r[i] == LowerChar(s[i])
    ensures IsLower(r)
  {
    seq(|s|, i requires 0 <= i < |s| => LowerChar(s[i]))
  }

  /** Drops the leading run of whitespace. */
  function DropSpaces(s: string): (r: string)
    ensures |r| <= |s| && r == s[|s| - |r|..]
    ensures r == [] || !IsSpace(r[0])
  {
    if s != [] && IsSpace(s[0]) then DropSpaces(s[1..]) else s
  }

  /**
   * The slug of a project name: `name.toLowerCase().replace(/\s+/g, '-')`.
   * Lower-cases and turns every maximal run of whitespace into one '-'.
   */
  function Slug(s: string): (r: string)
    ensures |r| <= |s|
    ensures NoSpace(r) && IsLower(r)
    ensures s == [] <==> r == []
    decreases |s|
  {
    if s == [] then []
    else if IsSpace(s[0]) then "-" + Slug(DropSpaces(s))
    else [LowerChar(s[0])] + Slug(s[1..])
  }

  /** On a name without whitespace the slug is just the lower-cased name. */
  lemma {:induction false} SlugOfSpaceless(s: string)
    requires NoSpace(s)
    ensures Slug(s) == Lower(s)
    decreases |s|
  {
    if s != [] {
      SlugOfSpaceless(s[1..]);
      assert Lower(s) == [LowerChar(s[0])] + Lower(s[1..]);
    }
  }

  /** Slugging a slug changes nothing. */
  lemma SlugIdempotent(s: string)
    ensures Slug(Slug(s)) == Slug(s)
  {
    var r := Slug(s);
    SlugOfSpaceless(r);
    assert Lower(r) == r;
  }

  /** A run of whitespace after a word becomes exactly one '-'. */
  lemma {:induction false} SlugJoinsWords(a: string, gap: string, b: string)
    requires NoSpace(a)
    requires gap != [] && forall i :: 0 <= i < |gap| ==> IsSpace(gap[i])
    requires b == [] || !IsSpace(b[0])
    ensures Slug(a + gap + b) == Lower(a) + "-" + Slug(b)
    decreases |a|
  {
    assert a + gap + b == a + (gap + b);
    SlugWordThen(a, gap + b);
    SlugOverRun(gap, b);
  }

  /** A word followed by text starting with whitespace: the word is only
      lower-cased. */
  lemma {:induction false} SlugWordThen(a: string, r: string)
    requires NoSpace(a)
    requires r != [] && IsSpace(r[0])
    ensures Slug(a + r) == Lower(a) + Slug(r)
    decreases |a|
  {
    if a == [] {
      assert a + r == r;
    } else {
      var c, tail := a[0], a[1..];
      var x := tail + r;
      assert a == [c] + tail;
      assert a + r == [c] + x;
      NoSpaceTail(a);
      SlugWordThen(tail, r);
      SlugNonSpace(c, x);
      LowerCons(c, tail);
      ConsAssoc(LowerChar(c), Lower(tail), Slug(r));
    }
  }

  lemma ConsAssoc(c: char, x: string, y: string)
    ensures [c] + (x + y) == ([c] + x) + y
  {
  }

  lemma NoSpaceTail(a: string)
    requires a != [] && NoSpace(a)
    ensures NoSpace(a[1..])
  {
    forall i | 0 <= i < |a| - 1 ensures !IsSpace(a[1..][i]) {
      assert a[1..][i] == a[i + 1];
    }
  }

  lemma SlugOverRun(gap: string, b: string)
    requires gap != [] && forall i :: 0 <= i < |gap| ==> IsSpace(gap[i])
    requires b == [] || !IsSpace(b[0])
    ensures Slug(gap + b) == "-" + Slug(b)
  {
    DropSpacesOverRun(gap, b);
    assert (gap + b)[0] == gap[0];
  }

  lemma SlugNonSpace(c: char, rest: string)
    requires !IsSpace(c)
    ensures Slug([c] + rest) == [LowerChar(c)] + Slug(rest)
  {
    assert ([c] + rest)[1..] == rest;
  }

  lemma LowerCons(c: char, rest: string)
    ensures Lower([c] + rest) == [LowerChar(c)] + Lower(rest)
  {
  }

  lemma {:induction false} DropSpacesOverRun(gap: string, b: string)
    requires forall i :: 0 <= i < |gap| ==> IsSpace(gap[i])
    requires b == [] || !IsSpace(b[0])
    ensures DropSpaces(gap + b) == b
    decreases |gap|
  {
    if gap != [] {
      assert (gap + b)[1..] == gap[1..] + b;
      DropSpacesOverRun(gap[1..], b);
    }
  }

  lemma {:induction false} DropSpacesAllSpace(a: string)
    requires DropSpaces(a) == []
    ensures forall i :: 0 <= i < |a| ==> IsSpace(a[i])
    decreases |a|
  {
    if a != [] {
      DropSpacesAllSpace(a[1..]);
      assert forall i :: 1 <= i < |a| ==> a[i] == a[1..][i - 1];
    }
  }

  /** What `DropSpaces` drops is white space. */
  lemma {:induction false} DropSpacesBlankPrefix(s: string)
    ensures Blank(s[..|s| - |DropSpaces(s)|])
    decreases |s|
  {
    if s != [] && IsSpace(s[0]) {
      var t := s[1..];
      DropSpacesBlankPrefix(t);
      assert s[..|s| - |DropSpaces(s)|] == [s[0]] + t[..|t| - |DropSpaces(t)|];
    }
  }

  lemma {:induction false} DropSpacesPrefix(a: string, tail: string)
    requires DropSpaces(a) != []
    ensures DropSpaces(a + tail) == DropSpaces(a) + tail
    decreases |a|
  {
    assert (a + tail)[0] == a[0];
    if IsSpace(a[0]) {
      assert (a + tail)[1..] == a[1..] + tail;
      DropSpacesPrefix(a[1..], tail);
      assert DropSpaces(a + tail) == DropSpaces(a[1..] + tail);
    }
  }

  /** The width of the whitespace between two words does not reach the slug. */
  lemma SlugIgnoresGapWidth(a: string, gap1: string, gap2: string, b: string)
    requires NoSpace(a)
    requires gap1 != [] && forall i :: 0 <= i < |gap1| ==> IsSpace(gap1[i])
    requires gap2 != [] && forall i :: 0 <= i < |gap2| ==> IsSpace(gap2[i])
    requires b == [] || !IsSpace(b[0])
    ensures Slug(a + gap1 + b) == Slug(a + gap2 + b)
  {
    SlugJoinsWords(a, gap1, b);
    SlugJoinsWords(a, gap2, b);
  }

  /** Two different names that name the same output file. */
  lemma SlugNotInjective()
    ensures "My Project" != "my project"
    ensures Slug("My Project") == Slug("my project") == "my-project"
  {
    assert "My Project"[0] != "my project"[0];
    assert "My" + " " + "Project" == "My Project";
    assert "my" + " " + "project" == "my project";
    SlugOfMyProject("My", "Project");
    SlugOfMyProject("my", "project");
  }

  lemma SlugOfMyProject(a: string, b: string)
    requires a == "My" || a == "my"
    requires b == "Project" || b == "project"
    ensures Slug(a + " " + b) == "my-project"
  {
    SpacelessExamples();
    SlugOfTwoWords(a, " ", b);
    LowerExamples();
    assert Lower(a) == "my" && Lower(b) == "project";
    assert "my" + "-" + "project" == "my-project";
  }

  lemma SpacelessExamples()
    ensures NoSpace("My") && NoSpace("my") && NoSpace("Project") && NoSpace("project")
  {
  }

  lemma LowerExamples()
    ensures Lower("My") == Lower("my") == "my"
    ensures Lower("Project") == Lower("project") == "project"
  {
  }

  lemma SlugOfTwoWords(a: string, gap: string, b: string)
    requires NoSpace(a) && NoSpace(b) && b != []
    requires gap != [] && forall i :: 0 <= i < |gap| ==> IsSpace(gap[i])
    ensures Slug(a + gap + b) == Lower(a) + "-" + Lower(b)
  {
    SlugJoinsWords(a, gap, b);
    SlugOfSpaceless(b);
  }

  // ---------------------------------------------------------------------
  // Search

  predicate StartsWith(s: string, p: string) {
    |p| <= |s| && s[..|p|] == p
  }

  predicate EndsWith(s: string, p: string) {
    |p| <= |s| && s[|s| - |p|..] == p
  }

  /** `p` occurs in `s` at index `k`. */
  predicate At(s: string, p: string, k: int) {
    0 <= k && k + |p| <= |s| && s[k..k + |p|] == p
  }

  /** First index at or after `from` where `p` occurs, or -1 (`indexOf`, `find`). */
  function IndexFrom(s: string, p: string, from: nat): (r: int)
    ensures r == -1 || (from <= r && At(s, p, r))
    ensures r == -1 ==> forall k :: from <= k ==> !At(s, p, k)
    ensures r != -1 ==> forall k :: from <= k < r ==> !At(s, p, k)
    decreases |s| - from
  {
    if from + |p| > |s| then -1
    else if s[from..from + |p|] == p then from
    else IndexFrom(s, p, from + 1)
  }

  function IndexOf(s: string, p: string): (r: int)
    ensures r == -1 || At(s, p, r)
    ensures r == -1 <==> forall k :: !At(s, p, k)
    ensures r != -1 ==> forall k :: 0 <= k < r ==> !At(s, p, k)
  {
    IndexFrom(s, p, 0)
  }

  /** `s.includes(p)`. */
  predicate Contains(s: string, p: string) {
    IndexOf(s, p) != -1
  }

  lemma ContainsAt(s: string, p: string, k: int)
    requires At(s, p, k)
    ensures Contains(s, p)
  {
  }

  /** A piece placed verbatim in a concatenation is contained in it. */
  lemma ContainsMiddle(a: string, x: string, b: string)
    ensures Contains(a + x + b, x)
  {
    assert (a + x + b)[|a|..|a| + |x|] == x;
    ContainsAt(a + x + b, x, |a|);
  }

  /** What a piece contains, a text around that piece contains too. */
  lemma ContainsWithin(a: string, x: string, b: string, p: string)
    requires Contains(x, p)
    ensures Contains(a + x + b, p)
  {
    var k := IndexOf(x, p);
    assert (a + x + b)[|a| + k..|a| + k + |p|] == x[k..k + |p|];
    ContainsAt(a + x + b, p, |a| + k);
  }

  lemma JoinTwo(x: string, y: string, sep: string)
    ensures Join([x, y], sep) == x + sep + y
  {
    assert [x, y][1..] == [y];
  }

  /** A concatenation starts with its first part and ends with its last. */
  lemma Ends(a: string, b: string)
    ensures StartsWith(a + b, a) && EndsWith(a + b, b)
  {
    assert (a + b)[..|a|] == a;
    assert (a + b)[|a|..] == b;
  }

  lemma Regroup3(a: string, b: string, c: string)
    ensures a + b + c == a + (b + c)
  {
  }

  /** Number of non-overlapping, left-to-right occurrences (`match(/p/g).length`). */
  function Count(s: string, p: string): (n: nat)
    requires |p| > 0
    ensures n * |p| <= |s|
    decreases |s|
  {
    if |s| < |p| then 0
    else if s[..|p|] == p then 1 + Count(s[|p|..], p)
    else Count(s[1..], p)
  }

  lemma AtTail(s: string, p: string, k: int)
    requires k >= 1 && |s| >= 1
    ensures At(s, p, k) <==> At(s[1..], p, k - 1)
  {
    if At(s, p, k) {
      assert s[1..][k - 1..k - 1 + |p|] == s[k..k + |p|];
    }
    if At(s[1..], p, k - 1) {
      assert s[1..][k - 1..k - 1 + |p|] == s[k..k + |p|];
    }
  }

  /** No occurrence is counted exactly when the pattern does not occur. */
  lemma {:induction false} CountZeroIff(s: string, p: string)
    requires |p| > 0
    ensures Count(s, p) == 0 <==> !Contains(s, p)
    decreases |s|
  {
    if |s| < |p| {
    } else if s[..|p|] == p {
      assert At(s, p, 0);
    } else {
      CountZeroIff(s[1..], p);
      forall k | k >= 1 {
        AtTail(s, p, k);
      }
      if Contains(s[1..], p) {
        var k := IndexOf(s[1..], p);
        AtTail(s, p, k + 1);
      }
      if Contains(s, p) {
        var k := IndexOf(s, p);
        assert k != 0;
        AtTail(s, p, k);
      }
    }
  }

  // ---------------------------------------------------------------------
  // Replacement

  /** `s.replace(/p/g, v)` for a literal pattern `p`: every non-overlapping
      occurrence, scanned left to right, is replaced by `v`; the text of `v`
      is not scanned again. */
  function ReplaceAll(s: string, p: string, v: string): (r: string)
    requires |p| > 0
    decreases |s|
  {
    if |s| < |p| then s
    else if s[..|p|] == p then v + ReplaceAll(s[|p|..], p, v)
    else [s[0]] + ReplaceAll(s[1..], p, v)
  }

  /** `s.replace(p, v)` with a string pattern: only the first occurrence. */
  function ReplaceFirst(s: string, p: string, v: string): (r: string)
  {
    var i := IndexOf(s, p);
    if i == -1 then s else s[..i] + v + s[i + |p|..]
  }

  /** Replacing the first occurrence by a text that starts with the
      pattern: the text before it and after it is kept, and no occurrence
      of the pattern appears before it. */
  lemma ReplaceFirstShape(s: string, p: string, v: string)
    requires Contains(s, p) && StartsWith(v, p)
    ensures var i := IndexOf(s, p);
      var c := ReplaceFirst(s, p, v);
      i + |v| <= |c| &&
      c[..i] == s[..i] && c[i..i + |v|] == v && c[i + |v|..] == s[i + |p|..] &&
      forall k :: 0 <= k < i ==> !At(c, p, k)
  {
    var i := IndexOf(s, p);
    var c := s[..i] + v + s[i + |p|..];
    assert c[..i] == s[..i];
    assert c[i..i + |v|] == v;
    assert c[i + |v|..] == s[i + |p|..];
    forall k | 0 <= k < i ensures !At(c, p, k) {
      SameWindowBeforeFirst(s, p, v, i, k);
      assert !At(s, p, k);
    }
  }

  lemma SameWindowBeforeFirst(s: string, p: string, v: string, i: nat, k: nat)
    requires At(s, p, i) && StartsWith(v, p) && k < i
    ensures var c := s[..i] + v + s[i + |p|..];
      k + |p| <= |c| && c[k..k + |p|] == s[k..k + |p|]
  {
    var c := s[..i] + v + s[i + |p|..];
    if k + |p| <= i {
      assert c[k..k + |p|] == s[k..k + |p|];
    } else {
      var m := k + |p| - i;
      assert c[k..k + |p|] == s[k..i] + v[..m];
      assert v[..m] == p[..m] == s[i..k + |p|];
      assert s[k..k + |p|] == s[k..i] + s[i..k + |p|];
    }
  }

  // ---------------------------------------------------------------------
  // Split and join on one character

  /** `s.split(c)` for a one-character separator: `"".split(c) == [""]`. */
  function Split(s: string, c: char): (r: seq<string>)
    ensures |r| >= 1
    ensures forall i :: 0 <= i < |r| ==> c !in r[i]
    decreases |s|
  {
    if s == [] then [""]
    else if s[0] == c then [""] + Split(s[1..], c)
    else
      var rest := Split(s[1..], c);
      [[s[0]] + rest[0]] + rest[1..]
  }

  /** `xs.join(sep)`. */
  function Join(xs: seq<string>, sep: string): (r: string)
    decreases |xs|
  {
    if xs == [] then ""
    else if |xs| == 1 then xs[0]
    else xs[0] + sep + Join(xs[1..], sep)
  }

  /** Joining the pieces of a split restores the text. */
  lemma {:induction false} JoinSplit(s: string, c: char)
    ensures Join(Split(s, c), [c]) == s
    decreases |s|
  {
    if s == [] {
    } else if s[0] == c {
      JoinSplit(s[1..], c);
      var rest := Split(s[1..], c);
      assert Join([""] + rest, [c]) == "" + [c] + Join(rest, [c]);
      assert s == [c] + s[1..];
    } else {
      JoinSplit(s[1..], c);
      var rest := Split(s[1..], c);
      var r := [[s[0]] + rest[0]] + rest[1..];
      if |rest| == 1 {
        assert r == [[s[0]] + rest[0]];
      } else {
        assert r[1..] == rest[1..];
        assert Join(rest, [c]) == rest[0] + [c] + Join(rest[1..], [c]);
      }
      assert s == [s[0]] + s[1..];
    }
  }

  /** Splitting a join of separator-free pieces gives the pieces back. */
  lemma {:induction false} SplitJoin(xs: seq<string>, c: char)
    requires |xs| >= 1
    requires forall i :: 0 <= i < |xs| ==> c !in xs[i]
    ensures Split(Join(xs, [c]), c) == xs
    decreases |xs|
  {
    if |xs| == 1 {
      SplitPlain(xs[0], c);
    } else {
      SplitJoin(xs[1..], c);
      SplitPiece(xs[0], Join(xs[1..], [c]), c);
      assert xs == [xs[0]] + xs[1..];
    }
  }

  lemma {:induction false} SplitPlain(x: string, c: char)
    requires c !in x
    ensures Split(x, c) == [x]
    decreases |x|
  {
    if x != [] {
      SplitPlain(x[1..], c);
      assert x == [x[0]] + x[1..];
    }
  }

  lemma {:induction false} SplitPiece(x: string, rest: string, c: char)
    requires c !in x
    ensures Split(x + [c] + rest, c) == [x] + Split(rest, c)
    decreases |x|
  {
    if x == [] {
      assert x + [c] + rest == [c] + rest;
      assert ([c] + rest)[1..] == rest;
    } else {
      assert (x + [c] + rest)[1..] == x[1..] + [c] + rest;
      SplitPiece(x[1..], rest, c);
      assert x == [x[0]] + x[1..];
    }
  }

  /** `xs.map(x => p + x)`. */
  function PrefixEach(p: string, xs: seq<string>): (ys: seq<string>)
    ensures |ys| == |xs|
    ensures forall i :: 0 <= i < |xs| ==> ys[i] == p + xs[i]
  {
    seq(|xs|, i requires 0 <= i < |xs| => p + xs[i])
  }

  /** Prefixed one-line items joined by line feeds split back into the
      prefixed items: one line per item, in order. */
  lemma PrefixedLines(p: string, xs: seq<string>)
    requires xs != [] && '\n' !in p
    requires forall i :: 0 <= i < |xs| ==> '\n' !in xs[i]
    ensures Split(Join(PrefixEach(p, xs), "\n"), '\n') == PrefixEach(p, xs)
  {
    var ys := PrefixEach(p, xs);
    forall i | 0 <= i < |ys| ensures '\n' !in ys[i] {
      assert ys[i] == p + xs[i];
    }
    SplitJoin(ys, '\n');
  }

  /** Joining with "<sep><p>" after a leading `p` prefixes every item:
      `p + xs.join(sep + p) == xs.map(x => p + x).join(sep)`. */
  lemma {:induction false} JoinWithPrefix(p: string, sep: string, xs: seq<string>)
    requires xs != []
    ensures p + Join(xs, sep + p) == Join(PrefixEach(p, xs), sep)
    decreases |xs|
  {
    var ys := PrefixEach(p, xs);
    if |xs| > 1 {
      JoinWithPrefix(p, sep, xs[1..]);
      assert ys[1..] == PrefixEach(p, xs[1..]);
      assert Join(ys, sep) == ys[0] + sep + Join(ys[1..], sep);
      assert Join(xs, sep + p) == xs[0] + (sep + p) + Join(xs[1..], sep + p);
    }
  }

  /** Concatenation of a list of pieces. */
  function Concat(xs: seq<string>): string
    decreases |xs|
  {
    if xs == [] then "" else xs[0] + Concat(xs[1..])
  }

  /** Any piece of a concatenation sits between the pieces before and after it. */
  lemma {:induction false} ConcatAround(xs: seq<string>, i: nat)
    requires i < |xs|
    ensures Concat(xs) == Concat(xs[..i]) + xs[i] + Concat(xs[i + 1..])
    decreases i
  {
    if i > 0 {
      ConcatAround(xs[1..], i - 1);
      assert xs[1..][..i - 1] == xs[1..i];
      assert xs[1..][i - 1] == xs[i];
      assert xs[1..][i..] == xs[i + 1..];
      assert xs[..i] == [xs[0]] + xs[1..i];
      assert Concat(xs[..i]) == xs[0] + Concat(xs[1..i]) by {
        assert xs[..i][1..] == xs[1..i];
      }
    }
  }

  /** Every piece of a concatenation occurs in it. */
  lemma ConcatContains(xs: seq<string>, i: nat)
    requires i < |xs|
    ensures Contains(Concat(xs), xs[i])
  {
    ConcatAround(xs, i);
    ContainsMiddle(Concat(xs[..i]), xs[i], Concat(xs[i + 1..]));
  }

  // ---------------------------------------------------------------------
  // Trimming, prefixes, repetition

  function TrimStart(s: string): (r: string)
    ensures r == DropSpaces(s)
  {
    DropSpaces(s)
  }

  function TrimEnd(s: string): (r: string)
    ensures |r| <= |s| && r == s[..|r|]
    ensures r == [] || !IsSpace(r[|r| - 1])
    ensures forall i :: |r| <= i < |s| ==> IsSpace(s[i])
    decreases |s|
  {
    if s != [] && IsSpace(s[|s| - 1]) then TrimEnd(s[..|s| - 1]) else s
  }

  /** `s.trim()` / `s.strip()` over the whitespace class above. */
  function Trim(s: string): (r: string)
    ensures r == [] || (!IsSpace(r[0]) && !IsSpace(r[|r| - 1]))
    ensures |r| <= |s|
    ensures TrimmedAt(s, r, |s| - |DropSpaces(s)|)
  {
    TrimSlice(s);
    TrimEnd(DropSpaces(s))
  }

  predicate Blank(x: string) {
    forall k :: 0 <= k < |x| ==> IsSpace(x[k])
  }

  /** `r` is the slice of `s` starting at `i` with only white space around it. */
  predicate TrimmedAt(s: string, r: string, i: int) {
    0 <= i <= |s| - |r| && r == s[i..i + |r|] && Blank(s[..i]) && Blank(s[i + |r|..])
  }

  /** What trimming keeps is a slice of the text with only white space
      around it. */
  lemma TrimSlice(s: string)
    ensures TrimmedAt(s, TrimEnd(DropSpaces(s)), |s| - |DropSpaces(s)|)
  {
    var d := DropSpaces(s);
    DropSpacesBlankPrefix(s);
    TrimEndBlank(d);
    BlankAround(s, d, TrimEnd(d));
  }

  lemma TrimEndBlank(d: string)
    ensures Blank(d[|TrimEnd(d)|..])
  {
    var x := d[|TrimEnd(d)|..];
    assert forall k :: 0 <= k < |x| ==> x[k] == d[|TrimEnd(d)| + k];
  }

  lemma BlankAround(s: string, d: string, r: string)
    requires |d| <= |s| && d == s[|s| - |d|..] && Blank(s[..|s| - |d|])
    requires |r| <= |d| && r == d[..|r|] && Blank(d[|r|..])
    ensures TrimmedAt(s, r, |s| - |d|)
  {
    var i := |s| - |d|;
    assert r == s[i..i + |r|];
    assert s[i + |r|..] == d[|r|..];
  }

  /** The trimmed text is empty exactly when the text is all whitespace. */
  lemma {:induction false} TrimEmptyIffBlank(s: string)
    ensures Trim(s) == [] <==> forall i :: 0 <= i < |s| ==> IsSpace(s[i])
  {
    var d := DropSpaces(s);
    if Trim(s) == [] {
      DropSpacesAllSpace(s);
    } else {
      assert d != [];
      var k := |s| - |d|;
      assert s[k] == d[0];
    }
  }

  /** `s.substring(0, n)`: the first `n` characters, or all of them. */
  function Prefix(s: string, n: nat): (r: string)
    ensures |r| == if n < |s| then n else |s|
    ensures r == s[..|r|]
  {
    if n < |s| then s[..n] else s
  }

  /** Python's `c * n`, empty for n <= 0. (JavaScript's `c.repeat(n)`
      agrees for n >= 0 and throws for negative n.) */
  function Repeat(c: char, n: int): (r: string)
    ensures |r| == if n <= 0 then 0 else n
    ensures forall i :: 0 <= i < |r| ==> r[i] == c
    decreases if n <= 0 then 0 else n
  {
    if n <= 0 then "" else [c] + Repeat(c, n - 1)
  }

  /** Upper-cases the first character: `name.charAt(0).toUpperCase() + name.slice(1)`. */
  function Capitalize(s: string): (r: string)
    ensures |r| == |s|
    ensures s != [] ==> r[0] == UpperChar(s[0]) && r[1..] == s[1..]
  {
    if s == [] then [] else [UpperChar(s[0])] + s[1..]
  }

  // ---------------------------------------------------------------------
  // Decimal numbers

  predicate IsDigit(c: char) {
    '0' <= c <= '9'
  }

  function DigitChar(d: nat): (c: char)
    requires d < 10
    ensures IsDigit(c) && c as int - '0' as int == d
  {
    ('0' as int + d) as char
  }

  /** The decimal rendering of a count in a template literal or f-string. */
  function Decimal(n: nat): (r: string)
    ensures |r| >= 1 && forall i :: 0 <= i < |r| ==> IsDigit(r[i])
    ensures |r| > 1 ==> r[0] != '0'
    decreases n
  {
    if n < 10 then [DigitChar(n)] else Decimal(n / 10) + [DigitChar(n % 10)]
  }

  /** The value of a string of digits. */
  function DigitsValue(s: string): nat
    requires forall i :: 0 <= i < |s| ==> IsDigit(s[i])
    decreases |s|
  {
    if s == [] then 0
    else
      assert IsDigit(s[|s| - 1]);
      DigitsValue(s[..|s| - 1]) * 10 + (s[|s| - 1] as int - '0' as int)
  }

  /** Reading the rendered digits back gives the number. */
  lemma {:induction false} DecimalRoundTrip(n: nat)
    ensures DigitsValue(Decimal(n)) == n
    decreases n
  {
    var r := Decimal(n);
    if n < 10 {
      assert r[..0] == [];
    } else {
      DecimalRoundTrip(n / 10);
      assert r[..|r| - 1] == Decimal(n / 10);
    }
  }

  /** Appending one piece to a concatenation. */
  lemma ConcatAppend(xs: seq<string>, x: string)
    ensures Concat(xs + [x]) == Concat(xs) + x
  {
    var ys := xs + [x];
    ConcatAround(ys, |xs|);
    assert ys[..|xs|] == xs;
    assert ys[|xs| + 1..] == [];
  }

  /** A concatenation grows one piece at a time. */
  lemma ConcatPrefix(xs: seq<string>, k: nat)
    requires k < |xs|
    ensures Concat(xs[..k + 1]) == Concat(xs[..k]) + xs[k]
  {
    assert xs[..k + 1] == xs[..k] + [xs[k]];
    ConcatAppend(xs[..k], xs[k]);
  }
}
